=== FILE: README.md ===
# Record-reconciliation cleaners

This project is a Dafny model of the three table cleaners of a data-reconciliation
pipeline: the customer cleaner (`clean_customer_data`), the orders cleaner
(`clean_orders_dataset` and its nine stage functions) and the product cleaner
(`clean_product_dataset`). Each cleaner takes a table of messy records and returns
a table in which:

- duplicate columns are merged or dropped;
- text fields are standardised through fixed lookup tables;
- dates, numbers and flags are converted;
- cross-field checks either correct values or raise anomaly flags.

Modules:

- `Values` holds the cell values: `Option` for a cell that may be missing (NaN, None
  or NaT), and `Cell` for a column whose dtype a cleaner converts in place. Such a
  cell is raw `Text` until its step converts it to a `Value`.
- `Tables` holds the column-wide application of a per-row function. `MapRows` is the
  in-place `df[col] = df[col].apply(f)`.
- `Text` models the Python string operations the cleaners use: `lower`, `upper`,
  `title`, `capitalize`, `strip`, `split` and `join`, plus decimal rendering.
- `Dates` models `strptime` for the four date formats, and `strftime('%Y-%m-%d')`.
- `Customers`, `Orders` and `Products` model one cleaner each.

Model forms:

- **Customers.** Each step is a function on one row. The column-wide steps, the
  row loop of the age check and the deduplication are methods over arrays, each
  proved equal to the row functions.
- **Orders.** The data frame changes in place. It is the class `Orders.OrderTable`,
  with a column set and an array of rows. Each stage function is a method proved
  against a pure function on frames.
- **Products.** Every step rewrites whole columns, row by row. The model is one
  function per step on a row, composed as `Products.CleanProduct`. The method
  `Products.CleanProductDataset` runs the column loops of the source over an array
  and is proved equal to that function on every row.

Parameters stand in for library calls whose behaviour the cleaners do not define:

- `pd.to_numeric` on a text is `toNumeric`.
- The free-form `pd.to_datetime` is `toDatetime` / `parseAny`.
- The `%Y-%m-%dT%H:%M:%S.%fZ` reader is `parseIso`.
- `np.random.randint` is `draws`, a sequence of drawn numbers.
- `datetime.now().year` is `currentYear`.

## Model

| member | source | states |
|---|---|---|
| Customers.MergeNames | cleaners/clean_customers.py:92-104 | The result is one of the two names. It is missing only when both are. A name with a space wins over one without. Otherwise the first name is kept. |
| Customers.MergeEmails | cleaners/clean_customers.py:106-122 | The result is one of the two addresses and is missing only when both are. If either contains '@', the result does. The second wins only when it has an '@' and the first lacks one. |
| Customers.MergePhones | cleaners/clean_customers.py:124-136 | The result is one of the two numbers. It is missing only when the first is missing or blank and the second is missing. A non-blank number is never replaced by a blank one. Of two non-blank numbers the longer wins, and a tie keeps the first. |
| Customers.MergeZipCodes | cleaners/clean_customers.py:138-148 | The first zip code wins. Otherwise the result is the part of the postal code before its first '-': a prefix of the postal code with no '-' in it. |
| Customers.BeforeFirst | cleaners/clean_customers.py:143 | `str(s).split(c)[0]`: the result is a prefix of the text with no `c` in it, and it ends at the first `c` or at the end of the text. |
| Customers.MergeColumns | cleaners/clean_customers.py:14-52 | Step 1: each merged column holds one of its pair's two values, and is missing only when both are. A present first zip code is kept. Every column that is not merged is carried over unchanged. The row functions it applies are specified by the five merge rows above. |
| Customers.MergeFirstNonBlank | cleaners/clean_customers.py:150-168 | `_merge_dates` / `_merge_status`: the first value unless it is missing or blank, else the second. |
| Customers.FormatPhone | cleaners/clean_customers.py:180 | The text is 14 characters: "(", the first three digits, ") ", the next three, "-", the last four. |
| Customers.StandardizePhone | cleaners/clean_customers.py:170-185 | Missing stays missing. A number of 10 digits, or 11 digits with a leading 1, becomes `(XXX) XXX-XXXX` of those 10 digits and holds exactly them. Any other number is returned unchanged. |
| Customers.DigitsOfFormattedPhone | cleaners/clean_customers.py:178-180 | The formatted `(ddd) ddd-dddd` text contains exactly the ten digits it was built from. |
| Customers.StandardizePhoneIdempotent | cleaners/clean_customers.py:170-185 | Standardising a standardised phone number changes nothing. |
| Customers.StandardizeDate | cleaners/clean_customers.py:187-201 | Missing or blank input gives missing. Otherwise the first of `%m/%d/%Y`, `%Y-%m-%d`, `%d/%m/%Y`, `%Y/%m/%d` that reads the text gives that date as `YYYY-MM-DD`. A text no format reads is returned unchanged. |
| Customers.FirstParseOfIsoDate | cleaners/clean_customers.py:194-196 | A rendered `YYYY-MM-DD` date is read back as the same date by the first format list that accepts it. |
| Customers.StandardizeIsoDate | cleaners/clean_customers.py:187-201 | A rendered date standardises to itself. |
| Customers.StandardizeDateIdempotent | cleaners/clean_customers.py:187-201 | Standardising a standardised date changes nothing. |
| Customers.MonthFirstWins | cleaners/clean_customers.py:194-196 | "03/04/2021" is read month first, as 2021-03-04. |
| Customers.StandardizeByTable | cleaners/clean_customers.py:216-217 | Missing stays missing. A value whose stripped, lower-cased key is in the table becomes the table's entry; any other value goes through the fallback. Idempotence is `StandardizeByTableIdempotent`. |
| Customers.StandardizeByTableIdempotent | cleaners/clean_customers.py:216-217 | A lookup standardiser is idempotent when three things hold: its fallback keeps the lookup key, the fallback is idempotent, and the table entry standardises to itself. |
| Customers.TitleKeepsKey | cleaners/clean_customers.py:216-217 | Title-casing keeps the lookup key `strip().lower()`. |
| Customers.UpperKeepsKey | cleaners/clean_customers.py:234-235 | Upper-casing keeps the lookup key. |
| Customers.StandardizeCity | cleaners/clean_customers.py:203-217 | Missing stays missing. A key in the city table gives its entry ("nyc" gives "New York"), and any other value is title-cased. |
| Customers.StandardizeState | cleaners/clean_customers.py:219-235 | Missing stays missing. A key in the state table gives its two-letter code, and any other value is upper-cased. |
| Customers.StandardizeStatus | cleaners/clean_customers.py:237-250 | Missing stays missing. A key in the status table gives its capitalised name, and any other value is title-cased. |
| Customers.StandardizeGender | cleaners/clean_customers.py:252-266 | Missing stays missing. "f", "female", "m", "male" and "other" give Female, Male or Other, and any other value is title-cased. |
| Customers.CityNamesFixed | cleaners/clean_customers.py:208-217 | Every entry of the city table standardises to itself. |
| Customers.StateCodesFixed | cleaners/clean_customers.py:224-235 | Every entry of the state table standardises to itself. |
| Customers.StatusNamesFixed | cleaners/clean_customers.py:242-250 | Every entry of the status table standardises to itself. |
| Customers.GenderNamesFixed | cleaners/clean_customers.py:257-266 | Every entry of the gender table standardises to itself. |
| Customers.StandardizeCityIdempotent | cleaners/clean_customers.py:203-217 | The city standardiser keeps missingness and is idempotent. |
| Customers.StandardizeStateIdempotent | cleaners/clean_customers.py:219-235 | The state standardiser keeps missingness and is idempotent. |
| Customers.StandardizeStatusIdempotent | cleaners/clean_customers.py:237-250 | The status standardiser keeps missingness and is idempotent. |
| Customers.StandardizeGenderIdempotent | cleaners/clean_customers.py:252-266 | The gender standardiser keeps missingness and is idempotent. |
| Customers.StandardizeFormats | cleaners/clean_customers.py:54-61 | Step 2: only the phone, the two dates, city, state, status and gender change. Each keeps its missingness, except that a blank date becomes missing. |
| Customers.StandardizeFormatsIdempotent | cleaners/clean_customers.py:54-61 | Running step 2 twice gives the same row as running it once. |
| Customers.NullToMissing | cleaners/clean_customers.py:63-66 | A kept value is not a null marker and not blank. A value that is neither is kept. |
| Customers.NullCityIsTitled | cleaners/clean_customers.py:203-217 | The city "NULL" is title-cased to "Null". |
| Customers.NullCityIsKept | cleaners/clean_customers.py:58-66 | Standardising runs before null replacement, so a "NULL" city survives as "Null". |
| Customers.ReplaceNullMarkers | cleaners/clean_customers.py:63-66 | Step 3: in every column a present value is kept exactly when it is not a null marker, and a marker becomes missing. |
| Customers.StripFloatSuffix | cleaners/clean_customers.py:75 | The result is the input, or the input less a final ".0". The final ".0" may stand before a final newline. |
| Customers.NormalizeZip | cleaners/clean_customers.py:74-76 | Missing stays missing. A zip code is kept, without its ".0" suffix, exactly when that text is not "nan". Otherwise it becomes missing. |
| Customers.ZipOfFloatText | cleaners/clean_customers.py:74-76 | A zip code read as a float ("12345.0") gets its own text back. |
| Customers.ZipOfDigits | cleaners/clean_customers.py:74-76 | A zip code of digits is kept as it is. |
| Customers.CorrectTypes | cleaners/clean_customers.py:68-79 | Step 4: text columns other than the zip code are unchanged. The zip code is `NormalizeZip` of its text, so never "nan". Each numeric column is `toNumeric` of its text, and each date column `toDatetime` of its text; missing stays missing. |
| Customers.IsEmailAddressCorrect | cleaners/clean_customers.py:273-274 | The single-pass scan accepts exactly the strings of the e-mail pattern's language. |
| Customers.MatchesEmailPatternCorrect | cleaners/clean_customers.py:273-274 | `re.match` with `$` accepts a string in the language, or such a string followed by one newline. |
| Customers.ValidateEmail | cleaners/clean_customers.py:268-276 | An address is kept (unchanged) exactly when it matches the pattern. Otherwise it becomes missing. |
| Customers.ReconcileAge | cleaners/clean_customers.py:278-296 | Only the age changes. With a birth date and a missing age, or one more than a year from `currentYear - birthYear`, the age becomes exactly `currentYear - birthYear`. An age within one year is kept. Without a birth date nothing changes. |
| Customers.ValidateAgeConsistency | cleaners/clean_customers.py:278-296 | The row loop leaves every row as the per-row reconciliation makes it. |
| Customers.ReconcileAges | cleaners/clean_customers.py:278-296 | Every row is reconciled on its own, and the row count is kept. |
| Customers.DedupFirstIds | cleaners/clean_customers.py:84 | Deduplication keeps the same set of ids, and no two kept rows share an id. |
| Customers.DedupFirst | cleaners/clean_customers.py:84 | `drop_duplicates(subset=['customer_id'], keep='first')` on a sequence; specified by `DedupFirstIds`, `DedupFirstKeepsFirst` and `DedupFirstSubset`. |
| Customers.DedupFirstKeepsFirst | cleaners/clean_customers.py:84 | Each kept row is the first row of its id (`keep='first'`). Kept rows stay in input order. |
| Customers.DropDuplicateIds | cleaners/clean_customers.py:84 | The scan over the array returns a fresh array holding the deduplicated rows. |
| Customers.DedupFirstSubset | cleaners/clean_customers.py:84 | Every kept row is an input row. |
| Customers.CleanCustomerData | cleaners/clean_customers.py:8-90 | The column-wide steps on arrays produce exactly the cleaned rows of the whole pass. |
| Customers.CleanRow | cleaners/clean_customers.py:8-83 | Steps 1-4, e-mail validation and age reconciliation on one row; specified by `CleanRowIsClean` and `CleanRowId`. |
| Customers.CleanCustomers | cleaners/clean_customers.py:8-90 | `clean_customer_data` on a sequence of rows; specified by `CleanCustomersRowsClean`, `CleanCustomersUniqueIds` and `CleanCustomersIds`. |
| Customers.CleanRowIsClean | cleaners/clean_customers.py:8-83 | A cleaned row has no null markers in its text fields, a valid or missing e-mail, and an age consistent with its birth date. |
| Customers.CleanRowId | cleaners/clean_customers.py:65 | A row's id is its input id with null markers made missing. |
| Customers.CleanCustomersRowsClean | cleaners/clean_customers.py:8-90 | Every row of the cleaned table is clean. |
| Customers.CleanCustomersUniqueIds | cleaners/clean_customers.py:84 | No two rows of the cleaned table share a customer id. |
| Customers.CleanCustomersIds | cleaners/clean_customers.py:65-84 | The cleaned table's ids are exactly the input ids, with null markers made missing. |
| Dates.IsoDateRoundTrip | cleaners/clean_customers.py:196 | `strptime('%Y-%m-%d')` reads a date rendered by `strftime('%Y-%m-%d')` back as the same date. |
| Dates.FirstParse | cleaners/clean_customers.py:194-197 | The result is the reading of the first format that accepts the text: every earlier format rejects it. There is no result exactly when every format rejects the text. |
| Dates.Strptime | cleaners/clean_customers.py:196 | `datetime.strptime` with one of the four formats: a result is a valid date, and the text holds the format's separator. Its inverse is `IsoDateRoundTrip`. |
| Dates.FormatIsoDate | cleaners/clean_customers.py:196 | `strftime('%Y-%m-%d')`: ten characters, digits except for '-' at positions 4 and 7. `IsoDateRoundTrip` reads it back. |
| Text.Strip | cleaners/clean_customers.py:216 | `str.strip()`: no longer than the text, a slice of it, and with no whitespace at either end. |
| Text.StripIdempotent | cleaners/clean_customers.py:216 | Stripping a stripped text changes nothing. |
| Text.Title | cleaners/clean_customers.py:217 | `str.title()`: the same length as the text. Its case facts are `TitleIdempotent`, `LowerOfTitle` and `TitleOfLower`. |
| Text.TitleIdempotent | cleaners/clean_customers.py:217 | Title-casing a title-cased text changes nothing. |
| Text.Capitalize | cleaners/clean_products.py:355 | `str.capitalize()`: the same length, the first character upper-cased and every other one lower-cased. |
| Text.Words | cleaners/clean_products.py:355 | `str.split()`: every part is a non-empty run without whitespace. |
| Text.WordsOfJoin | cleaners/clean_products.py:355 | Splitting the space-join of a list of words gives back the list. |
| Orders.Dropped | cleaners/clean_orders.py:52-58 | Dropping a column removes it from the column set. It keeps every row and keeps a well-formed frame well-formed. |
| Orders.WithoutDuplicateColumns | cleaners/clean_orders.py:49-60 | Keeps the row count; the columns and rows are specified by `WithoutDuplicateColumnsSound`. |
| Orders.WithoutDuplicateColumnsSound | cleaners/clean_orders.py:49-60 | `cust_id` and `ord_id` are gone. The other columns and every row's other fields are kept. |
| Orders.ParseOrderDate | cleaners/clean_orders.py:65-77 | The result is converted. Missing or empty input gives missing, and a converted cell is kept. A text that a listed format reads gives the first such format's date at midnight. Any other text gives what the general parser `parseAny` reads, or missing. |
| Orders.OrderDateFormatsRedundant | cleaners/clean_orders.py:68 | The repeated `%m/%d/%Y` never matters: the list reads like `[%m/%d/%Y, %Y-%m-%d, %d/%m/%Y]`. |
| Orders.OrderDateMonthFirst | cleaners/clean_orders.py:68-71 | "03/04/2021" is read month first. |
| Orders.CoerceDatetime | cleaners/clean_orders.py:83 | The result is converted. Missing stays missing, and a converted cell is kept. A text gets `toDatetime`'s reading, and is missing exactly when `toDatetime` rejects it. |
| Orders.WithParsedDates | cleaners/clean_orders.py:62-85 | Keeps the row count; both date columns converted and the rest kept, by `WithParsedDatesSound`. |
| Orders.WithParsedDatesSound | cleaners/clean_orders.py:62-85 | Both date columns are converted. The columns, the row count, the statuses and the tracking numbers are kept. |
| Orders.FillOrderDate | cleaners/clean_orders.py:89-91 | Only the order date changes, and only when missing. It then takes the calendar date of the timestamp. |
| Orders.FillOrderDatetime | cleaners/clean_orders.py:94-95 | Only the timestamp changes, and only when missing. It then takes the order date at 12:00:00. |
| Orders.CrossFillAgrees | cleaners/clean_orders.py:89-95 | After both fills a row has an order date exactly when it has a timestamp. The filled one agrees on the calendar date. |
| Orders.TrackingCodeShape | cleaners/clean_orders.py:100 | A drawn number in [100000, 999999) renders as "TRK" and six digits. |
| Orders.WithTracking | cleaners/clean_orders.py:98-100 | Keeps the row count; which rows get a code, and of what shape, is `WithTrackingOnlyShipped`. |
| Orders.WithTrackingOnlyShipped | cleaners/clean_orders.py:98-100 | Only rows whose status upper-cases to SHIPPED or DELIVERED and that had no tracking number get one. It is a TRK code. Every such row ends with one. |
| Orders.WithFilledValues | cleaners/clean_orders.py:87-103 | Keeps the row count; specified by `WithFilledValuesWellFormed`, `WithFilledValuesDatesAgree` and `WithFilledValuesTracking`. |
| Orders.WithFilledValuesWellFormed | cleaners/clean_orders.py:87-103 | Filling writes only columns the table has, and never the status. |
| Orders.WithFilledValuesDatesAgree | cleaners/clean_orders.py:89-96 | With both date columns, every row ends with both dates or neither. |
| Orders.WithFilledValuesTracking | cleaners/clean_orders.py:98-101 | A tracking number changes only on a shipped or delivered row, and then to a TRK code. With both columns every such row has one. |
| Orders.Rank | cleaners/clean_orders.py:121 | The priority is in 0..5, and is positive exactly for the five status tokens. |
| Orders.StatusToken | cleaners/clean_orders.py:107-110 | There is a token exactly for the five lower-case keys. |
| Orders.RankInjective | cleaners/clean_orders.py:121 | Two statuses of equal positive priority are equal. |
| Orders.CanonicalStatus | cleaners/clean_orders.py:107-117 | The result is always a status token. A status whose lower case is a table key gives that key's token. Any other status, and a missing one, becomes PENDING. |
| Orders.CanonicalStatusIdempotent | cleaners/clean_orders.py:113 | Mapping a mapped status again changes nothing. |
| Orders.CanonicalStatusOfUpper | cleaners/clean_orders.py:107-113 | A status that lower-cases to a table key maps to its upper case. |
| Orders.MergeStatus | cleaners/clean_orders.py:120-125 | The merged status is one of the two and has the higher priority. A tie keeps `status`. |
| Orders.MergeStatusExample | cleaners/clean_orders.py:120-125 | "shipped" against "delivered" gives DELIVERED. |
| Orders.HighRank | cleaners/clean_orders.py:121 | Priorities 4 and 5 belong only to SHIPPED and DELIVERED. |
| Orders.WithMergedStatus | cleaners/clean_orders.py:105-128 | Keeps the row count; specified by `WithMergedStatusWellFormed` and `WithMergedStatusTokens`. |
| Orders.WithMergedStatusWellFormed | cleaners/clean_orders.py:105-128 | The status stage changes only the two status columns. It drops `order_status` when both are present. |
| Orders.WithMergedStatusTokens | cleaners/clean_orders.py:105-128 | Every status is then a token. A status that read SHIPPED or DELIVERED is still one of the two. |
| Orders.IsQuantityConflict | cleaners/clean_orders.py:132 | There is no conflict exactly when both quantities are present and equal. |
| Orders.MaxQuantity | cleaners/clean_orders.py:139 | Present exactly when both are. It is then the larger of the two. |
| Orders.MergedQuantityAgreesWithFlag | cleaners/clean_orders.py:130-142 | A row without a conflict keeps its quantity. With a conflict the merged quantity bounds both. |
| Orders.QuantityExample | cleaners/clean_orders.py:130-142 | Quantity 3 and qty 5 give a conflict and quantity 5. |
| Orders.WithQuantityConflict | cleaners/clean_orders.py:130-134 | Keeps the row count; specified by `WithQuantityConflictSound` and `MergedQuantityAgreesWithFlag`. |
| Orders.WithMergedQuantity | cleaners/clean_orders.py:136-142 | Keeps the row count; specified by `WithMergedQuantitySound` and `MergedQuantityAgreesWithFlag`. |
| Orders.WithQuantityConflictSound | cleaners/clean_orders.py:130-134 | The flag stage keeps the frame well-formed and the earlier fields of every row. |
| Orders.WithMergedQuantitySound | cleaners/clean_orders.py:136-142 | The merge stage keeps the frame well-formed and the earlier fields of every row. |
| Orders.LineValue | cleaners/clean_orders.py:148 | `unit_price * quantity` is present exactly when both inputs are. |
| Orders.ExpectedTotal | cleaners/clean_orders.py:148 | The expected total is present exactly when all five inputs are. |
| Orders.IsClose | cleaners/clean_orders.py:149 | `np.isclose(a, b, atol=1.0)`: both present and at most 1.0 apart. Its use is stated by `RecalculateRowSound`. |
| Orders.RecalculateRow | cleaners/clean_orders.py:148-153 | Only the flag and the two totals change; their values are `RecalculateRowSound` and `RecalculateRowMissing`. |
| Orders.RecalculateRowSound | cleaners/clean_orders.py:148-153 | With all five inputs, the recalculated row satisfies the total equation and its total amount is line value minus discount. It is flagged exactly when the old total was more than 1.0 away. |
| Orders.RecalculateRowMissing | cleaners/clean_orders.py:148-153 | A row missing an input loses both totals and is flagged. |
| Orders.WithRecalculatedTotals | cleaners/clean_orders.py:144-159 | It fails (the `KeyError`) exactly when the five input columns are there and `order_total` is not. |
| Orders.WithRecalculatedTotalsSound | cleaners/clean_orders.py:144-159 | Every row is flagged. Every row with all inputs satisfies the total equation. |
| Orders.FillNoteOfRow | cleaners/clean_orders.py:169 | Only the note changes. A present note is kept, and a missing one becomes "". |
| Orders.LowValueColumnsSound | cleaners/clean_orders.py:161-171 | `notes` is dropped exactly when more than 75% of the notes are missing and at most two distinct notes are present. Otherwise every missing note becomes "" and every present note is kept. |
| Orders.EmptyNotesDropped | cleaners/clean_orders.py:163-167 | A non-empty table without any note loses its `notes` column. |
| Orders.WithLowValueColumnsHandled | cleaners/clean_orders.py:161-171 | Keeps the row count; the drop-or-fill rule is `LowValueColumnsSound`. |
| Orders.VariedNotesKept | cleaners/clean_orders.py:163-170 | A table with three different notes keeps its `notes` column, however many are missing. |
| Orders.LowValueColumnsKeeps | cleaners/clean_orders.py:161-171 | The notes stage keeps the earlier fields of every row. |
| Orders.AbsIfNegative | cleaners/clean_orders.py:176-179 | Missingness is kept, and the value becomes its absolute value. |
| Orders.CapDiscount | cleaners/clean_orders.py:180-182 | Missingness is kept. A discount above the line value becomes half the line value, and any other discount is kept. The discount then does not exceed a non-negative line value. |
| Orders.AbsColumns | cleaners/clean_orders.py:175-179 | The quantity and money columns the table has become non-negative. Nothing else changes. |
| Orders.ValidateRow | cleaners/clean_orders.py:173-183 | The row is `AbsColumns` of the input with only the discount changed further; `ValidateRowSound` states the result. |
| Orders.ValidateRowSound | cleaners/clean_orders.py:173-183 | A validated row is non-negative in those columns and its discount is capped by its line value. |
| Orders.WithValidatedNumbersSound | cleaners/clean_orders.py:173-183 | Every validated row is non-negative and discount-capped, and keeps its earlier fields. |
| Orders.WithValidatedNumbers | cleaners/clean_orders.py:173-183 | Keeps the row count; every row validated, by `WithValidatedNumbersSound`. |
| Orders.TotalEquationBroken | cleaners/clean_orders.py:148-182 | A discount of 20 on one item at 10 breaks the total equation after validation. |
| Orders.PreparedOrdersColumns | cleaners/clean_orders.py:17-27 | The first four stages drop the duplicate ids. They keep the columns the totals need. |
| Orders.PreparedOrdersSound | cleaners/clean_orders.py:17-27 | After four stages, dates agree and every status is a token. Generated tracking numbers sit only on shipped or delivered rows. |
| Orders.FinishedOrdersSound | cleaners/clean_orders.py:29-42 | The last five stages keep earlier fields. They leave every row non-negative and discount-capped. |
| Orders.FinishedOrdersFails | cleaners/clean_orders.py:35-36 | The last five stages fail exactly when the five inputs are there and `order_total` is not. |
| Orders.CleanOrdersSound | cleaners/clean_orders.py:9-47 | The cleaned table has no duplicate id columns and every row is clean. |
| Orders.CleanOrdersFails | cleaners/clean_orders.py:9-47 | The cleaner fails exactly when the five inputs are there and `order_total` is not. |
| Orders.CleanOrders | cleaners/clean_orders.py:9-47 | A result has one row per input row; specified by `CleanOrdersSound` and `CleanOrdersFails`. |
| Orders.OrderTable.constructor | cleaners/clean_orders.py:13 | `df.copy()`: a fresh table holding the given frame. |
| Orders.OrderTable.DropColumn | cleaners/clean_orders.py:53 | The table becomes the frame with the column dropped. |
| Orders.OrderTable.RemoveDuplicateColumns | cleaners/clean_orders.py:49-60 | The table becomes the frame without `cust_id` and `ord_id`. |
| Orders.OrderTable.StandardizeDateFormats | cleaners/clean_orders.py:62-85 | The table becomes the frame with both date columns parsed. |
| Orders.OrderTable.GenerateTrackingNumbers | cleaners/clean_orders.py:98-100 | The counting loop gives the rows that need one the successive drawn codes. |
| Orders.OrderTable.HandleMissingValues | cleaners/clean_orders.py:87-103 | The table becomes the frame with dates cross-filled and tracking numbers generated. |
| Orders.OrderTable.StandardizeStatusColumns | cleaners/clean_orders.py:105-128 | The table becomes the frame with the statuses mapped and merged. |
| Orders.OrderTable.FlagQuantityConflict | cleaners/clean_orders.py:130-134 | The table becomes the frame with the conflict flag added. |
| Orders.OrderTable.FixQuantityColumns | cleaners/clean_orders.py:136-142 | The table becomes the frame with the quantities merged. |
| Orders.OrderTable.RecalculateFinancialColumns | cleaners/clean_orders.py:144-159 | It succeeds exactly when the frame function does, and the table then holds the recalculated frame. On failure the table keeps its modelled columns. |
| Orders.OrderTable.HandleLowValueColumns | cleaners/clean_orders.py:161-171 | A single pass that counts the missing and distinct notes, then drops or fills the column as the frame function does. |
| Orders.OrderTable.FinalDataValidation | cleaners/clean_orders.py:173-183 | The table becomes the validated frame. |
| Orders.CleanOrdersDataset | cleaners/clean_orders.py:9-47 | It succeeds exactly when the cleaning function does. It returns a fresh table holding the cleaned frame, and the input table is only copied. |
| Products.BlankToMissing | cleaners/clean_products.py:316 | An empty text becomes missing, and every other value is kept. |
| Products.BlankCellToMissing | cleaners/clean_products.py:316 | The same, for a date column not yet converted. |
| Products.WithoutBlanks | cleaners/clean_products.py:310-316 | No listed column holds an empty text, and no other column changes. |
| Products.ReplaceBlanks | cleaners/clean_products.py:314-316 | The loop over the nine listed columns leaves every row as `WithoutBlanks` makes it. |
| Products.ToNumeric | cleaners/clean_products.py:323 | The result is converted. Missing stays missing and a number is kept. A text gets `toNumeric`'s reading, and is missing exactly when `toNumeric` rejects it. |
| Products.WithNumericPrices | cleaners/clean_products.py:318-323 | All four price columns are converted, and nothing else changes. |
| Products.ConvertPrices | cleaners/clean_products.py:321-323 | The loop over the four price columns leaves every row as `WithNumericPrices` makes it. |
| Products.CategoryKeyLower | cleaners/clean_products.py:327-338 | The only table keys a lower-cased value can equal are the six lower-case ones. |
| Products.CategoryNamesTitled | cleaners/clean_products.py:327-334 | Each lower-case key maps to its own title case. |
| Products.StandardizeCategory | cleaners/clean_products.py:336-338 | Missing stays missing, and present stays present. |
| Products.StandardizeCategoryIsTitle | cleaners/clean_products.py:327-338 | A category standardises to the title case of its stripped, lower-cased text. The table adds nothing. |
| Products.StandardizeCategoryIdempotent | cleaners/clean_products.py:336-341 | Standardising a standardised category changes nothing. |
| Products.StandardizeCategoryOfRecased | cleaners/clean_products.py:336-338 | Categories that differ only in case and surrounding whitespace standardise alike. |
| Products.FinalCategory | cleaners/clean_products.py:344-347 | Present exactly when either category is. It equals `category` when that is present, else `product_category`. |
| Products.WithCategories | cleaners/clean_products.py:340-347 | Both category columns are standardised, and the final category is computed from the standardised ones. |
| Products.StandardizeBrand | cleaners/clean_products.py:351-355 | Missing exactly when the input is missing or empty. |
| Products.Dehyphen | cleaners/clean_products.py:354 | Exactly the characters '_' and '-' become spaces. |
| Products.CapitalizeAll | cleaners/clean_products.py:355 | Each word is capitalised. |
| Products.StandardizeBrandIdempotent | cleaners/clean_products.py:351-355 | Standardising a standardised brand changes nothing, unless it came out empty. |
| Products.StandardizeBrandNotIdempotent | cleaners/clean_products.py:351-355 | "_" standardises to "", and "" to missing. |
| Products.WithBrands | cleaners/clean_products.py:357-358 | Brand and manufacturer are standardised, and nothing else changes. |
| Products.StandardizeBoolean | cleaners/clean_products.py:362-369 | The result is converted. Missing stays missing and a converted flag is kept. |
| Products.StandardizeBooleanOfText | cleaners/clean_products.py:362-367 | A text reads as true exactly when its key is a true word. It reads as false exactly when its key is a false word. Otherwise it becomes missing. |
| Products.StandardizeBooleanOfRendered | cleaners/clean_products.py:362-367 | "True" and "False" read back as the flag they render. |
| Products.ActiveFlagIssue | cleaners/clean_products.py:372-375 | The flag is raised exactly for an active product whose price or stock quantity is missing. |
| Products.WithActiveFlag | cleaners/clean_products.py:369-375 | `is_active` is standardised and the flag computed from it. Nothing else changes. |
| Products.ActiveWithoutPriceFlagged | cleaners/clean_products.py:362-375 | "YES" with no price gives an active product with the flag raised. |
| Products.ActiveFlagOfClean | cleaners/clean_products.py:369-440 | In a cleaned row the flag is raised exactly when the product is active and its price after step 2, or its stock quantity, is missing. |
| Products.ActiveFlagBeforeRangeCheck | cleaners/clean_products.py:372-433 | An active product with a negative price ends with no price and no flag. The flag saw the price before step 11 removed it. |
| Products.StandardizeColor | cleaners/clean_products.py:385-387 | Missing stays missing, and present stays present. |
| Products.StandardizeColorIsTitle | cleaners/clean_products.py:379-387 | A color standardises to the title case of its key, except "grey", which becomes "Gray". |
| Products.StandardizeColorIdempotent | cleaners/clean_products.py:385-387 | Standardising a standardised color changes nothing. |
| Products.StandardizeSize | cleaners/clean_products.py:395-397 | Missing stays missing, and present stays present. |
| Products.StandardizeSizeIsUpper | cleaners/clean_products.py:391-397 | A size standardises to the upper case of its key, except the two spellings of "One Size". |
| Products.StandardizeSizeIdempotent | cleaners/clean_products.py:395-397 | Standardising a standardised size changes nothing. |
| Products.ParseProductDate | cleaners/clean_products.py:401-409 | The result is converted. Missing stays missing and a converted date is kept. A text with a 'T' gets `parseIso`'s reading, and is missing exactly when `parseIso` rejects it. Any other text, the empty one included, gets its `%Y-%m-%d` date at midnight, and is missing exactly when `%Y-%m-%d` rejects it. |
| Products.ParseProductDateRoundTrip | cleaners/clean_products.py:401-409 | A date rendered as `%Y-%m-%d` is read back as that day at midnight. |
| Products.ParseProductDateRejects | cleaners/clean_products.py:404-409 | A text without 'T' that `%Y-%m-%d` rejects becomes missing. |
| Products.WithParsedDates | cleaners/clean_products.py:411-412 | Both date columns are parsed, and nothing else changes. |
| Products.SplitDimensions | cleaners/clean_products.py:419 | A matching text is three digit runs joined by 'x'. |
| Products.ThreeRunsComplete | cleaners/clean_products.py:419 | Any three digit runs joined by 'x' match, and split back into themselves. |
| Products.ValidateDimensions | cleaners/clean_products.py:416-421 | A kept value is unchanged and matches the pattern. A matching value is kept. |
| Products.ValidateDimensionsExamples | cleaners/clean_products.py:416-421 | "10x20x30" is kept, as is the same text with one final newline. "10x20" is dropped. |
| Products.CategoryMismatch | cleaners/clean_products.py:426-428 | A mismatch means both categories are present. With both present, a mismatch means they differ. |
| Products.CategoryMismatchOfKeys | cleaners/clean_products.py:426-428 | After standardisation, two categories mismatch exactly when their lookup keys differ. |
| Products.NonNegativeOrMissing | cleaners/clean_products.py:433 | A kept value is unchanged. A negative price becomes missing, and any other value is kept. |
| Products.NonNegativeOrZero | cleaners/clean_products.py:436 | Missingness is kept. A negative stock figure becomes exactly 0, and any other is kept. |
| Products.CheckRating | cleaners/clean_products.py:438-440 | The rating is converted and lies within [0, 5] when present. A converted rating within range is kept. |
| Products.WithValidRangesSound | cleaners/clean_products.py:431-440 | After step 11 every row is in range and stock presence is kept. A row already in range is unchanged. |
| Products.WithValidRanges | cleaners/clean_products.py:431-440 | Step 11 changes only the three checked prices, the three stock columns and the rating; `WithValidRangesSound` states the values. |
| Products.ClampPrices | cleaners/clean_products.py:432-433 | The loop over the three checked price columns nulls the negative ones. |
| Products.ClampStock | cleaners/clean_products.py:435-436 | The loop over the three stock columns zeroes the negative ones. |
| Products.ValidateNumericRanges | cleaners/clean_products.py:431-440 | The three range checks leave every row as the range step makes it. |
| Products.StandardizeCategories | cleaners/clean_products.py:340-347 | The three column assignments leave every row as `WithCategories` makes it. |
| Products.StandardizeBrands | cleaners/clean_products.py:357-358 | The two column assignments leave every row as `WithBrands` makes it. |
| Products.StandardizeActive | cleaners/clean_products.py:369-375 | The two column assignments leave every row as `WithActiveFlag` makes it. |
| Products.CheckColumns | cleaners/clean_products.py:369-428 | Steps 5 to 10 on the table leave every row as the row function makes it. |
| Products.StandardizedProductSound | cleaners/clean_products.py:310-358 | After steps 1-4, each of these columns is in standard form and the final category is derived from the standardised ones: text, prices, categories, brands. |
| Products.CheckedProductSound | cleaners/clean_products.py:360-428 | Steps 5-10 keep that, and leave is_active, color, size, the dates and the dimensions in standard form. The mismatch flag is derived from the categories. |
| Products.CleanProductSound | cleaners/clean_products.py:300-440 | Every cleaned row is clean, with its columns, derived columns and ranges as above. |
| Products.CleanProductStable | cleaners/clean_products.py:300-440 | A second pass over a cleaned row changes only the active-issue flag, unless the first pass left an empty brand, manufacturer, color or size. |
| Products.CleanProductsSound | cleaners/clean_products.py:300-458 | The cleaned table has one clean row per input row. |
| Products.CleanProduct | cleaners/clean_products.py:300-440 | Steps 1-11 on one row; specified by `CleanProductSound`, `CleanProductStable` and `ActiveFlagOfClean`. |
| Products.CleanProductDataset | cleaners/clean_products.py:300-458 | The step methods on a fresh copy produce exactly the cleaned rows, and every row is clean. |

## Left out

- The console output, the cleaning summaries and reports, and the `main` / `__main__` file I/O of all three files are left out. So are `_generate_cleaning_summary`, `generate_data_quality_report` and the functions of `clean_products.py` before line 300, which the product cleaner does not call.
- `pd.to_numeric`, the free-form `pd.to_datetime`, the `%Y-%m-%dT%H:%M:%S.%fZ` reader, `np.random.randint` and `datetime.now()` are parameters. The model states only what the cleaners do with their results.
- Float arithmetic is modelled as exact `real` arithmetic: rounding in `unit_price * quantity + ...` is not modelled.
- Orders.IsClose: `np.isclose(a, b, atol=1.0)` also has a relative term (`rtol=1e-05` times `|b|`). It is modelled with the absolute tolerance only.
- Case mapping covers ASCII letters, and `\d` covers ASCII digits. Python's Unicode case tables and Unicode digits are not modelled. Whitespace for `strip` and `split` is Python's `str.isspace` set.
- Cells are modelled as text or as their converted value. Non-string cells in text columns (a number where a string is expected) and the `isinstance` branches for them are not modelled.
- Columns that no step touches (ids other than those dropped, addresses, segments and the like) pass through and are not all modelled as fields.
- A `KeyError` for an absent column is not modelled, with one exception: the orders cleaner's `order_total` read at line 149 of `clean_orders.py`. This covers the customer cleaner's unconditional column accesses, and the product cleaner's accesses to every product column it reads without a guard (`category`, `product_category`, `brand`, `manufacturer`, `is_active`, `price`, `list_price`, `cost`, `color`, `size`, `created_date`, `last_updated`, `dimensions`, `stock_quantity`, `stock_level` and `reorder_level`). An absent optional product column behaves as a column of missing values.
- The `TypeError` that a comparison with `0` raises on a text cell in a stock column is not modelled. Stock columns hold numbers.
- The order quantity and money columns hold numbers. One text cell makes `read_csv` read the whole column as text, and then `unit_price * quantity` (line 148 of `clean_orders.py`) or the comparisons with `0` (lines 176 and 179) raise `TypeError`. That error is not modelled.
- The product cleaner's `row['is_active'] is True` is modelled as "the standardised value is true". The difference between Python's `True` and NumPy's `bool_` that `is` can observe is not modelled.
- Orders.FillOrderDatetime: `pd.to_datetime(str(date) + ' 12:00:00')` is modelled directly as that date at 12:00:00, without the text round trip.
- Orders.WithValidatedNumbers: the discount column is not made non-negative. The source takes absolute values only of quantity, unit price, totals, shipping and tax, and the model follows the code.
- Orders.CleanOrdersSound: the total equation is not promised for cleaned rows. The final validation takes absolute values and caps discounts without recomputing `order_total`, so the equation can break (`Orders.TotalEquationBroken`). The model follows the code.
- Orders.OrderTable.RecalculateFinancialColumns: when `order_total` is absent, the source has already added the temporary `expected_total` column to the frame in place (line 148 of `clean_orders.py`) before line 149 raises `KeyError`. The model leaves the table's modelled columns unchanged on that path: `expected_total` is not a modelled column, and the error ends `clean_orders_dataset`.
- The `.str` accessor raises `AttributeError` on a column that holds no strings at all (a column that is entirely empty in the input file is read as float NaN). This affects `.str.upper()` and `.str.lower()` at lines 99, 113 and 117 of `clean_orders.py`, and `.str.strip()` at lines 385 and 395 of `clean_products.py`. It is not modelled. For such a column the model gives `Orders.CanonicalStatus` PENDING, and `Products.StandardizeColor` and `Products.StandardizeSize` keep the value missing.
- Products.ParseProductDateRoundTrip: pandas before 3.0 stores `pd.to_datetime(val, format=...)` as a nanosecond Timestamp. Dates outside 1677-09-21 .. 2262-04-11 then raise `OutOfBoundsDatetime`, which makes the cell missing at line 408 of `clean_products.py`. The model follows Python's `strptime` range (years 1-9999) and does not bound the year, because the bound depends on the pandas version.
- Orders.ParseOrderDate: the same nanosecond bound applies at line 71 of `clean_orders.py`. There an out-of-range date falls through to the free-form parse. The model does not bound the year, for the same reason.
- Orders.CoerceDatetime: the column-wide `pd.to_datetime(col, errors='coerce')` of pandas 2 and later infers one format from the first non-missing cell and applies it to the whole column. This affects line 83 of `clean_orders.py` and lines 78-79 of `clean_customers.py`. The model parses each cell on its own with the `toDatetime` parameter.
- Dates.FormatIsoDate: years below 1000 are zero-padded to four digits. Whether `strftime('%Y')` pads them depends on the platform's C library and the Python version.
- Products.StandardizeBrandIdempotent: idempotence is stated only for results other than "". A brand of only separators and whitespace (such as "_") standardises to "", and a second pass makes that missing (`Products.StandardizeBrandNotIdempotent`).
- Products.CleanProductStable: a second pass is not a no-op. The active-issue flag is computed before the range check, so it can change (`Products.ActiveFlagBeforeRangeCheck`). An empty brand, manufacturer, color or size left by the first pass becomes missing.

=== FILE: customers.dfy ===
/**
 * The customer cleaner: six column-pair merges, seven standardisers, the
 * whole-table null-marker replacement, type correction, e-mail validation,
 * age/birth-date reconciliation and deduplication by customer id.
 *
 * A raw cell is modelled by the text of its value (`None` for a missing
 * one). The table changes its row type twice: after the merges drop their
 * second columns, and when the numeric and date columns are converted; each
 * of those steps builds a new array, every other step rewrites the rows in
 * place.
 */
module Customers {
  import opened Values
  import opened Tables
  import opened Text
  import opened Dates

  // ---------------------------------------------------------------- rows

  /** A row as read from the input file, with both columns of every redundant pair. */
  datatype RawCustomer = RawCustomer(
    customerId: Option<string>, custId: Option<string>,
    customerName: Option<string>, fullName: Option<string>,
    email: Option<string>, emailAddress: Option<string>,
    phone: Option<string>, phoneNumber: Option<string>,
    zipCode: Option<string>, postalCode: Option<string>,
    registrationDate: Option<string>, regDate: Option<string>,
    status: Option<string>, customerStatus: Option<string>,
    birthDate: Option<string>, city: Option<string>, state: Option<string>,
    gender: Option<string>, address: Option<string>, segment: Option<string>,
    totalOrders: Option<string>, totalSpent: Option<string>,
    loyaltyPoints: Option<string>, age: Option<string>)

  /** A row after the merges: one column per attribute, all still text. */
  datatype CustomerText = CustomerText(
    customerId: Option<string>, customerName: Option<string>, email: Option<string>,
    phone: Option<string>, zipCode: Option<string>, registrationDate: Option<string>,
    status: Option<string>, birthDate: Option<string>, city: Option<string>,
    state: Option<string>, gender: Option<string>, address: Option<string>,
    segment: Option<string>, totalOrders: Option<string>, totalSpent: Option<string>,
    loyaltyPoints: Option<string>, age: Option<string>)

  /** A row after type correction: counts and amounts are numbers, dates are timestamps. */
  datatype Customer = Customer(
    customerId: Option<string>, customerName: Option<string>, email: Option<string>,
    phone: Option<string>, zipCode: Option<string>, registrationDate: Option<DateTime>,
    status: Option<string>, birthDate: Option<DateTime>, city: Option<string>,
    state: Option<string>, gender: Option<string>, address: Option<string>,
    segment: Option<string>, totalOrders: Option<real>, totalSpent: Option<real>,
    loyaltyPoints: Option<real>, age: Option<real>)

  // ---------------------------------------------------------------- merges

  /** `_merge_names`: keep the first name unless only the second looks like a full name. */
  function MergeNames(name1: Option<string>, name2: Option<string>): (r: Option<string>)
    ensures r == name1 || r == name2
    ensures r.None? <==> name1.None? && name2.None?
    ensures (name1.Some? && ' ' in name1.value) || (name2.Some? && ' ' in name2.value) ==> ' ' in r.value
    ensures name1.Some? && r != name1 ==> ' ' in name2.value && ' ' !in name1.value
  {
    if name1.None? && name2.None? then None
    else if name1.None? then name2
    else if name2.None? then name1
    else if ' ' in name2.value && ' ' !in name1.value then name2
    else name1
  }

  /** `_merge_emails`: keep the first address unless only the second contains '@'. */
  function MergeEmails(email1: Option<string>, email2: Option<string>): (r: Option<string>)
    ensures r == email1 || r == email2
    ensures r.None? <==> email1.None? && email2.None?
    ensures (email1.Some? && '@' in email1.value) || (email2.Some? && '@' in email2.value) ==> '@' in r.value
    ensures email1.Some? && r != email1 ==> '@' in email2.value && '@' !in email1.value
  {
    if email1.None? && email2.None? then None
    else if email1.None? then email2
    else if email2.None? then email1
    else if '@' in email1.value && '@' in email2.value then email1
    else if '@' in email1.value then email1
    else if '@' in email2.value then email2
    else email1
  }

  /** `_merge_phones`: a missing or blank first number gives way; otherwise the longer one wins. */
  function MergePhones(phone1: Option<string>, phone2: Option<string>): (r: Option<string>)
    ensures r == phone1 || r == phone2
    ensures r.None? <==> (phone1.None? || IsBlank(phone1.value)) && phone2.None?
    ensures (phone1.Some? && !IsBlank(phone1.value)) || (phone2.Some? && !IsBlank(phone2.value)) ==>
      !IsBlank(r.value)
    ensures phone1.Some? && !IsBlank(phone1.value) && phone2.Some? && !IsBlank(phone2.value) ==>
      |r.value| >= |phone1.value| && |r.value| >= |phone2.value| && (|phone1.value| == |phone2.value| ==> r == phone1)
  {
    if phone1.None? && phone2.None? then None
    else if phone1.None? || IsBlank(phone1.value) then phone2
    else if phone2.None? || IsBlank(phone2.value) then phone1
    else if |phone1.value| >= |phone2.value| then phone1
    else phone2
  }

  /** `str(s).split(c)[0]`: the text before the first `c`. */
  function BeforeFirst(s: string, c: char): (r: string)
    ensures |r| <= |s| && s[..|r|] == r && c !in r
    ensures |r| < |s| ==> s[|r|] == c
  {
    s[..IndexOf(s, c)]
  }

  /** `_merge_zip_codes`: the first zip code, else the main part of the postal code. */
  function MergeZipCodes(zip1: Option<string>, zip2: Option<string>): (r: Option<string>)
    ensures r.None? <==> zip1.None? && zip2.None?
    ensures zip1.Some? ==> r == zip1
    ensures zip1.None? && zip2.Some? ==>
      '-' !in r.value && |r.value| <= |zip2.value| && zip2.value[..|r.value|] == r.value &&
      (|r.value| == |zip2.value| || zip2.value[|r.value|] == '-')
  {
    if zip1.None? && zip2.None? then None
    else if zip1.None? then Some(BeforeFirst(zip2.value, '-'))
    else if zip2.None? then zip1
    else zip1
  }

  /**
   * `_merge_dates` and `_merge_status`, which are the same function: the first
   * value unless it is missing or blank, in which case the second, as it is.
   */
  function MergeFirstNonBlank(value1: Option<string>, value2: Option<string>): (r: Option<string>)
    ensures r == if value1.Some? && !IsBlank(value1.value) then value1 else value2
  {
    if value1.None? && value2.None? then None
    else if value1.None? || IsBlank(value1.value) then value2
    else if value2.None? || IsBlank(value2.value) then value1
    else value1
  }

  /** Step 1: `cust_id` is dropped and every redundant pair merged into its first column. */
  function MergeColumns(c: RawCustomer): (r: CustomerText)
    ensures r.customerName == c.customerName || r.customerName == c.fullName
    ensures r.email == c.email || r.email == c.emailAddress
    ensures r.phone == c.phone || r.phone == c.phoneNumber
    ensures c.zipCode.Some? ==> r.zipCode == c.zipCode
    ensures r.registrationDate == c.registrationDate || r.registrationDate == c.regDate
    ensures r.status == c.status || r.status == c.customerStatus
    ensures r.customerName.None? <==> c.customerName.None? && c.fullName.None?
    ensures r.email.None? <==> c.email.None? && c.emailAddress.None?
    ensures r.zipCode.None? <==> c.zipCode.None? && c.postalCode.None?
    ensures r.customerId == c.customerId && r.birthDate == c.birthDate && r.city == c.city &&
            r.state == c.state && r.gender == c.gender && r.address == c.address &&
            r.segment == c.segment && r.totalOrders == c.totalOrders && r.totalSpent == c.totalSpent &&
            r.loyaltyPoints == c.loyaltyPoints && r.age == c.age
  {
    CustomerText(
      customerId := c.customerId,
      customerName := MergeNames(c.customerName, c.fullName),
      email := MergeEmails(c.email, c.emailAddress),
      phone := MergePhones(c.phone, c.phoneNumber),
      zipCode := MergeZipCodes(c.zipCode, c.postalCode),
      registrationDate := MergeFirstNonBlank(c.registrationDate, c.regDate),
      status := MergeFirstNonBlank(c.status, c.customerStatus),
      birthDate := c.birthDate, city := c.city, state := c.state, gender := c.gender,
      address := c.address, segment := c.segment, totalOrders := c.totalOrders,
      totalSpent := c.totalSpent, loyaltyPoints := c.loyaltyPoints, age := c.age)
  }

  // ---------------------------------------------------------------- phone

  /** `(ddd) ddd-dddd` of ten digits. */
  function FormatPhone(d: string): (r: string)
    requires |d| == 10
    ensures |r| == 14 && r[0] == '(' && r[4..6] == ") " && r[9] == '-'
    ensures r[1..4] == d[..3] && r[6..9] == d[3..6] && r[10..] == d[6..]
  {
    "(" + d[..3] + ") " + d[3..6] + "-" + d[6..]
  }

  /** `_standardize_phone`: ten digits (or eleven with a leading 1) are formatted, anything else is kept. */
  function StandardizePhone(phone: Option<string>): (r: Option<string>)
    ensures r.None? <==> phone.None?
    ensures r.Some? ==> var d := DigitsOnly(phone.value);
      if |d| == 10 then r.value == FormatPhone(d) && DigitsOnly(r.value) == d
      else if |d| == 11 && d[0] == '1' then r.value == FormatPhone(d[1..]) && DigitsOnly(r.value) == d[1..]
      else r == phone
  {
    match phone
    case None => None
    case Some(s) =>
      var d := DigitsOnly(s);
      if |d| == 10 then
        DigitsOfFormattedPhone(d);
        Some(FormatPhone(d))
      else if |d| == 11 && d[0] == '1' then
        DigitsOfFormattedPhone(d[1..]);
        Some(FormatPhone(d[1..]))
      else phone
  }

  /** Formatting keeps exactly the ten digits, in order. */
  lemma DigitsOfFormattedPhone(d: string)
    requires |d| == 10 && forall i :: 0 <= i < |d| ==> IsDigit(d[i])
    ensures DigitsOnly(FormatPhone(d)) == d
  {
    var a, b, c := d[..3], d[3..6], d[6..];
    DigitsOnlyOfNonDigits("(");
    DigitsOnlyOfNonDigits(") ");
    DigitsOnlyOfNonDigits("-");
    DigitsOnlyOfDigits(a);
    DigitsOnlyOfDigits(b);
    DigitsOnlyOfDigits(c);
    DigitsOnlyAppend("(", a);
    DigitsOnlyAppend("(" + a, ") ");
    DigitsOnlyAppend("(" + a + ") ", b);
    DigitsOnlyAppend("(" + a + ") " + b, "-");
    DigitsOnlyAppend("(" + a + ") " + b + "-", c);
    assert a + b + c == d;
  }

  /** A standardised phone number is left as it is by a second standardisation. */
  lemma StandardizePhoneIdempotent(phone: Option<string>)
    ensures StandardizePhone(StandardizePhone(phone)) == StandardizePhone(phone)
  {
    if phone.Some? {
      var d := DigitsOnly(phone.value);
      if |d| == 10 {
        DigitsOfFormattedPhone(d);
      } else if |d| == 11 && d[0] == '1' {
        DigitsOfFormattedPhone(d[1..]);
      }
    }
  }

  // ---------------------------------------------------------------- dates

  /** The formats `_standardize_date` tries, in order. */
  const DATE_FORMATS: seq<Format> := [MDY_SLASH, YMD_DASH, DMY_SLASH, YMD_SLASH]

  /** `_standardize_date`: blank gives missing; the first format that parses is rendered `YYYY-MM-DD`. */
  function StandardizeDate(date: Option<string>): (r: Option<string>)
    ensures r.None? <==> date.None? || IsBlank(date.value)
    ensures r.Some? && r != date ==> exists d :: IsValidDate(d) && r.value == FormatIsoDate(d)
    ensures date.Some? && !IsBlank(date.value) && FirstParse(date.value, DATE_FORMATS).Some? ==>
      r == Some(FormatIsoDate(FirstParse(date.value, DATE_FORMATS).value))
    ensures date.Some? && !IsBlank(date.value) && FirstParse(date.value, DATE_FORMATS).None? ==> r == date
  {
    match date
    case None => None
    case Some(s) =>
      if IsBlank(s) then None
      else
        match FirstParse(s, DATE_FORMATS)
        case Some(d) => Some(FormatIsoDate(d))
        case None => date
  }

  /** A rendered date is read back as itself, first by `%Y-%m-%d`. */
  lemma FirstParseOfIsoDate(d: Date)
    requires IsValidDate(d)
    ensures FirstParse(FormatIsoDate(d), DATE_FORMATS) == Some(d)
  {
    IsoDateRejectedBySlashFormats(d);
    IsoDateRoundTrip(d);
  }

  /** A rendered date is a fixed point of `_standardize_date`. */
  lemma StandardizeIsoDate(d: Date)
    requires IsValidDate(d)
    ensures StandardizeDate(Some(FormatIsoDate(d))) == Some(FormatIsoDate(d))
  {
    StripUnchanged(FormatIsoDate(d));
    FirstParseOfIsoDate(d);
  }

  lemma StandardizeDateIdempotent(date: Option<string>)
    ensures StandardizeDate(StandardizeDate(date)) == StandardizeDate(date)
  {
    if date.Some? && !IsBlank(date.value) {
      var p := FirstParse(date.value, DATE_FORMATS);
      if p.Some? {
        StandardizeIsoDate(p.value);
      }
    }
  }

  /** Month-first wins: a date that reads both ways is taken as `%m/%d/%Y`. */
  lemma MonthFirstWins()
    ensures StandardizeDate(Some("03/04/2021")) == Some("2021-03-04")
  {
    StripUnchanged("03/04/2021");
    SlashDateExample();
    IsoDateExample();
  }

  // ---------------------------------------------------------------- lookup standardisers

  /**
   * The shape of the lookup standardisers: the stripped, lower-cased value is
   * looked up in `table`; on a miss the original value goes through `fallback`.
   */
  function StandardizeByTable(table: map<string, string>, fallback: string -> string, v: Option<string>): (r: Option<string>)
    ensures r.None? <==> v.None?
    ensures v.Some? && Lower(Strip(v.value)) in table ==> r.value == table[Lower(Strip(v.value))]
    ensures v.Some? && Lower(Strip(v.value)) !in table ==> r.value == fallback(v.value)
  {
    match v
    case None => None
    case Some(s) =>
      var key := Lower(Strip(s));
      Some(if key in table then table[key] else fallback(s))
  }

  /** The table entry under `k`, if there is one, standardises to itself. */
  predicate EntryFixed(table: map<string, string>, fallback: string -> string, k: string) {
    k in table ==> StandardizeByTable(table, fallback, Some(table[k])) == Some(table[k])
  }

  /**
   * A lookup standardiser is idempotent when its fallback keeps the lookup key
   * and is idempotent, and the table entry a value is looked up under
   * standardises to itself.
   */
  lemma StandardizeByTableIdempotent(table: map<string, string>, fallback: string -> string, v: Option<string>)
    requires forall s :: Lower(Strip(fallback(s))) == Lower(Strip(s))
    requires forall s :: fallback(fallback(s)) == fallback(s)
    requires v.Some? ==> EntryFixed(table, fallback, Lower(Strip(v.value)))
    ensures StandardizeByTable(table, fallback, StandardizeByTable(table, fallback, v)) == StandardizeByTable(table, fallback, v)
  {
    if v.Some? {
      var key := Lower(Strip(v.value));
      if key !in table {
        assert Lower(Strip(fallback(v.value))) == key;
      }
    }
  }

  lemma TitleKeepsKey(s: string)
    ensures Lower(Strip(Title(s))) == Lower(Strip(s))
  {
    LowerOfTitle(s);
    LowerStripOfRecased(Title(s), s);
  }

  lemma UpperKeepsKey(s: string)
    ensures Lower(Strip(Upper(s))) == Lower(Strip(s))
  {
    LowerOfUpper(s);
    LowerStripOfRecased(Upper(s), s);
  }

  const CITY_NAMES: map<string, string> := map[
    "nyc" := "New York", "la" := "Los Angeles", "chi" := "Chicago",
    "houston" := "Houston", "phoenix" := "Phoenix"]

  const STATE_CODES: map<string, string> := map[
    "california" := "CA", "new york" := "NY", "texas" := "TX", "illinois" := "IL",
    "arizona" := "AZ", "pennsylvania" := "PA", "florida" := "FL"]

  const STATUS_NAMES: map<string, string> := map[
    "active" := "Active", "inactive" := "Inactive", "suspended" := "Suspended", "pending" := "Pending"]

  const GENDER_NAMES: map<string, string> := map[
    "f" := "Female", "female" := "Female", "m" := "Male", "male" := "Male", "other" := "Other"]

  /** `_standardize_city`: a known abbreviation or name, else the value title-cased. */
  function StandardizeCity(city: Option<string>): (r: Option<string>)
    ensures r.None? <==> city.None?
    ensures city.Some? && Lower(Strip(city.value)) in CITY_NAMES ==> r == Some(CITY_NAMES[Lower(Strip(city.value))])
    ensures city.Some? && Lower(Strip(city.value)) !in CITY_NAMES ==> r == Some(Title(city.value))
  {
    StandardizeByTable(CITY_NAMES, Title, city)
  }

  /** `_standardize_state`: a known state's code, else the value upper-cased. */
  function StandardizeState(state: Option<string>): (r: Option<string>)
    ensures r.None? <==> state.None?
    ensures state.Some? && Lower(Strip(state.value)) in STATE_CODES ==> r == Some(STATE_CODES[Lower(Strip(state.value))])
    ensures state.Some? && Lower(Strip(state.value)) !in STATE_CODES ==> r == Some(Upper(state.value))
  {
    StandardizeByTable(STATE_CODES, Upper, state)
  }

  /** `_standardize_status`: a known status capitalised, else the value title-cased. */
  function StandardizeStatus(status: Option<string>): (r: Option<string>)
    ensures r.None? <==> status.None?
    ensures status.Some? && Lower(Strip(status.value)) in STATUS_NAMES ==> r == Some(STATUS_NAMES[Lower(Strip(status.value))])
    ensures status.Some? && Lower(Strip(status.value)) !in STATUS_NAMES ==> r == Some(Title(status.value))
  {
    StandardizeByTable(STATUS_NAMES, Title, status)
  }

  /** `_standardize_gender`: F/M/Other spelled out, else the value title-cased. */
  function StandardizeGender(gender: Option<string>): (r: Option<string>)
    ensures r.None? <==> gender.None?
    ensures gender.Some? && Lower(Strip(gender.value)) in GENDER_NAMES ==> r == Some(GENDER_NAMES[Lower(Strip(gender.value))])
    ensures gender.Some? && Lower(Strip(gender.value)) !in GENDER_NAMES ==> r == Some(Title(gender.value))
  {
    StandardizeByTable(GENDER_NAMES, Title, gender)
  }

  /** A table value that its own fallback leaves unchanged standardises to itself. */
  lemma FixedByFallback(table: map<string, string>, fallback: string -> string, v: string)
    requires |v| > 0 && !IsSpace(v[0]) && !IsSpace(v[|v| - 1])
    requires Lower(v) !in table && fallback(v) == v
    ensures StandardizeByTable(table, fallback, Some(v)) == Some(v)
  {
    StripUnchanged(v);
  }

  /** A table value whose own key maps to it standardises to itself. */
  lemma FixedByLookup(table: map<string, string>, fallback: string -> string, v: string)
    requires |v| > 0 && !IsSpace(v[0]) && !IsSpace(v[|v| - 1])
    requires Lower(v) in table && table[Lower(v)] == v
    ensures StandardizeByTable(table, fallback, Some(v)) == Some(v)
  {
    StripUnchanged(v);
  }

  lemma NewYorkTitled()
    ensures Title("New York") == "New York"
  {
    assert TitleCased("New York");
    TitleOfTitleCased("New York");
  }

  lemma NewYorkKey()
    ensures Lower("New York") == "new york"
  {
  }

  lemma NewYorkFixed()
    ensures StandardizeCity(Some("New York")) == Some("New York")
    ensures EntryFixed(CITY_NAMES, Title, "nyc")
  {
    NewYorkTitled();
    NewYorkKey();
    FixedByFallback(CITY_NAMES, Title, "New York");
  }

  lemma LosAngelesTitled()
    ensures Title("Los Angeles") == "Los Angeles"
  {
    assert TitleCased("Los Angeles");
    TitleOfTitleCased("Los Angeles");
  }

  lemma LosAngelesKey()
    ensures Lower("Los Angeles") == "los angeles"
  {
  }

  lemma LosAngelesFixed()
    ensures StandardizeCity(Some("Los Angeles")) == Some("Los Angeles")
    ensures EntryFixed(CITY_NAMES, Title, "la")
  {
    LosAngelesTitled();
    LosAngelesKey();
    FixedByFallback(CITY_NAMES, Title, "Los Angeles");
  }

  lemma ChicagoTitled()
    ensures Title("Chicago") == "Chicago"
  {
    assert TitleCased("Chicago");
    TitleOfTitleCased("Chicago");
  }

  lemma ChicagoKey()
    ensures Lower("Chicago") == "chicago"
  {
  }

  lemma ChicagoFixed()
    ensures StandardizeCity(Some("Chicago")) == Some("Chicago")
    ensures EntryFixed(CITY_NAMES, Title, "chi")
  {
    ChicagoTitled();
    ChicagoKey();
    FixedByFallback(CITY_NAMES, Title, "Chicago");
  }

  /** The two city names that are their own title-cased keys standardise to themselves. */
  lemma CityNamesOfThemselvesFixed()
    ensures StandardizeCity(Some("Houston")) == Some("Houston")
    ensures StandardizeCity(Some("Phoenix")) == Some("Phoenix")
    ensures EntryFixed(CITY_NAMES, Title, "houston") && EntryFixed(CITY_NAMES, Title, "phoenix")
  {
    assert Lower("Houston") == "houston";
    FixedByLookup(CITY_NAMES, Title, "Houston");
    assert Lower("Phoenix") == "phoenix";
    FixedByLookup(CITY_NAMES, Title, "Phoenix");
  }

  /** Every entry of the city table standardises to itself. */
  lemma CityNamesFixed(k: string)
    ensures EntryFixed(CITY_NAMES, Title, k)
  {
    if k == "nyc" {
      NewYorkFixed();
    } else if k == "la" {
      LosAngelesFixed();
    } else if k == "chi" {
      ChicagoFixed();
    } else if k == "houston" || k == "phoenix" {
      CityNamesOfThemselvesFixed();
    }
  }

  /** Every state code standardises to itself. */
  lemma StateCodesFixed(k: string)
    ensures EntryFixed(STATE_CODES, Upper, k)
  {
    if k in STATE_CODES {
      var v := STATE_CODES[k];
      assert v in ["CA", "NY", "TX", "IL", "AZ", "PA", "FL"];
      assert |v| == 2 && IsUpperLetter(v[0]) && IsUpperLetter(v[1]);
      assert Upper(v) == v;
      assert Lower(v) !in STATE_CODES;
      FixedByFallback(STATE_CODES, Upper, v);
    }
  }

  /** Every status name standardises to itself. */
  lemma StatusNamesFixed(k: string)
    ensures EntryFixed(STATUS_NAMES, Title, k)
  {
    if k in STATUS_NAMES {
      var v := STATUS_NAMES[k];
      if v == "Active" {
        assert Lower("Active") == "active";
        FixedByLookup(STATUS_NAMES, Title, "Active");
      } else if v == "Inactive" {
        assert Lower("Inactive") == "inactive";
        FixedByLookup(STATUS_NAMES, Title, "Inactive");
      } else if v == "Suspended" {
        assert Lower("Suspended") == "suspended";
        FixedByLookup(STATUS_NAMES, Title, "Suspended");
      } else {
        assert Lower("Pending") == "pending";
        FixedByLookup(STATUS_NAMES, Title, "Pending");
      }
    }
  }

  /** Every gender name standardises to itself. */
  lemma GenderNamesFixed(k: string)
    ensures EntryFixed(GENDER_NAMES, Title, k)
  {
    if k in GENDER_NAMES {
      var v := GENDER_NAMES[k];
      if v == "Female" {
        assert Lower("Female") == "female";
        FixedByLookup(GENDER_NAMES, Title, "Female");
      } else if v == "Male" {
        assert Lower("Male") == "male";
        FixedByLookup(GENDER_NAMES, Title, "Male");
      } else {
        assert Lower("Other") == "other";
        FixedByLookup(GENDER_NAMES, Title, "Other");
      }
    }
  }

  /** The city standardiser keeps missing values missing and is idempotent. */
  lemma StandardizeCityIdempotent(city: Option<string>)
    ensures StandardizeCity(city).None? <==> city.None?
    ensures StandardizeCity(StandardizeCity(city)) == StandardizeCity(city)
  {
    forall s ensures Lower(Strip(Title(s))) == Lower(Strip(s)) { TitleKeepsKey(s); }
    forall s ensures Title(Title(s)) == Title(s) { TitleIdempotent(s); }
    if city.Some? {
      CityNamesFixed(Lower(Strip(city.value)));
    }
    StandardizeByTableIdempotent(CITY_NAMES, Title, city);
  }

  /** The state standardiser keeps missing values missing and is idempotent. */
  lemma StandardizeStateIdempotent(state: Option<string>)
    ensures StandardizeState(state).None? <==> state.None?
    ensures StandardizeState(StandardizeState(state)) == StandardizeState(state)
  {
    forall s ensures Lower(Strip(Upper(s))) == Lower(Strip(s)) { UpperKeepsKey(s); }
    forall s ensures Upper(Upper(s)) == Upper(s) { UpperIdempotent(s); }
    if state.Some? {
      StateCodesFixed(Lower(Strip(state.value)));
    }
    StandardizeByTableIdempotent(STATE_CODES, Upper, state);
  }

  /** The status standardiser keeps missing values missing and is idempotent. */
  lemma StandardizeStatusIdempotent(status: Option<string>)
    ensures StandardizeStatus(status).None? <==> status.None?
    ensures StandardizeStatus(StandardizeStatus(status)) == StandardizeStatus(status)
  {
    forall s ensures Lower(Strip(Title(s))) == Lower(Strip(s)) { TitleKeepsKey(s); }
    forall s ensures Title(Title(s)) == Title(s) { TitleIdempotent(s); }
    if status.Some? {
      StatusNamesFixed(Lower(Strip(status.value)));
    }
    StandardizeByTableIdempotent(STATUS_NAMES, Title, status);
  }

  /** The gender standardiser keeps missing values missing and is idempotent. */
  lemma StandardizeGenderIdempotent(gender: Option<string>)
    ensures StandardizeGender(gender).None? <==> gender.None?
    ensures StandardizeGender(StandardizeGender(gender)) == StandardizeGender(gender)
  {
    forall s ensures Lower(Strip(Title(s))) == Lower(Strip(s)) { TitleKeepsKey(s); }
    forall s ensures Title(Title(s)) == Title(s) { TitleIdempotent(s); }
    if gender.Some? {
      GenderNamesFixed(Lower(Strip(gender.value)));
    }
    StandardizeByTableIdempotent(GENDER_NAMES, Title, gender);
  }

  /** Step 2: the seven standardisers, each on its own column. */
  function StandardizeFormats(c: CustomerText): (r: CustomerText)
    ensures r.(phone := c.phone, registrationDate := c.registrationDate, birthDate := c.birthDate,
               city := c.city, state := c.state, status := c.status, gender := c.gender) == c
    ensures r.phone.None? <==> c.phone.None?
    ensures r.city.None? <==> c.city.None?
    ensures r.state.None? <==> c.state.None?
    ensures r.status.None? <==> c.status.None?
    ensures r.gender.None? <==> c.gender.None?
    ensures r.birthDate.None? <==> c.birthDate.None? || IsBlank(c.birthDate.value)
    ensures r.registrationDate.None? <==> c.registrationDate.None? || IsBlank(c.registrationDate.value)
  {
    c.(phone := StandardizePhone(c.phone),
       registrationDate := StandardizeDate(c.registrationDate),
       birthDate := StandardizeDate(c.birthDate),
       city := StandardizeCity(c.city),
       state := StandardizeState(c.state),
       status := StandardizeStatus(c.status),
       gender := StandardizeGender(c.gender))
  }

  /** Standardising a standardised row changes nothing. */
  lemma StandardizeFormatsIdempotent(c: CustomerText)
    ensures StandardizeFormats(StandardizeFormats(c)) == StandardizeFormats(c)
  {
    StandardizePhoneIdempotent(c.phone);
    StandardizeDateIdempotent(c.registrationDate);
    StandardizeDateIdempotent(c.birthDate);
    StandardizeCityIdempotent(c.city);
    StandardizeStateIdempotent(c.state);
    StandardizeStatusIdempotent(c.status);
    StandardizeGenderIdempotent(c.gender);
  }

  // ---------------------------------------------------------------- missing values

  /** The strings replaced by a missing value across the whole table. */
  const NULL_MARKERS: set<string> := {"", "null", "NULL", "None", "nan", "NaN"}

  /** A listed null marker, or a string matching `^\s*$`. */
  predicate IsNullMarker(s: string) {
    s in NULL_MARKERS || IsBlank(s)
  }

  /** Step 3 on one cell: a null marker becomes missing. */
  function NullToMissing(v: Option<string>): (r: Option<string>)
    ensures r.Some? ==> r == v && !IsNullMarker(r.value)
    ensures v.Some? && !IsNullMarker(v.value) ==> r == v
  {
    if v.Some? && IsNullMarker(v.value) then None else v
  }

  /**
   * `after` is `before` with a null marker made missing: present only as
   * `before`, and then not a marker; a value that is not a marker is kept.
   */
  predicate Cleared(before: Option<string>, after: Option<string>) {
    (after.Some? ==> after == before && !IsNullMarker(after.value)) &&
    (before.Some? && !IsNullMarker(before.value) ==> after == before)
  }

  /** Step 3: null markers become missing in every column. */
  function ReplaceNullMarkers(c: CustomerText): (r: CustomerText)
    ensures Cleared(c.customerId, r.customerId) && Cleared(c.customerName, r.customerName) &&
            Cleared(c.email, r.email) && Cleared(c.phone, r.phone) && Cleared(c.zipCode, r.zipCode) &&
            Cleared(c.registrationDate, r.registrationDate) && Cleared(c.status, r.status) &&
            Cleared(c.birthDate, r.birthDate) && Cleared(c.city, r.city) && Cleared(c.state, r.state) &&
            Cleared(c.gender, r.gender) && Cleared(c.address, r.address) && Cleared(c.segment, r.segment) &&
            Cleared(c.totalOrders, r.totalOrders) && Cleared(c.totalSpent, r.totalSpent) &&
            Cleared(c.loyaltyPoints, r.loyaltyPoints) && Cleared(c.age, r.age)
  {
    CustomerText(
      customerId := NullToMissing(c.customerId), customerName := NullToMissing(c.customerName),
      email := NullToMissing(c.email), phone := NullToMissing(c.phone),
      zipCode := NullToMissing(c.zipCode), registrationDate := NullToMissing(c.registrationDate),
      status := NullToMissing(c.status), birthDate := NullToMissing(c.birthDate),
      city := NullToMissing(c.city), state := NullToMissing(c.state),
      gender := NullToMissing(c.gender), address := NullToMissing(c.address),
      segment := NullToMissing(c.segment), totalOrders := NullToMissing(c.totalOrders),
      totalSpent := NullToMissing(c.totalSpent), loyaltyPoints := NullToMissing(c.loyaltyPoints),
      age := NullToMissing(c.age))
  }

  /**
   * The standardisers run before the null markers are replaced, so a city
   * written "NULL" is title-cased to "Null", which is not a marker and stays.
   */
  lemma NullCityIsKept()
    ensures NullToMissing(StandardizeCity(Some("NULL"))) == Some("Null")
  {
    NullCityIsTitled();
    StripUnchanged("Null");
  }

  lemma NullCityIsTitled()
    ensures StandardizeCity(Some("NULL")) == Some("Null")
  {
    StripUnchanged("NULL");
    assert Lower("NULL") == "null";
    assert Title("NULL") == "Null";
  }

  // ---------------------------------------------------------------- type correction

  /** `re.sub(r'\.0$', '', s)`: a final ".0" is removed, also just before a final newline. */
  function StripFloatSuffix(s: string): (r: string)
    ensures r == s || r + ".0" == s || (|r| > 0 && r[..|r| - 1] + ".0\n" == s && r[|r| - 1] == '\n')
  {
    if |s| >= 2 && s[|s| - 2..] == ".0" then s[..|s| - 2]
    else if |s| >= 3 && s[|s| - 3..] == ".0\n" then s[..|s| - 3] + "\n"
    else s
  }

  /**
   * Lines 74-76: the zip code as text (a missing one reads "nan"), without a
   * float's ".0", and "nan" back to missing.
   */
  function NormalizeZip(zip: Option<string>): (r: Option<string>)
    ensures zip.None? ==> r.None?
    ensures r.Some? ==> r.value != "nan" && StripFloatSuffix(zip.value) == r.value
    ensures zip.Some? && StripFloatSuffix(zip.value) != "nan" ==> r == Some(StripFloatSuffix(zip.value))
  {
    var t := StripFloatSuffix(if zip.Some? then zip.value else "nan");
    if t == "nan" then None else Some(t)
  }

  /** A zip code read as a float ("12345.0") gets its text back. */
  lemma ZipOfFloatText(d: string)
    requires d != "nan"
    ensures NormalizeZip(Some(d + ".0")) == Some(d)
  {
    assert (d + ".0")[|d + ".0"| - 2..] == ".0";
    assert (d + ".0")[..|d|] == d;
  }

  /** A zip code read as text is kept as it is. */
  lemma ZipOfDigits(d: string)
    requires forall i :: 0 <= i < |d| ==> IsDigit(d[i])
    ensures NormalizeZip(Some(d)) == Some(d)
  {
    if |d| >= 2 {
      assert d[|d| - 2..][0] == d[|d| - 2];
    }
    if |d| >= 3 {
      assert d[|d| - 3..][2] == d[|d| - 1];
    }
  }

  /** `pd.to_numeric(errors='coerce')` or `pd.to_datetime(errors='coerce')` of one cell. */
  function Coerce<T>(v: Option<string>, parse: string -> Option<T>): Option<T> {
    match v
    case None => None
    case Some(s) => parse(s)
  }

  /** Step 4: numeric and date columns are converted; the zip code is normalised. */
  function CorrectTypes(c: CustomerText, toNumeric: string -> Option<real>, toDatetime: string -> Option<DateTime>): (r: Customer)
    ensures r.customerId == c.customerId && r.customerName == c.customerName && r.email == c.email &&
            r.phone == c.phone && r.status == c.status && r.city == c.city && r.state == c.state &&
            r.gender == c.gender && r.address == c.address && r.segment == c.segment
    ensures r.zipCode == NormalizeZip(c.zipCode)
    ensures r.zipCode.Some? ==> r.zipCode.value != "nan"
    ensures c.age.None? ==> r.age.None?
    ensures c.birthDate.None? ==> r.birthDate.None?
    ensures c.registrationDate.None? ==> r.registrationDate.None?
    ensures c.totalOrders.None? ==> r.totalOrders.None?
    ensures c.totalSpent.None? ==> r.totalSpent.None?
    ensures c.loyaltyPoints.None? ==> r.loyaltyPoints.None?
    ensures c.age.Some? ==> r.age == toNumeric(c.age.value)
    ensures c.birthDate.Some? ==> r.birthDate == toDatetime(c.birthDate.value)
    ensures c.registrationDate.Some? ==> r.registrationDate == toDatetime(c.registrationDate.value)
    ensures c.totalOrders.Some? ==> r.totalOrders == toNumeric(c.totalOrders.value)
    ensures c.totalSpent.Some? ==> r.totalSpent == toNumeric(c.totalSpent.value)
    ensures c.loyaltyPoints.Some? ==> r.loyaltyPoints == toNumeric(c.loyaltyPoints.value)
  {
    Customer(
      customerId := c.customerId, customerName := c.customerName, email := c.email,
      phone := c.phone, zipCode := NormalizeZip(c.zipCode),
      registrationDate := Coerce(c.registrationDate, toDatetime),
      status := c.status, birthDate := Coerce(c.birthDate, toDatetime),
      city := c.city, state := c.state, gender := c.gender, address := c.address,
      segment := c.segment, totalOrders := Coerce(c.totalOrders, toNumeric),
      totalSpent := Coerce(c.totalSpent, toNumeric), loyaltyPoints := Coerce(c.loyaltyPoints, toNumeric),
      age := Coerce(c.age, toNumeric))
  }

  // ---------------------------------------------------------------- e-mail

  predicate IsLocalChar(c: char) {
    IsLetter(c) || IsDigit(c) || c == '.' || c == '_' || c == '%' || c == '+' || c == '-'
  }

  predicate IsDomainChar(c: char) {
    IsLetter(c) || IsDigit(c) || c == '.' || c == '-'
  }

  /**
   * `s` read as `local@domain.tld` with the '@' at `at` and the '.' before the
   * top-level domain at `dot`, as `[a-zA-Z0-9._%+-]+@[a-zA-Z0-9.-]+\.[a-zA-Z]{2,}`
   * reads it.
   */
  ghost predicate EmailParts(s: string, at: int, dot: int) {
    0 < at && at + 1 < dot && dot + 2 < |s| && s[at] == '@' && s[dot] == '.' &&
    (forall i :: 0 <= i < at ==> IsLocalChar(s[i])) &&
    (forall i :: at < i < dot ==> IsDomainChar(s[i])) &&
    (forall i :: dot < i < |s| ==> IsLetter(s[i]))
  }

  /** The whole of `s` is in the language of the e-mail pattern. */
  ghost predicate InEmailLanguage(s: string) {
    exists at, dot :: EmailParts(s, at, dot)
  }

  /** The index of the last `c` in `s`, or -1 when there is none. */
  function LastIndexOf(s: string, c: char): (k: int)
    ensures -1 <= k < |s|
    ensures k >= 0 ==> s[k] == c
    ensures forall i :: k < i < |s| ==> s[i] != c
  {
    if |s| == 0 then -1
    else if s[|s| - 1] == c then |s| - 1
    else LastIndexOf(s[..|s| - 1], c)
  }

  /** A scan for the pattern: the first '@' and the last '.' delimit the three parts. */
  predicate IsEmailAddress(s: string) {
    var at, dot := IndexOf(s, '@'), LastIndexOf(s, '.');
    0 < at && at + 1 < dot && dot + 2 < |s| &&
    (forall i :: 0 <= i < at ==> IsLocalChar(s[i])) &&
    (forall i :: at < i < dot ==> IsDomainChar(s[i])) &&
    (forall i :: dot < i < |s| ==> IsLetter(s[i]))
  }

  /** The scan accepts exactly the strings of the pattern's language. */
  lemma IsEmailAddressCorrect(s: string)
    ensures IsEmailAddress(s) <==> InEmailLanguage(s)
  {
    var at, dot := IndexOf(s, '@'), LastIndexOf(s, '.');
    if IsEmailAddress(s) {
      assert EmailParts(s, at, dot);
    }
    if InEmailLanguage(s) {
      var at', dot' :| EmailParts(s, at', dot');
      assert at == at';
      assert dot == dot';
    }
  }

  /**
   * `re.match` of the pattern: it is anchored at the start, and its `$` also
   * matches just before a final newline.
   */
  predicate MatchesEmailPattern(s: string) {
    IsEmailAddress(s) || (|s| > 0 && s[|s| - 1] == '\n' && IsEmailAddress(s[..|s| - 1]))
  }

  lemma MatchesEmailPatternCorrect(s: string)
    ensures MatchesEmailPattern(s) <==>
      InEmailLanguage(s) || (|s| > 0 && s[|s| - 1] == '\n' && InEmailLanguage(s[..|s| - 1]))
  {
    IsEmailAddressCorrect(s);
    if |s| > 0 {
      IsEmailAddressCorrect(s[..|s| - 1]);
    }
  }

  /** `_validate_email`: an address that does not match the pattern becomes missing. */
  function ValidateEmail(email: Option<string>): (r: Option<string>)
    ensures r.Some? <==>
      email.Some? &&
      (InEmailLanguage(email.value) ||
       (|email.value| > 0 && email.value[|email.value| - 1] == '\n' && InEmailLanguage(email.value[..|email.value| - 1])))
    ensures r.Some? ==> r == email
  {
    match email
    case None => None
    case Some(s) =>
      MatchesEmailPatternCorrect(s);
      if MatchesEmailPattern(s) then email else None
  }

  function ValidateEmailField(c: Customer): Customer {
    c.(email := ValidateEmail(c.email))
  }

  // ---------------------------------------------------------------- age

  /**
   * `_validate_age_consistency` on one row: with a birth date, the age becomes
   * `currentYear - birthYear` when it is missing or off by more than a year.
   */
  function ReconcileAge(c: Customer, currentYear: int): (r: Customer)
    ensures r.(age := c.age) == c
    ensures r.birthDate.Some? ==>
      r.age.Some? && Abs(r.age.value - (currentYear - r.birthDate.value.date.year) as real) <= 1.0
    ensures c.birthDate.None? ==> r == c
    ensures c.birthDate.Some? &&
            (c.age.None? || Abs((currentYear - c.birthDate.value.date.year) as real - c.age.value) > 1.0) ==>
      r.age == Some((currentYear - c.birthDate.value.date.year) as real)
    ensures (c.age.Some? && c.birthDate.Some? &&
             Abs((currentYear - c.birthDate.value.date.year) as real - c.age.value) <= 1.0) ==> r == c
  {
    match (c.birthDate, c.age)
    case (Some(b), Some(a)) =>
      var calculated := currentYear - b.date.year;
      if Abs(calculated as real - a) > 1.0 then c.(age := Some(calculated as real)) else c
    case (Some(b), None) =>
      c.(age := Some((currentYear - b.date.year) as real))
    case _ => c
  }

  /** Every row's age reconciled with its birth date. */
  function ReconcileAges(rows: seq<Customer>, currentYear: int): (r: seq<Customer>)
    ensures |r| == |rows|
    ensures forall i :: 0 <= i < |rows| ==> r[i] == ReconcileAge(rows[i], currentYear)
  {
    MapSeq(rows, c => ReconcileAge(c, currentYear))
  }

  /** Lines 278-296: the loop over the rows that writes the `age` cell. */
  method ValidateAgeConsistency(rows: array<Customer>, currentYear: int)
    modifies rows
    ensures rows[..] == ReconcileAges(old(rows[..]), currentYear)
  {
    var i := 0;
    while i < rows.Length
      invariant 0 <= i <= rows.Length
      invariant forall k :: 0 <= k < i ==> rows[k] == ReconcileAge(old(rows[k]), currentYear)
      invariant forall k :: i <= k < rows.Length ==> rows[k] == old(rows[k])
    {
      var row := rows[i];
      if row.birthDate.Some? && row.age.Some? {
        var calculated := currentYear - row.birthDate.value.date.year;
        if Abs(calculated as real - row.age.value) > 1.0 {
          rows[i] := row.(age := Some(calculated as real));
        }
      } else if row.birthDate.Some? && row.age.None? {
        rows[i] := row.(age := Some((currentYear - row.birthDate.value.date.year) as real));
      }
      i := i + 1;
    }
  }

  // ---------------------------------------------------------------- deduplication

  /** The customer ids present in `rows` (a missing id counts as one value). */
  function Ids(rows: seq<Customer>): set<Option<string>> {
    set i | 0 <= i < |rows| :: rows[i].customerId
  }

  lemma IdsOfSnoc(rows: seq<Customer>, c: Customer)
    ensures Ids(rows + [c]) == Ids(rows) + {c.customerId}
  {
    var s := rows + [c];
    assert s[|rows|] == c;
    forall id | id in Ids(rows) ensures id in Ids(s) {
      var i :| 0 <= i < |rows| && rows[i].customerId == id;
      assert s[i] == rows[i];
    }
  }

  /** `drop_duplicates(subset=['customer_id'], keep='first')`. */
  function DedupFirst(rows: seq<Customer>): seq<Customer> {
    if |rows| == 0 then []
    else
      var init, last := rows[..|rows| - 1], rows[|rows| - 1];
      if last.customerId in Ids(init) then DedupFirst(init) else DedupFirst(init) + [last]
  }

  /** The position of the first row with customer id `id`. */
  function FirstIndex(rows: seq<Customer>, id: Option<string>): (k: nat)
    requires id in Ids(rows)
    ensures k < |rows| && rows[k].customerId == id && id !in Ids(rows[..k])
  {
    var init := rows[..|rows| - 1];
    assert rows == init + [rows[|rows| - 1]];
    IdsOfSnoc(init, rows[|rows| - 1]);
    if id in Ids(init) then
      var k := FirstIndex(init, id);
      assert rows[..k] == init[..k];
      k
    else |rows| - 1
  }

  /** Deduplication keeps every id once: the ids are unique and none is lost. */
  lemma {:induction false} DedupFirstIds(rows: seq<Customer>)
    ensures Ids(DedupFirst(rows)) == Ids(rows)
    ensures var r := DedupFirst(rows);
      forall i, j :: 0 <= i < j < |r| ==> r[i].customerId != r[j].customerId
  {
    if |rows| > 0 {
      var init, last := rows[..|rows| - 1], rows[|rows| - 1];
      assert rows == init + [last];
      IdsOfSnoc(init, last);
      DedupFirstIds(init);
      if last.customerId !in Ids(init) {
        IdsOfSnoc(DedupFirst(init), last);
        var r := DedupFirst(rows);
        forall i | 0 <= i < |r| - 1 ensures r[i].customerId != last.customerId {
          assert r[i] == DedupFirst(init)[i];
          assert r[i].customerId in Ids(DedupFirst(init));
        }
      }
    }
  }

  /** `c` is the first row of `rows` with its customer id. */
  ghost predicate IsFirstOfId(rows: seq<Customer>, c: Customer) {
    c.customerId in Ids(rows) && c == rows[FirstIndex(rows, c.customerId)]
  }

  /** The position of the first row with the id of `c`, which must be one of the rows' ids. */
  ghost function FirstPosition(rows: seq<Customer>, c: Customer): int {
    if c.customerId in Ids(rows) then FirstIndex(rows, c.customerId) else -1
  }

  /**
   * Each kept row is the first row of its id, and the kept rows are in the
   * order of those first rows.
   */
  lemma {:induction false} DedupFirstKeepsFirst(rows: seq<Customer>)
    ensures forall i :: 0 <= i < |DedupFirst(rows)| ==> IsFirstOfId(rows, DedupFirst(rows)[i])
    ensures forall i, j :: 0 <= i < j < |DedupFirst(rows)| ==>
      FirstPosition(rows, DedupFirst(rows)[i]) < FirstPosition(rows, DedupFirst(rows)[j])
  {
    if |rows| > 0 {
      var init, last := rows[..|rows| - 1], rows[|rows| - 1];
      assert rows == init + [last];
      IdsOfSnoc(init, last);
      DedupFirstKeepsFirst(init);
      var p := DedupFirst(init);
      forall i | 0 <= i < |p|
        ensures IsFirstOfId(rows, p[i]) && FirstPosition(rows, p[i]) == FirstPosition(init, p[i]) < |init|
      {
        assert IsFirstOfId(init, p[i]);
      }
      if last.customerId !in Ids(init) {
        assert FirstPosition(rows, last) == |init|;
        var r := DedupFirst(rows);
        assert r == p + [last];
        forall i | 0 <= i < |r| ensures IsFirstOfId(rows, r[i]) {
          if i < |p| { assert r[i] == p[i]; }
        }
        forall i, j | 0 <= i < j < |r| ensures FirstPosition(rows, r[i]) < FirstPosition(rows, r[j]) {
          assert r[i] == p[i];
          if j < |p| { assert r[j] == p[j]; }
        }
      }
    }
  }

  /** Step 5, last part: a single pass with a set of the ids seen so far. */
  method DropDuplicateIds(rows: array<Customer>) returns (kept: array<Customer>)
    ensures fresh(kept)
    ensures kept[..] == DedupFirst(rows[..])
  {
    var out: seq<Customer> := [];
    var seen: set<Option<string>> := {};
    var i := 0;
    while i < rows.Length
      invariant 0 <= i <= rows.Length
      invariant out == DedupFirst(rows[..i])
      invariant seen == Ids(rows[..i])
    {
      assert rows[..i + 1] == rows[..i] + [rows[i]];
      IdsOfSnoc(rows[..i], rows[i]);
      var id := rows[i].customerId;
      if id !in seen {
        out := out + [rows[i]];
        seen := seen + {id};
      }
      i := i + 1;
    }
    assert rows[..] == rows[..rows.Length];
    kept := new Customer[|out|](j requires 0 <= j < |out| => out[j]);
  }

  // ---------------------------------------------------------------- pipeline

  /** Steps 1 to 4 and the age reconciliation, on one row. */
  function CleanRow(c: RawCustomer, toNumeric: string -> Option<real>,
                    toDatetime: string -> Option<DateTime>, currentYear: int): Customer
  {
    var text := ReplaceNullMarkers(StandardizeFormats(MergeColumns(c)));
    ReconcileAge(ValidateEmailField(CorrectTypes(text, toNumeric, toDatetime)), currentYear)
  }

  /** Every step of `clean_customer_data` before deduplication, stage by stage. */
  function CleanRows(raw: seq<RawCustomer>, toNumeric: string -> Option<real>,
                     toDatetime: string -> Option<DateTime>, currentYear: int): seq<Customer>
  {
    var merged := MapSeq(raw, MergeColumns);
    var standardized := MapSeq(merged, StandardizeFormats);
    var cleared := MapSeq(standardized, ReplaceNullMarkers);
    var typed := MapSeq(cleared, c => CorrectTypes(c, toNumeric, toDatetime));
    var validated := MapSeq(typed, ValidateEmailField);
    ReconcileAges(validated, currentYear)
  }

  /** The stages, column-wide one after another, clean each row on its own. */
  lemma CleanRowsPointwise(raw: seq<RawCustomer>, toNumeric: string -> Option<real>,
                           toDatetime: string -> Option<DateTime>, currentYear: int)
    ensures var r := CleanRows(raw, toNumeric, toDatetime, currentYear);
      |r| == |raw| && forall i :: 0 <= i < |raw| ==> r[i] == CleanRow(raw[i], toNumeric, toDatetime, currentYear)
  {
  }

  /** `clean_customer_data` as a function of the input rows. */
  function CleanCustomers(raw: seq<RawCustomer>, toNumeric: string -> Option<real>,
                          toDatetime: string -> Option<DateTime>, currentYear: int): seq<Customer>
  {
    DedupFirst(CleanRows(raw, toNumeric, toDatetime, currentYear))
  }

  /** `clean_customer_data`: the input table is copied, never changed. */
  method CleanCustomerData(df: array<RawCustomer>, toNumeric: string -> Option<real>,
                           toDatetime: string -> Option<DateTime>, currentYear: int)
    returns (cleaned: array<Customer>)
    ensures cleaned[..] == CleanCustomers(df[..], toNumeric, toDatetime, currentYear)
  {
    var frame := MapInto(df, MergeColumns);
    MapRows(frame, StandardizeFormats);
    MapRows(frame, ReplaceNullMarkers);
    var typed := MapInto(frame, c => CorrectTypes(c, toNumeric, toDatetime));
    MapRows(typed, ValidateEmailField);
    ValidateAgeConsistency(typed, currentYear);
    cleaned := DropDuplicateIds(typed);
  }

  /** A text cell that is present is not a null marker. */
  predicate NotNullMarker(v: Option<string>) {
    v.Some? ==> !IsNullMarker(v.value)
  }

  /** What every row of the cleaned table satisfies. */
  ghost predicate IsCleanRow(c: Customer, currentYear: int) {
    NotNullMarker(c.customerId) && NotNullMarker(c.customerName) && NotNullMarker(c.phone) &&
    NotNullMarker(c.status) && NotNullMarker(c.city) && NotNullMarker(c.state) &&
    NotNullMarker(c.gender) && NotNullMarker(c.address) && NotNullMarker(c.segment) &&
    (c.email.Some? ==>
      !IsNullMarker(c.email.value) &&
      (InEmailLanguage(c.email.value) ||
       (|c.email.value| > 0 && c.email.value[|c.email.value| - 1] == '\n' &&
        InEmailLanguage(c.email.value[..|c.email.value| - 1])))) &&
    (c.birthDate.Some? ==>
      c.age.Some? && Abs(c.age.value - (currentYear - c.birthDate.value.date.year) as real) <= 1.0)
  }

  /** Every row deduplication keeps is one of its input rows. */
  lemma DedupFirstSubset(rows: seq<Customer>)
    ensures forall c :: c in DedupFirst(rows) ==> c in rows
  {
    DedupFirstKeepsFirst(rows);
    forall c | c in DedupFirst(rows) ensures c in rows {
      var i :| 0 <= i < |DedupFirst(rows)| && DedupFirst(rows)[i] == c;
      assert IsFirstOfId(rows, DedupFirst(rows)[i]);
    }
  }

  /** Each cleaned row has no null-marker text, a valid or missing e-mail and a consistent age. */
  lemma CleanRowIsClean(c: RawCustomer, toNumeric: string -> Option<real>,
                        toDatetime: string -> Option<DateTime>, currentYear: int)
    ensures IsCleanRow(CleanRow(c, toNumeric, toDatetime, currentYear), currentYear)
  {
    var text := ReplaceNullMarkers(StandardizeFormats(MergeColumns(c)));
    var validated := ValidateEmailField(CorrectTypes(text, toNumeric, toDatetime));
    assert validated.email.Some? ==> validated.email == text.email;
  }

  /** Cleaning a row keeps its merged customer id, or makes a null marker missing. */
  lemma CleanRowId(c: RawCustomer, toNumeric: string -> Option<real>,
                   toDatetime: string -> Option<DateTime>, currentYear: int)
    ensures CleanRow(c, toNumeric, toDatetime, currentYear).customerId == NullToMissing(c.customerId)
  {
  }

  /** Every row of the cleaned table has no null-marker text, a valid or missing e-mail and a consistent age. */
  lemma CleanCustomersRowsClean(raw: seq<RawCustomer>, toNumeric: string -> Option<real>,
                                toDatetime: string -> Option<DateTime>, currentYear: int)
    ensures var r := CleanCustomers(raw, toNumeric, toDatetime, currentYear);
      forall i :: 0 <= i < |r| ==> IsCleanRow(r[i], currentYear)
  {
    var rows := CleanRows(raw, toNumeric, toDatetime, currentYear);
    CleanRowsPointwise(raw, toNumeric, toDatetime, currentYear);
    DedupFirstSubset(rows);
    var r := DedupFirst(rows);
    forall i | 0 <= i < |r| ensures IsCleanRow(r[i], currentYear) {
      assert r[i] in rows;
      var k :| 0 <= k < |rows| && rows[k] == r[i];
      CleanRowIsClean(raw[k], toNumeric, toDatetime, currentYear);
    }
  }

  /** The cleaned table has unique customer ids. */
  lemma CleanCustomersUniqueIds(raw: seq<RawCustomer>, toNumeric: string -> Option<real>,
                                toDatetime: string -> Option<DateTime>, currentYear: int)
    ensures var r := CleanCustomers(raw, toNumeric, toDatetime, currentYear);
      forall i, j :: 0 <= i < j < |r| ==> r[i].customerId != r[j].customerId
  {
    DedupFirstIds(CleanRows(raw, toNumeric, toDatetime, currentYear));
  }

  /** Rows whose ids are the raw ids with null markers made missing have those ids. */
  lemma IdsOfRawIds(rows: seq<Customer>, raw: seq<RawCustomer>)
    requires |rows| == |raw|
    requires forall i :: 0 <= i < |raw| ==> rows[i].customerId == NullToMissing(raw[i].customerId)
    ensures Ids(rows) == set i | 0 <= i < |raw| :: NullToMissing(raw[i].customerId)
  {
    var ids := set i | 0 <= i < |raw| :: NullToMissing(raw[i].customerId);
    forall id | id in ids ensures id in Ids(rows) {
      var i :| 0 <= i < |raw| && NullToMissing(raw[i].customerId) == id;
      assert rows[i].customerId == id;
    }
  }

  /**
   * The ids of the cleaned table are exactly the `customer_id`s of the input rows
   * (a null marker counting as missing): deduplication loses none.
   */
  lemma CleanCustomersIds(raw: seq<RawCustomer>, toNumeric: string -> Option<real>,
                          toDatetime: string -> Option<DateTime>, currentYear: int)
    ensures Ids(CleanCustomers(raw, toNumeric, toDatetime, currentYear)) ==
      set i | 0 <= i < |raw| :: NullToMissing(raw[i].customerId)
  {
    var rows := CleanRows(raw, toNumeric, toDatetime, currentYear);
    CleanRowsPointwise(raw, toNumeric, toDatetime, currentYear);
    DedupFirstIds(rows);
    forall i | 0 <= i < |raw| ensures rows[i].customerId == NullToMissing(raw[i].customerId) {
      CleanRowId(raw[i], toNumeric, toDatetime, currentYear);
    }
    IdsOfRawIds(rows, raw);
  }
}

=== FILE: dates.dfy ===
/**
 * Calendar dates, and `datetime.strptime` for the fixed numeric formats the
 * cleaners try (`%m/%d/%Y`, `%Y-%m-%d`, `%d/%m/%Y`, `%Y/%m/%d`), with the
 * rendering `strftime('%Y-%m-%d')`.
 *
 * Python's strptime compiles each directive to a regular expression that
 * must consume the whole input: `%Y` is exactly four digits, `%m` is
 * `1[0-2]|0[1-9]|[1-9]`, `%d` is `3[01]|[12]\d|0[1-9]|[1-9]| [1-9]`; the
 * separators are literal. A match that names a day the month does not have
 * (or year 0) is then rejected by the `datetime` constructor.
 */
module Dates {
  import opened Values
  import opened Text

  datatype Date = Date(year: int, month: int, day: int)

  /** A timestamp: a date and a time of day (sub-second precision is not modelled). */
  datatype DateTime = DateTime(date: Date, hour: int, minute: int, second: int)

  predicate IsLeapYear(y: int) {
    y % 4 == 0 && (y % 100 != 0 || y % 400 == 0)
  }

  function DaysInMonth(y: int, m: int): (n: int)
    requires 1 <= m <= 12
    ensures 28 <= n <= 31
  {
    if m == 2 then (if IsLeapYear(y) then 29 else 28)
    else if m == 4 || m == 6 || m == 9 || m == 11 then 30
    else 31
  }

  /** A date `datetime.date` accepts (years 1 to 9999). */
  predicate IsValidDate(d: Date) {
    1 <= d.year <= 9999 && 1 <= d.month <= 12 && 1 <= d.day <= DaysInMonth(d.year, d.month)
  }

  function AtMidnight(d: Date): DateTime { DateTime(d, 0, 0, 0) }

  // ---------------------------------------------------------------- directive fields

  /** `%Y`: exactly four digits. */
  function YearField(s: string): (r: Option<int>)
    ensures r.Some? <==> |s| == 4 && forall i :: 0 <= i < 4 ==> IsDigit(s[i])
    ensures r.Some? ==> 0 <= r.value <= 9999
  {
    if |s| == 4 && IsDigit(s[0]) && IsDigit(s[1]) && IsDigit(s[2]) && IsDigit(s[3]) then
      DigitsValueBound(s);
      Some(DigitsValue(s))
    else None
  }

  /** `%m`: one of `1[0-2]`, `0[1-9]`, `[1-9]`, covering the whole field. */
  function MonthField(s: string): (r: Option<int>)
    ensures r.Some? ==> 1 <= r.value <= 12
    ensures r.Some? ==> 1 <= |s| <= 2 && forall i :: 0 <= i < |s| ==> IsDigit(s[i])
  {
    DigitsValueShort(s);
    if |s| == 1 && '1' <= s[0] <= '9' then Some(DigitsValue(s))
    else if |s| == 2 && s[0] == '1' && '0' <= s[1] <= '2' then Some(DigitsValue(s))
    else if |s| == 2 && s[0] == '0' && '1' <= s[1] <= '9' then Some(DigitsValue(s))
    else None
  }

  /** `%d`: one of `3[01]`, `[12]\d`, `0[1-9]`, `[1-9]`, ` [1-9]`, covering the whole field. */
  function DayField(s: string): (r: Option<int>)
    ensures r.Some? ==> 1 <= r.value <= 31
    ensures r.Some? ==> 1 <= |s| <= 2 && forall i :: 0 <= i < |s| ==> IsDigit(s[i]) || (i == 0 && s[i] == ' ')
  {
    DigitsValueShort(s);
    if |s| == 1 && '1' <= s[0] <= '9' then Some(DigitsValue(s))
    else if |s| == 2 && s[0] == ' ' && '1' <= s[1] <= '9' then Some(DigitValue(s[1]))
    else if |s| == 2 && s[0] == '0' && '1' <= s[1] <= '9' then Some(DigitsValue(s))
    else if |s| == 2 && '1' <= s[0] <= '2' && IsDigit(s[1]) then Some(DigitsValue(s))
    else if |s| == 2 && s[0] == '3' && '0' <= s[1] <= '1' then Some(DigitsValue(s))
    else None
  }

  /** The index of the first `c` in `s`, or `|s|` when there is none. */
  function IndexOf(s: string, c: char): (k: nat)
    ensures k <= |s|
    ensures c !in s[..k]
    ensures k < |s| ==> s[k] == c
  {
    if |s| == 0 || s[0] == c then 0
    else
      var k := 1 + IndexOf(s[1..], c);
      assert s[..k] == [s[0]] + s[1..][..k - 1];
      k
  }

  lemma SplitAt(s: string, i: nat)
    requires i < |s|
    ensures s == s[..i] + [s[i]] + s[i + 1..]
  {
  }

  /** The field order of a date format; the two separators are the same character. */
  datatype Format = MonthDayYear(sep: char) | YearMonthDay(sep: char) | DayMonthYear(sep: char)

  const MDY_SLASH := MonthDayYear('/')   // %m/%d/%Y
  const YMD_DASH := YearMonthDay('-')    // %Y-%m-%d
  const DMY_SLASH := DayMonthYear('/')   // %d/%m/%Y
  const YMD_SLASH := YearMonthDay('/')   // %Y/%m/%d

  /**
   * The three fields of `s` around its first two separators. No directive
   * admits a separator character, so a match must split `s` exactly there.
   */
  function SplitFields(s: string, sep: char): (r: Option<(string, string, string)>)
    ensures r.Some? ==> r.value.0 + [sep] + r.value.1 + [sep] + r.value.2 == s
    ensures r.Some? ==> sep !in r.value.0 && sep !in r.value.1
  {
    var i := IndexOf(s, sep);
    if i == |s| then None
    else
      var rest := s[i + 1..];
      var j := IndexOf(rest, sep);
      if j == |rest| then None
      else
        var a, b, c := s[..i], rest[..j], rest[j + 1..];
        SplitAt(s, i);
        SplitAt(rest, j);
        assert a + [sep] + b + [sep] + c == a + [sep] + (b + [sep] + c);
        Some((a, b, c))
  }

  /** `datetime.strptime(s, fmt)`, as a date; `None` where strptime raises `ValueError`. */
  function Strptime(s: string, fmt: Format): (r: Option<Date>)
    ensures r.Some? ==> IsValidDate(r.value)
    ensures r.Some? ==> fmt.sep in s
  {
    match SplitFields(s, fmt.sep)
    case None => None
    case Some((a, b, c)) =>
      var (y, m, d) := match fmt
        case MonthDayYear(_) => (YearField(c), MonthField(a), DayField(b))
        case YearMonthDay(_) => (YearField(a), MonthField(b), DayField(c))
        case DayMonthYear(_) => (YearField(c), MonthField(b), DayField(a));
      if y.Some? && m.Some? && d.Some? && IsValidDate(Date(y.value, m.value, d.value)) then
        Some(Date(y.value, m.value, d.value))
      else None
  }

  /** `strftime('%Y-%m-%d')` of a date (years are zero-padded to four digits). */
  function FormatIsoDate(d: Date): (s: string)
    requires IsValidDate(d)
    ensures |s| == 10 && s[4] == '-' && s[7] == '-'
    ensures forall i :: 0 <= i < 10 && i != 4 && i != 7 ==> IsDigit(s[i])
  {
    Padded(d.year, 4) + "-" + Padded(d.month, 2) + "-" + Padded(d.day, 2)
  }

  // ---------------------------------------------------------------- round trip

  lemma {:induction false} DigitsValueBound(s: string)
    requires forall i :: 0 <= i < |s| ==> IsDigit(s[i])
    ensures DigitsValue(s) < Pow10(|s|)
  {
    if |s| > 0 {
      DigitsValueBound(s[..|s| - 1]);
    }
  }

  lemma DigitsValueShort(s: string)
    ensures |s| == 1 && IsDigit(s[0]) ==> DigitsValue(s) == DigitValue(s[0])
    ensures |s| == 2 && IsDigit(s[0]) && IsDigit(s[1]) ==> DigitsValue(s) == 10 * DigitValue(s[0]) + DigitValue(s[1])
  {
    if |s| == 2 && IsDigit(s[0]) && IsDigit(s[1]) {
      assert s[..1][..0] == [];
    }
  }

  lemma Padded2(n: nat)
    requires n < 100
    ensures Padded(n, 2) == [DigitChar(n / 10), DigitChar(n % 10)]
  {
    var t := n / 10;
    assert t < 10 && t % 10 == t && t / 10 == 0;
    assert Padded(t, 1) == [DigitChar(t)];
  }

  lemma IsoDateSplit(d: Date)
    requires IsValidDate(d)
    ensures SplitFields(FormatIsoDate(d), '-') == Some((Padded(d.year, 4), Padded(d.month, 2), Padded(d.day, 2)))
  {
    var s := FormatIsoDate(d);
    var ys, ms, ds := Padded(d.year, 4), Padded(d.month, 2), Padded(d.day, 2);
    assert s == ys + "-" + ms + "-" + ds;
    assert '-' !in ys && '-' !in ms;
    assert IndexOf(s, '-') == 4;
    var rest := s[5..];
    assert rest == ms + "-" + ds;
    assert IndexOf(rest, '-') == 2;
    assert s[..4] == ys && rest[..2] == ms && rest[3..] == ds;
  }

  lemma YearFieldOfPadded(y: int)
    requires 1 <= y <= 9999
    ensures YearField(Padded(y, 4)) == Some(y)
  {
    assert Pow10(4) == 10000;
    PaddedValue(y, 4);
  }

  lemma MonthFieldOfPadded(m: int)
    requires 1 <= m <= 12
    ensures MonthField(Padded(m, 2)) == Some(m)
  {
    assert Pow10(2) == 100;
    PaddedValue(m, 2);
    Padded2(m);
  }

  lemma DayFieldOfPadded(d: int)
    requires 1 <= d <= 31
    ensures DayField(Padded(d, 2)) == Some(d)
  {
    assert Pow10(2) == 100;
    PaddedValue(d, 2);
    Padded2(d);
  }

  lemma IsoDateFields(d: Date)
    requires IsValidDate(d)
    ensures YearField(Padded(d.year, 4)) == Some(d.year)
    ensures MonthField(Padded(d.month, 2)) == Some(d.month)
    ensures DayField(Padded(d.day, 2)) == Some(d.day)
  {
    YearFieldOfPadded(d.year);
    MonthFieldOfPadded(d.month);
    DayFieldOfPadded(d.day);
  }

  /** A rendered date is read back by `%Y-%m-%d` as the same date. */
  lemma IsoDateRoundTrip(d: Date)
    requires IsValidDate(d)
    ensures Strptime(FormatIsoDate(d), YMD_DASH) == Some(d)
  {
    IsoDateSplit(d);
    IsoDateFields(d);
  }

  /** A rendered date contains no '/', so no slash format accepts it. */
  lemma IsoDateRejectedBySlashFormats(d: Date)
    requires IsValidDate(d)
    ensures Strptime(FormatIsoDate(d), MDY_SLASH) == None
    ensures Strptime(FormatIsoDate(d), DMY_SLASH) == None
    ensures Strptime(FormatIsoDate(d), YMD_SLASH) == None
  {
    var s := FormatIsoDate(d);
    assert '/' !in s by {
      forall i | 0 <= i < |s| ensures s[i] != '/' {
        assert i == 4 || i == 7 || IsDigit(s[i]);
      }
    }
  }

  // ---------------------------------------------------------------- trying formats in turn

  /** The formats before position `k` all reject `s`. */
  predicate RejectedBefore(s: string, formats: seq<Format>, k: nat)
    requires k <= |formats|
  {
    forall j :: 0 <= j < k ==> Strptime(s, formats[j]).None?
  }

  /** Rejection by the formats before `k + 1` is rejection by the first and by those of the rest before `k`. */
  lemma RejectedBeforeCons(s: string, formats: seq<Format>, k: nat)
    requires 0 < |formats| && k < |formats|
    ensures RejectedBefore(s, formats, k + 1) <==>
      Strptime(s, formats[0]).None? && RejectedBefore(s, formats[1..], k)
  {
    if Strptime(s, formats[0]).None? && RejectedBefore(s, formats[1..], k) {
      forall j | 0 <= j < k + 1 ensures Strptime(s, formats[j]).None? {
        if j > 0 {
          assert formats[j] == formats[1..][j - 1];
        }
      }
    }
    if RejectedBefore(s, formats, k + 1) {
      forall j | 0 <= j < k ensures Strptime(s, formats[1..][j]).None? {
        assert formats[1..][j] == formats[j + 1];
      }
    }
  }

  /**
   * The date read by the first format that accepts `s`: the formats before it
   * all reject `s`, and if every format rejects `s` there is no date.
   */
  function FirstParse(s: string, formats: seq<Format>): (r: Option<Date>)
    ensures r.Some? ==> IsValidDate(r.value)
    ensures r.Some? ==> exists k :: 0 <= k < |formats| && Strptime(s, formats[k]) == r && RejectedBefore(s, formats, k)
    ensures r.None? <==> RejectedBefore(s, formats, |formats|)
  {
    if |formats| == 0 then None
    else if Strptime(s, formats[0]).Some? then
      RejectedBeforeCons(s, formats, |formats| - 1);
      assert RejectedBefore(s, formats, 0);
      Strptime(s, formats[0])
    else
      var r := FirstParse(s, formats[1..]);
      RejectedBeforeCons(s, formats, |formats| - 1);
      if r.Some? then
        var k :| 0 <= k < |formats| - 1 && Strptime(s, formats[1..][k]) == r && RejectedBefore(s, formats[1..], k);
        RejectedBeforeCons(s, formats, k);
        assert formats[1..][k] == formats[k + 1];
        r
      else
        r
  }

  /** Trying `a` first, then the formats of `rest`. */
  lemma FirstParseCons(s: string, a: Format, rest: seq<Format>)
    ensures FirstParse(s, [a] + rest) == if Strptime(s, a).Some? then Strptime(s, a) else FirstParse(s, rest)
  {
    assert ([a] + rest)[1..] == rest;
  }

  // ---------------------------------------------------------------- examples

  lemma SlashIndexExample()
    ensures IndexOf("03/04/2021", '/') == 2 && IndexOf("04/2021", '/') == 2
  {
    assert "03/04/2021"[1..] == "3/04/2021";
    assert "04/2021"[1..] == "4/2021";
  }

  lemma SlashSplitExample()
    ensures SplitFields("03/04/2021", '/') == Some(("03", "04", "2021"))
  {
    var s := "03/04/2021";
    SlashIndexExample();
    assert s[3..] == "04/2021";
    assert s[..2] == "03" && "04/2021"[..2] == "04" && "04/2021"[3..] == "2021";
  }

  lemma SlashFieldsExample()
    ensures MonthField("03") == Some(3) && DayField("04") == Some(4) && YearField("2021") == Some(2021)
  {
    DigitsValueShort("03");
    DigitsValueShort("04");
    DigitsValueShort("20");
    assert "2021"[..3] == "202" && "202"[..2] == "20";
  }

  lemma SlashDateExample()
    ensures Strptime("03/04/2021", MDY_SLASH) == Some(Date(2021, 3, 4))
  {
    SlashSplitExample();
    SlashFieldsExample();
  }

  lemma IsoDateExample()
    ensures FormatIsoDate(Date(2021, 3, 4)) == "2021-03-04"
  {
    Padded2(3);
    Padded2(4);
    assert Padded(2021, 4) == Padded(202, 3) + "1";
    assert Padded(202, 3) == Padded(20, 2) + "2";
    Padded2(20);
  }
}

=== FILE: orders.dfy ===
/**
 * The order cleaner: nine stages, each of which rewrites the table in place:
 * redundant id columns are dropped, the two date columns are parsed and
 * cross-filled, tracking numbers are generated, the two status columns are
 * mapped and merged by rank, the two quantity columns are compared and
 * merged, the totals are recomputed, the notes column is dropped or filled,
 * and the money and quantity columns are made non-negative with the
 * discount capped.
 *
 * A table is a set of columns and an array of rows. A row has a field for
 * every column a stage reads or writes; a column the table does not have is
 * missing in every row. Columns no stage touches (`order_id`,
 * `customer_id` and the like) pass through unchanged and are not modelled.
 */
module Orders {
  import opened Values
  import opened Tables
  import opened Text
  import opened Dates

  // ---------------------------------------------------------------- rows and frames

  datatype Column =
    | CustId | OrdId | OrderDate | OrderDatetime | TrackingNumber | Status | OrderStatus
    | Quantity | Qty | QuantityConflict | UnitPrice | ShippingCost | Tax | Discount
    | OrderTotal | TotalMismatch | TotalAmount | Price | Notes

  /**
   * One order row. The two date columns hold text until they are parsed;
   * numeric columns hold numbers as the input reader produced them.
   */
  datatype Order = Order(
    custId: Option<string>, ordId: Option<string>,
    orderDate: Option<Cell<DateTime>>, orderDatetime: Option<Cell<DateTime>>,
    trackingNumber: Option<string>, status: Option<string>, orderStatus: Option<string>,
    quantity: Option<real>, qty: Option<real>, quantityConflict: Option<bool>,
    unitPrice: Option<real>, shippingCost: Option<real>, tax: Option<real>,
    discount: Option<real>, orderTotal: Option<real>, totalMismatch: Option<bool>,
    totalAmount: Option<real>, price: Option<real>, notes: Option<string>)

  /** A row has nothing in the columns its table does not have. */
  predicate Conforms(o: Order, columns: set<Column>) {
    (CustId !in columns ==> o.custId.None?) &&
    (OrdId !in columns ==> o.ordId.None?) &&
    (OrderDate !in columns ==> o.orderDate.None?) &&
    (OrderDatetime !in columns ==> o.orderDatetime.None?) &&
    (TrackingNumber !in columns ==> o.trackingNumber.None?) &&
    (Status !in columns ==> o.status.None?) &&
    (OrderStatus !in columns ==> o.orderStatus.None?) &&
    (Quantity !in columns ==> o.quantity.None?) &&
    (Qty !in columns ==> o.qty.None?) &&
    (QuantityConflict !in columns ==> o.quantityConflict.None?) &&
    (UnitPrice !in columns ==> o.unitPrice.None?) &&
    (ShippingCost !in columns ==> o.shippingCost.None?) &&
    (Tax !in columns ==> o.tax.None?) &&
    (Discount !in columns ==> o.discount.None?) &&
    (OrderTotal !in columns ==> o.orderTotal.None?) &&
    (TotalMismatch !in columns ==> o.totalMismatch.None?) &&
    (TotalAmount !in columns ==> o.totalAmount.None?) &&
    (Price !in columns ==> o.price.None?) &&
    (Notes !in columns ==> o.notes.None?)
  }

  /** The row with its cell in column `c` removed. */
  function Clear(o: Order, c: Column): (r: Order)
    ensures forall columns :: Conforms(o, columns) ==> Conforms(r, columns - {c})
  {
    match c
    case CustId => o.(custId := None)
    case OrdId => o.(ordId := None)
    case OrderDate => o.(orderDate := None)
    case OrderDatetime => o.(orderDatetime := None)
    case TrackingNumber => o.(trackingNumber := None)
    case Status => o.(status := None)
    case OrderStatus => o.(orderStatus := None)
    case Quantity => o.(quantity := None)
    case Qty => o.(qty := None)
    case QuantityConflict => o.(quantityConflict := None)
    case UnitPrice => o.(unitPrice := None)
    case ShippingCost => o.(shippingCost := None)
    case Tax => o.(tax := None)
    case Discount => o.(discount := None)
    case OrderTotal => o.(orderTotal := None)
    case TotalMismatch => o.(totalMismatch := None)
    case TotalAmount => o.(totalAmount := None)
    case Price => o.(price := None)
    case Notes => o.(notes := None)
  }

  /** The value of a table: its columns and its rows, in order. */
  datatype OrderFrame = OrderFrame(columns: set<Column>, rows: seq<Order>)

  predicate WellFormed(f: OrderFrame) {
    forall i :: 0 <= i < |f.rows| ==> Conforms(f.rows[i], f.columns)
  }

  /** `df.drop(c, axis=1)`. */
  function Dropped(f: OrderFrame, c: Column): (r: OrderFrame)
    ensures r.columns == f.columns - {c}
    ensures |r.rows| == |f.rows|
    ensures WellFormed(f) ==> WellFormed(r)
  {
    OrderFrame(f.columns - {c}, MapSeq(f.rows, o => Clear(o, c)))
  }

  // ---------------------------------------------------------------- 1. duplicate columns

  /** `remove_duplicate_columns`: `cust_id` and `ord_id` are dropped when present. */
  function WithoutDuplicateColumns(f: OrderFrame): (r: OrderFrame)
    ensures |r.rows| == |f.rows|
  {
    var g := if CustId in f.columns then Dropped(f, CustId) else f;
    if OrdId in g.columns then Dropped(g, OrdId) else g
  }

  lemma WithoutDuplicateColumnsSound(f: OrderFrame)
    requires WellFormed(f)
    ensures var r := WithoutDuplicateColumns(f);
      WellFormed(r) && r.columns == f.columns - {CustId, OrdId} && KeepsRows(f, r)
  {
    var g := if CustId in f.columns then Dropped(f, CustId) else f;
    DroppedKeeps(f, CustId);
    DroppedKeeps(g, OrdId);
  }

  // ---------------------------------------------------------------- 2. dates

  /** The formats `parse_date` tries, in order; `%m/%d/%Y` is listed twice. */
  const ORDER_DATE_FORMATS: seq<Format> := [MDY_SLASH, YMD_DASH, MDY_SLASH, DMY_SLASH]

  /**
   * `parse_date`: empty text gives a missing value; the first listed format
   * that reads the text gives that date at midnight; otherwise the general
   * parser `parseAny` decides.
   */
  function ParseOrderDate(v: Option<Cell<DateTime>>, parseAny: string -> Option<DateTime>): (r: Option<Cell<DateTime>>)
    ensures IsConverted(r)
    ensures v.None? || v == Some(Text("")) ==> r.None?
    ensures v.Some? && v.value.Value? ==> r == v
    ensures v.Some? && v.value.Text? && FirstParse(v.value.text, ORDER_DATE_FORMATS).Some? ==>
      r == Some(Value(AtMidnight(FirstParse(v.value.text, ORDER_DATE_FORMATS).value))) &&
      r.value.value.hour == 0 && r.value.value.minute == 0 && r.value.value.second == 0 &&
      IsValidDate(r.value.value.date)
    ensures v.Some? && v.value.Text? && v.value.text != "" && FirstParse(v.value.text, ORDER_DATE_FORMATS).None? ==>
      (r.Some? <==> parseAny(v.value.text).Some?) && (r.Some? ==> r.value.value == parseAny(v.value.text).value)
  {
    match v
    case None => None
    case Some(Value(_)) => v
    case Some(Text(s)) =>
      if s == "" then None
      else
        match FirstParse(s, ORDER_DATE_FORMATS)
        case Some(d) => Some(Value(AtMidnight(d)))
        case None =>
          match parseAny(s)
          case Some(t) => Some(Value(t))
          case None => None
  }

  /** The second `%m/%d/%Y` in the list never reads anything the first did not. */
  lemma OrderDateFormatsRedundant(s: string)
    ensures FirstParse(s, ORDER_DATE_FORMATS) == FirstParse(s, [MDY_SLASH, YMD_DASH, DMY_SLASH])
  {
    FirstParseRepeated(s, MDY_SLASH, YMD_DASH, DMY_SLASH);
  }

  /** A format tried a second time reads nothing new. */
  lemma FirstParseRepeated(s: string, a: Format, b: Format, c: Format)
    ensures FirstParse(s, [a, b, a, c]) == FirstParse(s, [a, b, c])
  {
    FirstParseCons(s, a, [b, a, c]);
    FirstParseCons(s, b, [a, c]);
    FirstParseCons(s, a, [c]);
    FirstParseCons(s, a, [b, c]);
    FirstParseCons(s, b, [c]);
  }


  /** A date that reads both ways is taken month first, at midnight. */
  lemma OrderDateMonthFirst(parseAny: string -> Option<DateTime>)
    ensures ParseOrderDate(Some(Text("03/04/2021")), parseAny) == Some(Value(DateTime(Date(2021, 3, 4), 0, 0, 0)))
  {
    SlashDateExample();
  }

  /** `pd.to_datetime(errors='coerce')` of one cell of `order_datetime`. */
  function CoerceDatetime(v: Option<Cell<DateTime>>, toDatetime: string -> Option<DateTime>): (r: Option<Cell<DateTime>>)
    ensures IsConverted(r)
    ensures v.None? ==> r.None?
    ensures v.Some? && v.value.Value? ==> r == v
    ensures v.Some? && v.value.Text? ==>
      (r.Some? <==> toDatetime(v.value.text).Some?) &&
      (r.Some? ==> r.value == Value(toDatetime(v.value.text).value))
  {
    match v
    case None => None
    case Some(Value(_)) => v
    case Some(Text(s)) =>
      match toDatetime(s)
      case Some(t) => Some(Value(t))
      case None => None
  }

  function ParseDateOfRow(o: Order, parseAny: string -> Option<DateTime>): (r: Order)
    ensures r == o.(orderDate := r.orderDate)
  {
    o.(orderDate := ParseOrderDate(o.orderDate, parseAny))
  }

  function CoerceDatetimeOfRow(o: Order, toDatetime: string -> Option<DateTime>): (r: Order)
    ensures r == o.(orderDatetime := r.orderDatetime)
  {
    o.(orderDatetime := CoerceDatetime(o.orderDatetime, toDatetime))
  }

  /** `standardize_date_formats`: each date column present is converted. */
  function WithParsedDates(f: OrderFrame, parseAny: string -> Option<DateTime>,
                           toDatetime: string -> Option<DateTime>): (r: OrderFrame)
    ensures |r.rows| == |f.rows|
  {
    var rows := if OrderDate in f.columns then MapSeq(f.rows, o => ParseDateOfRow(o, parseAny)) else f.rows;
    var rows' := if OrderDatetime in f.columns then MapSeq(rows, o => CoerceDatetimeOfRow(o, toDatetime)) else rows;
    f.(rows := rows')
  }

  /** Both date columns hold only converted cells. */
  predicate DatesConverted(f: OrderFrame) {
    forall i :: 0 <= i < |f.rows| ==> IsConverted(f.rows[i].orderDate) && IsConverted(f.rows[i].orderDatetime)
  }

  /** After parsing, every date cell is converted and no row gained or lost a column. */
  lemma WithParsedDatesSound(f: OrderFrame, parseAny: string -> Option<DateTime>,
                             toDatetime: string -> Option<DateTime>)
    requires WellFormed(f)
    ensures var r := WithParsedDates(f, parseAny, toDatetime);
      WellFormed(r) && DatesConverted(r) && r.columns == f.columns && |r.rows| == |f.rows| &&
      forall i :: 0 <= i < |f.rows| ==>
        r.rows[i].status == f.rows[i].status && r.rows[i].trackingNumber == f.rows[i].trackingNumber
  {
    var r := WithParsedDates(f, parseAny, toDatetime);
    forall i | 0 <= i < |r.rows|
      ensures Conforms(r.rows[i], r.columns)
      ensures IsConverted(r.rows[i].orderDate) && IsConverted(r.rows[i].orderDatetime)
      ensures r.rows[i].status == f.rows[i].status && r.rows[i].trackingNumber == f.rows[i].trackingNumber
    {
      assert Conforms(f.rows[i], f.columns);
    }
  }

  // ---------------------------------------------------------------- 3. missing values

  /**
   * Lines 90-91: a missing order date takes the calendar date of the order
   * timestamp (a cell stage 2 has not converted is never filled).
   */
  function FillOrderDate(o: Order): (r: Order)
    ensures r == o.(orderDate := r.orderDate)
    ensures o.orderDate.Some? ==> r == o
    ensures IsConverted(o.orderDatetime) ==> (r.orderDate.Some? <==> o.orderDate.Some? || o.orderDatetime.Some?)
    ensures o.orderDate.None? && ValueOf(o.orderDatetime).Some? ==>
      ValueOf(r.orderDate).Some? && ValueOf(r.orderDate).value.date == ValueOf(o.orderDatetime).value.date
  {
    match (o.orderDate, o.orderDatetime)
    case (None, Some(Value(t))) => o.(orderDate := Some(Value(AtMidnight(t.date))))
    case _ => o
  }

  /** Lines 94-95: a missing order timestamp becomes the order date at 12:00:00. */
  function FillOrderDatetime(o: Order): (r: Order)
    ensures r == o.(orderDatetime := r.orderDatetime)
    ensures o.orderDatetime.Some? ==> r == o
    ensures IsConverted(o.orderDate) ==> (r.orderDatetime.Some? <==> o.orderDatetime.Some? || o.orderDate.Some?)
    ensures o.orderDatetime.None? && ValueOf(o.orderDate).Some? ==>
      r.orderDatetime == Some(Value(DateTime(ValueOf(o.orderDate).value.date, 12, 0, 0)))
  {
    match (o.orderDatetime, o.orderDate)
    case (None, Some(Value(t))) => o.(orderDatetime := Some(Value(DateTime(t.date, 12, 0, 0))))
    case _ => o
  }

  /** After both fills a row has an order date exactly when it has an order timestamp. */
  lemma CrossFillAgrees(o: Order)
    requires IsConverted(o.orderDate) && IsConverted(o.orderDatetime)
    ensures var r := FillOrderDatetime(FillOrderDate(o));
      (r.orderDate.Some? <==> r.orderDatetime.Some?) &&
      IsConverted(r.orderDate) && IsConverted(r.orderDatetime) &&
      (o.orderDate.Some? && o.orderDatetime.Some? ==> r == o) &&
      (r.orderDate.Some? && r != o ==> ValueOf(r.orderDate).value.date == ValueOf(r.orderDatetime).value.date)
  {
  }

  /** The status text upper-cases to SHIPPED or DELIVERED. */
  predicate IsShippedText(status: Option<string>) {
    status.Some? && (Upper(status.value) == "SHIPPED" || Upper(status.value) == "DELIVERED")
  }

  /** Line 99: a shipped or delivered order without a tracking number. */
  predicate NeedsTracking(o: Order) {
    IsShippedText(o.status) && o.trackingNumber.None?
  }

  /** How many of `rows` need a tracking number. */
  function NeedCount(rows: seq<Order>): (n: nat)
    ensures n <= |rows|
  {
    if |rows| == 0 then 0
    else NeedCount(rows[..|rows| - 1]) + if NeedsTracking(rows[|rows| - 1]) then 1 else 0
  }

  lemma NeedCountOfSnoc(rows: seq<Order>, o: Order)
    ensures NeedCount(rows + [o]) == NeedCount(rows) + if NeedsTracking(o) then 1 else 0
  {
    assert (rows + [o])[..|rows|] == rows;
  }

  /** `'TRK' + str(n)`. */
  function TrackingCode(n: nat): string {
    "TRK" + NatToString(n)
  }

  /** "TRK" followed by six digits. */
  predicate IsTrackingCode(s: string) {
    |s| == 9 && s[..3] == "TRK" && forall i :: 3 <= i < 9 ==> IsDigit(s[i])
  }

  /** A draw of `randint(100000, 999999)` gives a code of "TRK" and six digits. */
  lemma TrackingCodeShape(n: nat)
    requires 100000 <= n < 999999
    ensures IsTrackingCode(TrackingCode(n))
  {
    assert Pow10(5) == 100000 && Pow10(6) == 1000000;
    NatToStringLength(n, 6);
  }

  /**
   * Line 100: the rows needing a tracking number get, in order, the codes of
   * the successive draws; a row's draw is the number of such rows before it.
   */
  function WithTracking(rows: seq<Order>, draws: seq<nat>): (r: seq<Order>)
    requires |rows| <= |draws|
    ensures |r| == |rows|
  {
    seq(|rows|, i requires 0 <= i < |rows| =>
      if NeedsTracking(rows[i]) then rows[i].(trackingNumber := Some(TrackingCode(draws[NeedCount(rows[..i])])))
      else rows[i])
  }

  /**
   * Only rows whose status upper-cases to SHIPPED or DELIVERED and which had
   * no tracking number are given one, and it has the shape "TRK" and six digits.
   */
  lemma WithTrackingOnlyShipped(rows: seq<Order>, draws: seq<nat>)
    requires |rows| <= |draws|
    requires forall k :: 0 <= k < |draws| ==> 100000 <= draws[k] < 999999
    ensures var r := WithTracking(rows, draws);
      forall i :: 0 <= i < |rows| ==>
        r[i] == rows[i].(trackingNumber := r[i].trackingNumber) &&
        (r[i].trackingNumber != rows[i].trackingNumber ==>
           IsShippedText(rows[i].status) && rows[i].trackingNumber.None? && IsTrackingCode(r[i].trackingNumber.value)) &&
        (IsShippedText(rows[i].status) ==> r[i].trackingNumber.Some?)
  {
    var r := WithTracking(rows, draws);
    forall i | 0 <= i < |rows| && NeedsTracking(rows[i])
      ensures IsTrackingCode(r[i].trackingNumber.value)
    {
      TrackingCodeShape(draws[NeedCount(rows[..i])]);
    }
  }

  /** Rows filled from each other when both date columns are present. */
  function CrossFilled(f: OrderFrame): (r: seq<Order>)
    ensures |r| == |f.rows|
  {
    if OrderDate in f.columns && OrderDatetime in f.columns then
      MapSeq(MapSeq(f.rows, FillOrderDate), FillOrderDatetime)
    else f.rows
  }

  /** `handle_missing_values`: the date cross-fill, then the tracking numbers. */
  function WithFilledValues(f: OrderFrame, draws: seq<nat>): (r: OrderFrame)
    requires |f.rows| <= |draws|
    ensures |r.rows| == |f.rows|
  {
    var rows := CrossFilled(f);
    var rows' := if TrackingNumber in f.columns && Status in f.columns then WithTracking(rows, draws) else rows;
    f.(rows := rows')
  }

  // ---------------------------------------------------------------- 4. status

  /** The status mapping of lines 107-110: a lower-case status to its token. */
  function StatusToken(s: string): (r: Option<string>)
    ensures r.Some? <==> s in {"delivered", "processing", "cancelled", "pending", "shipped"}
  {
    if s == "delivered" then Some("DELIVERED")
    else if s == "processing" then Some("PROCESSING")
    else if s == "cancelled" then Some("CANCELLED")
    else if s == "pending" then Some("PENDING")
    else if s == "shipped" then Some("SHIPPED")
    else None
  }

  /** One of the five status tokens. */
  predicate IsStatus(s: string) {
    s == "DELIVERED" || s == "SHIPPED" || s == "CANCELLED" || s == "PROCESSING" || s == "PENDING"
  }

  /** `priority.get(s, 0)`: the severity of a status, 0 for anything else. */
  function Rank(s: Option<string>): (n: int)
    ensures 0 <= n <= 5
    ensures n > 0 <==> s.Some? && IsStatus(s.value)
  {
    if s == Some("DELIVERED") then 5
    else if s == Some("SHIPPED") then 4
    else if s == Some("CANCELLED") then 3
    else if s == Some("PROCESSING") then 2
    else if s == Some("PENDING") then 1
    else 0
  }

  /** Distinct statuses have distinct ranks. */
  lemma RankInjective(s: Option<string>, t: Option<string>)
    requires Rank(s) == Rank(t) > 0
    ensures s == t
  {
  }

  /** Lines 113 and 117: `str.lower().map(mapping).fillna('PENDING')` on one cell. */
  function CanonicalStatus(v: Option<string>): (r: string)
    ensures IsStatus(r)
    ensures v.None? ==> r == "PENDING"
    ensures v.Some? && StatusToken(Lower(v.value)).None? ==> r == "PENDING"
    ensures v.Some? && StatusToken(Lower(v.value)).Some? ==> r == StatusToken(Lower(v.value)).value
  {
    match v
    case None => "PENDING"
    case Some(s) => StatusToken(Lower(s)).GetOr("PENDING")
  }

  /** A status token maps to itself, so a second standardisation changes nothing. */
  lemma CanonicalStatusIdempotent(v: Option<string>)
    ensures CanonicalStatus(Some(CanonicalStatus(v))) == CanonicalStatus(v)
  {
    assert Lower("DELIVERED") == "delivered" && Lower("SHIPPED") == "shipped";
    assert Lower("CANCELLED") == "cancelled" && Lower("PROCESSING") == "processing";
    assert Lower("PENDING") == "pending";
  }

  /** A text that upper-cases to a token maps to that token. */
  lemma CanonicalStatusOfUpper(s: string)
    requires IsStatus(Upper(s))
    ensures CanonicalStatus(Some(s)) == Upper(s)
  {
    LowerOfUpper(s);
    assert Lower("DELIVERED") == "delivered" && Lower("SHIPPED") == "shipped";
    assert Lower("CANCELLED") == "cancelled" && Lower("PROCESSING") == "processing";
    assert Lower("PENDING") == "pending";
  }

  /** Line 123: the status of higher rank wins, and a tie keeps `status`. */
  function MergeStatus(status: Option<string>, orderStatus: Option<string>): (r: Option<string>)
    ensures r == status || r == orderStatus
    ensures Rank(r) >= Rank(status) && Rank(r) >= Rank(orderStatus)
    ensures Rank(status) >= Rank(orderStatus) ==> r == status
  {
    if Rank(status) >= Rank(orderStatus) then status else orderStatus
  }

  /** "shipped" against "delivered": the delivered order status wins. */
  lemma MergeStatusExample()
    ensures MergeStatus(Some(CanonicalStatus(Some("shipped"))), Some(CanonicalStatus(Some("delivered")))) == Some("DELIVERED")
  {
    assert Lower("shipped") == "shipped" && Lower("delivered") == "delivered";
  }

  function StandardizeStatusOfRow(o: Order): (r: Order)
    ensures r == o.(status := r.status)
  {
    o.(status := Some(CanonicalStatus(o.status)))
  }

  function StandardizeOrderStatusOfRow(o: Order): (r: Order)
    ensures r == o.(orderStatus := r.orderStatus)
  {
    o.(orderStatus := Some(CanonicalStatus(o.orderStatus)))
  }

  function MergeStatusOfRow(o: Order): (r: Order)
    ensures r == o.(status := r.status)
  {
    o.(status := MergeStatus(o.status, o.orderStatus))
  }

  /**
   * `standardize_status_columns`: each status column present is mapped;
   * when both are, they are merged into `status` and `order_status` is dropped.
   */
  function WithMergedStatus(f: OrderFrame): (r: OrderFrame)
    ensures |r.rows| == |f.rows|
  {
    var rows := if Status in f.columns then MapSeq(f.rows, StandardizeStatusOfRow) else f.rows;
    var rows' := if OrderStatus in f.columns then MapSeq(rows, StandardizeOrderStatusOfRow) else rows;
    if Status in f.columns && OrderStatus in f.columns then
      Dropped(OrderFrame(f.columns, MapSeq(rows', MergeStatusOfRow)), OrderStatus)
    else f.(rows := rows')
  }

  // ---------------------------------------------------------------- 5, 6. quantity

  /** Line 132: `quantity != qty`, where a missing value differs from everything. */
  function IsQuantityConflict(quantity: Option<real>, qty: Option<real>): (r: bool)
    ensures !r <==> quantity.Some? && quantity == qty
  {
    !(quantity.Some? && qty.Some? && quantity.value == qty.value)
  }

  /** Line 139: `np.maximum`, the larger value; a missing value on either side gives missing. */
  function MaxQuantity(quantity: Option<real>, qty: Option<real>): (r: Option<real>)
    ensures r.Some? <==> quantity.Some? && qty.Some?
    ensures r.Some? ==>
      r.value >= quantity.value && r.value >= qty.value && (r.value == quantity.value || r.value == qty.value)
  {
    if quantity.Some? && qty.Some? then Some(if quantity.value >= qty.value then quantity.value else qty.value)
    else None
  }

  function FlagQuantityOfRow(o: Order): (r: Order)
    ensures r == o.(quantityConflict := r.quantityConflict)
  {
    o.(quantityConflict := Some(IsQuantityConflict(o.quantity, o.qty)))
  }

  function MergeQuantityOfRow(o: Order): (r: Order)
    ensures r == o.(quantity := r.quantity)
  {
    o.(quantity := MaxQuantity(o.quantity, o.qty))
  }

  /** A row without a conflict keeps its quantity; with one, the merged quantity is the larger. */
  lemma MergedQuantityAgreesWithFlag(o: Order)
    ensures var r := MergeQuantityOfRow(FlagQuantityOfRow(o));
      r.quantityConflict == Some(false) ==> r.quantity == o.quantity
    ensures var r := MergeQuantityOfRow(FlagQuantityOfRow(o));
      r.quantityConflict == Some(true) && r.quantity.Some? ==>
        r.quantity.value >= o.quantity.value && r.quantity.value >= o.qty.value && o.quantity != o.qty
  {
  }

  /** quantity 3 and qty 5: a conflict, and the merged quantity is 5. */
  lemma QuantityExample(o: Order)
    requires o.quantity == Some(3.0) && o.qty == Some(5.0)
    ensures MergeQuantityOfRow(FlagQuantityOfRow(o)).quantityConflict == Some(true)
    ensures MergeQuantityOfRow(FlagQuantityOfRow(o)).quantity == Some(5.0)
  {
  }

  /** `flag_quantity_conflict`: with both quantity columns, a new flag column. */
  function WithQuantityConflict(f: OrderFrame): (r: OrderFrame)
    ensures |r.rows| == |f.rows|
  {
    if Quantity in f.columns && Qty in f.columns then
      OrderFrame(f.columns + {QuantityConflict}, MapSeq(f.rows, FlagQuantityOfRow))
    else f
  }

  /** `fix_quantity_columns`: with both quantity columns, the larger is kept and `qty` dropped. */
  function WithMergedQuantity(f: OrderFrame): (r: OrderFrame)
    ensures |r.rows| == |f.rows|
  {
    if Quantity in f.columns && Qty in f.columns then
      Dropped(f.(rows := MapSeq(f.rows, MergeQuantityOfRow)), Qty)
    else f
  }

  // ---------------------------------------------------------------- 7. totals

  /** The columns the recalculation needs (line 146). */
  const REQUIRED_FOR_TOTALS: set<Column> := {UnitPrice, Quantity, ShippingCost, Tax, Discount}

  /** The gross line value `unit_price * quantity`, missing if either is. */
  function LineValue(o: Order): (r: Option<real>)
    ensures r.Some? <==> o.unitPrice.Some? && o.quantity.Some?
  {
    if o.unitPrice.Some? && o.quantity.Some? then Some(Times(o.unitPrice.value, o.quantity.value)) else None
  }

  lemma LineValueOfSameInputs(a: Order, b: Order)
    requires a.unitPrice == b.unitPrice && a.quantity == b.quantity
    ensures LineValue(a) == LineValue(b)
  {
  }

  /** Line 148: `unit_price * quantity + tax + shipping_cost - discount`, missing if any input is. */
  function ExpectedTotal(o: Order): (r: Option<real>)
    ensures r.Some? <==>
      o.unitPrice.Some? && o.quantity.Some? && o.tax.Some? && o.shippingCost.Some? && o.discount.Some?
  {
    if LineValue(o).Some? && o.tax.Some? && o.shippingCost.Some? && o.discount.Some? then
      Some(LineValue(o).value + o.tax.value + o.shippingCost.value - o.discount.value)
    else None
  }

  /** `np.isclose(a, b, atol=1.0)` without its relative term; a missing value is never close. */
  predicate IsClose(a: Option<real>, b: Option<real>) {
    a.Some? && b.Some? && Abs(a.value - b.value) <= 1.0
  }

  /** Lines 148-153 on one row. */
  function RecalculateRow(o: Order): (r: Order)
    ensures r == o.(totalMismatch := r.totalMismatch, orderTotal := r.orderTotal, totalAmount := r.totalAmount)
  {
    var expected := ExpectedTotal(o);
    o.(totalMismatch := Some(!IsClose(o.orderTotal, expected)),
       orderTotal := expected,
       totalAmount :=
         if expected.Some? && o.shippingCost.Some? && o.tax.Some? then
           Some(expected.value - o.shippingCost.value - o.tax.value)
         else None)
  }

  /** The total equation of the order record. */
  predicate TotalEquation(o: Order) {
    ExpectedTotal(o).Some? && o.orderTotal == ExpectedTotal(o)
  }

  /**
   * After recalculation a row with all five inputs satisfies the total
   * equation, its total amount is the discounted line value, and it is
   * flagged exactly when its old total was more than 1.0 away.
   */
  lemma RecalculateRowSound(o: Order)
    requires o.unitPrice.Some? && o.quantity.Some? && o.tax.Some? && o.shippingCost.Some? && o.discount.Some?
    ensures var r := RecalculateRow(o);
      TotalEquation(r) &&
      r.totalAmount == Some(LineValue(o).value - o.discount.value) &&
      (r.totalMismatch == Some(false) <==> o.orderTotal.Some? && Abs(o.orderTotal.value - r.orderTotal.value) <= 1.0)
  {
    var r := RecalculateRow(o);
    LineValueOfSameInputs(r, o);
  }

  /** A row missing one of the five inputs loses its totals and is flagged. */
  lemma RecalculateRowMissing(o: Order)
    requires !(o.unitPrice.Some? && o.quantity.Some? && o.tax.Some? && o.shippingCost.Some? && o.discount.Some?)
    ensures var r := RecalculateRow(o);
      r.orderTotal.None? && r.totalAmount.None? && r.totalMismatch == Some(true)
  {
  }

  /**
   * `recalculate_financial_columns`: with all five input columns, the totals
   * are recomputed and `price` is dropped; `None` where reading the absent
   * `order_total` column raises `KeyError` (line 149).
   */
  function WithRecalculatedTotals(f: OrderFrame): (r: Option<OrderFrame>)
    ensures r.Some? ==> |r.value.rows| == |f.rows|
    ensures r.None? <==> REQUIRED_FOR_TOTALS <= f.columns && OrderTotal !in f.columns
  {
    if REQUIRED_FOR_TOTALS <= f.columns then
      if OrderTotal !in f.columns then None
      else
        var g := OrderFrame(f.columns + {TotalMismatch, TotalAmount}, MapSeq(f.rows, RecalculateRow));
        Some(if Price in g.columns then Dropped(g, Price) else g)
    else Some(f)
  }

  // ---------------------------------------------------------------- 8. notes

  /** How many rows have no note. */
  function MissingNotes(rows: seq<Order>): (n: nat)
    ensures n <= |rows|
  {
    if |rows| == 0 then 0
    else MissingNotes(rows[..|rows| - 1]) + if rows[|rows| - 1].notes.None? then 1 else 0
  }

  /** The distinct notes present, as `nunique` counts them. */
  function NoteValues(rows: seq<Order>): set<string> {
    set i | 0 <= i < |rows| && rows[i].notes.Some? :: rows[i].notes.value
  }

  lemma MissingNotesOfSnoc(rows: seq<Order>, o: Order)
    ensures MissingNotes(rows + [o]) == MissingNotes(rows) + if o.notes.None? then 1 else 0
  {
    assert (rows + [o])[..|rows|] == rows;
  }

  lemma NoteValuesOfSnoc(rows: seq<Order>, o: Order)
    ensures NoteValues(rows + [o]) == NoteValues(rows) + if o.notes.Some? then {o.notes.value} else {}
  {
    var s := rows + [o];
    forall v | v in NoteValues(s) ensures v in NoteValues(rows) + if o.notes.Some? then {o.notes.value} else {} {
      var i :| 0 <= i < |s| && s[i].notes.Some? && s[i].notes.value == v;
      if i < |rows| {
        assert rows[i] == s[i];
      }
    }
    forall v | v in NoteValues(rows) ensures v in NoteValues(s) {
      var i :| 0 <= i < |rows| && rows[i].notes.Some? && rows[i].notes.value == v;
      assert s[i] == rows[i];
    }
    if o.notes.Some? {
      assert s[|rows|] == o;
    }
  }

  /**
   * Line 165: more than 75% of the notes are missing (`missing / n * 100 > 75`,
   * stated without division) and at most two distinct notes are present.
   */
  predicate NotesAreLowValue(rows: seq<Order>) {
    100 * MissingNotes(rows) > 75 * |rows| && |NoteValues(rows)| <= 2
  }

  function FillNoteOfRow(o: Order): (r: Order)
    ensures r == o.(notes := r.notes)
    ensures r.notes.Some? && (o.notes.Some? ==> r.notes == o.notes)
    ensures o.notes.None? ==> r.notes == Some("")
  {
    o.(notes := Some(o.notes.GetOr("")))
  }

  /** `handle_low_value_columns`: `notes` is dropped when it is low-value, else filled with "". */
  function WithLowValueColumnsHandled(f: OrderFrame): (r: OrderFrame)
    ensures |r.rows| == |f.rows|
  {
    if Notes in f.columns then
      if NotesAreLowValue(f.rows) then Dropped(f, Notes)
      else f.(rows := MapSeq(f.rows, FillNoteOfRow))
    else f
  }

  /** Afterwards `notes` is either gone, having been mostly missing, or complete. */
  lemma LowValueColumnsSound(f: OrderFrame)
    requires WellFormed(f)
    ensures var r := WithLowValueColumnsHandled(f);
      WellFormed(r) &&
      (Notes in f.columns && Notes !in r.columns ==> |f.rows| > 0 && MissingNotes(f.rows) > 0) &&
      (Notes in f.columns ==> (Notes !in r.columns <==> NotesAreLowValue(f.rows))) &&
      (Notes in r.columns ==> forall i :: 0 <= i < |r.rows| ==> r.rows[i].notes == Some(f.rows[i].notes.GetOr("")))
  {
    var r := WithLowValueColumnsHandled(f);
    if Notes in f.columns && !NotesAreLowValue(f.rows) {
      forall i | 0 <= i < |r.rows| ensures Conforms(r.rows[i], r.columns) {
        assert Conforms(f.rows[i], f.columns);
      }
    }
  }

  lemma {:induction false} AllNotesMissing(rows: seq<Order>)
    requires forall i :: 0 <= i < |rows| ==> rows[i].notes.None?
    ensures MissingNotes(rows) == |rows| && NoteValues(rows) == {}
  {
    if |rows| > 0 {
      AllNotesMissing(rows[..|rows| - 1]);
    }
  }

  /** A non-empty table without any note loses its `notes` column. */
  lemma EmptyNotesDropped(f: OrderFrame)
    requires Notes in f.columns && |f.rows| > 0
    requires forall i :: 0 <= i < |f.rows| ==> f.rows[i].notes.None?
    ensures WithLowValueColumnsHandled(f) == Dropped(f, Notes)
  {
    AllNotesMissing(f.rows);
  }

  /** A table with three different notes keeps its `notes` column, however many are missing. */
  lemma VariedNotesKept(f: OrderFrame, i: nat, j: nat, k: nat)
    requires Notes in f.columns && i < |f.rows| && j < |f.rows| && k < |f.rows|
    requires f.rows[i].notes.Some? && f.rows[j].notes.Some? && f.rows[k].notes.Some?
    requires f.rows[i].notes != f.rows[j].notes && f.rows[j].notes != f.rows[k].notes && f.rows[i].notes != f.rows[k].notes
    ensures Notes in WithLowValueColumnsHandled(f).columns
  {
    var three := {f.rows[i].notes.value, f.rows[j].notes.value, f.rows[k].notes.value};
    assert three <= NoteValues(f.rows);
    assert |three| == 3;
    SubsetCardinality(three, NoteValues(f.rows));
  }

  lemma SubsetCardinality(a: set<string>, b: set<string>)
    requires a <= b
    ensures |a| <= |b|
  {
    assert b == a + (b - a);
  }

  // ---------------------------------------------------------------- 9. final validation

  /** `df.loc[df[col] < 0, col] = abs(df[col])` on one cell. */
  function AbsIfNegative(v: Option<real>): (r: Option<real>)
    ensures r.Some? <==> v.Some?
    ensures r.Some? ==> r.value >= 0.0 && r.value == Abs(v.value)
  {
    if v.Some? && v.value < 0.0 then Some(-v.value) else v
  }

  /** Lines 181-182: a discount above the line value becomes half of it. */
  function CapDiscount(discount: Option<real>, line: Option<real>): (r: Option<real>)
    ensures r.Some? <==> discount.Some?
    ensures line.Some? && line.value >= 0.0 && r.Some? ==> r.value <= line.value
    ensures r != discount ==> line.Some? && discount.value > line.value
    ensures discount.Some? && line.Some? && discount.value > line.value ==> r == Some(line.value * 0.5)
  {
    if discount.Some? && line.Some? && discount.value > line.value then Some(line.value * 0.5)
    else discount
  }

  /** Lines 173-179: absolute values in the quantity and money columns the table has. */
  function AbsColumns(o: Order, columns: set<Column>): (r: Order)
    ensures Conforms(o, columns) ==> IsNonNegative(r) && Conforms(r, columns)
    ensures r == o.(quantity := r.quantity, unitPrice := r.unitPrice, orderTotal := r.orderTotal,
                    totalAmount := r.totalAmount, shippingCost := r.shippingCost, tax := r.tax)
  {
    o.(quantity := if Quantity in columns then AbsIfNegative(o.quantity) else o.quantity,
       unitPrice := if UnitPrice in columns then AbsIfNegative(o.unitPrice) else o.unitPrice,
       orderTotal := if OrderTotal in columns then AbsIfNegative(o.orderTotal) else o.orderTotal,
       totalAmount := if TotalAmount in columns then AbsIfNegative(o.totalAmount) else o.totalAmount,
       shippingCost := if ShippingCost in columns then AbsIfNegative(o.shippingCost) else o.shippingCost,
       tax := if Tax in columns then AbsIfNegative(o.tax) else o.tax)
  }

  /** `final_data_validation` on one row of a table with the given columns. */
  function ValidateRow(o: Order, columns: set<Column>): (r: Order)
    ensures r == AbsColumns(o, columns).(discount := r.discount)
  {
    var o' := AbsColumns(o, columns);
    if Discount in columns && UnitPrice in columns && Quantity in columns then
      o'.(discount := CapDiscount(o.discount, LineValue(o')))
    else o'
  }

  /** The quantity and money columns the final validation makes non-negative are so. */
  predicate IsNonNegative(o: Order) {
    (o.quantity.Some? ==> o.quantity.value >= 0.0) &&
    (o.unitPrice.Some? ==> o.unitPrice.value >= 0.0) &&
    (o.orderTotal.Some? ==> o.orderTotal.value >= 0.0) &&
    (o.totalAmount.Some? ==> o.totalAmount.value >= 0.0) &&
    (o.shippingCost.Some? ==> o.shippingCost.value >= 0.0) &&
    (o.tax.Some? ==> o.tax.value >= 0.0)
  }

  /** The discount does not exceed the line value. */
  predicate DiscountCapped(o: Order) {
    o.discount.Some? && LineValue(o).Some? ==> o.discount.value <= LineValue(o).value
  }

  /**
   * A validated row of a well-formed table is non-negative where the source
   * takes absolute values, keeps to its columns, and has its discount capped
   * by its line value.
   */
  lemma ValidateRowSound(o: Order, columns: set<Column>)
    requires Conforms(o, columns)
    ensures var r := ValidateRow(o, columns);
      IsNonNegative(r) && DiscountCapped(r) && Conforms(r, columns)
  {
    var o' := AbsColumns(o, columns);
    var r := ValidateRow(o, columns);
    LineValueOfSameInputs(r, o');
  }

  /** `final_data_validation`. */
  function WithValidatedNumbers(f: OrderFrame): (r: OrderFrame)
    ensures |r.rows| == |f.rows|
  {
    f.(rows := MapSeq(f.rows, o => ValidateRow(o, f.columns)))
  }

  /**
   * The total equation does not survive the final validation: a discount of
   * 20 on one item at 10 gives a total of -10, which becomes 10, while the
   * discount is capped to 5.
   */
  lemma TotalEquationBroken(o: Order)
    requires o.unitPrice == Some(10.0) && o.quantity == Some(1.0) && o.tax == Some(0.0)
    requires o.shippingCost == Some(0.0) && o.discount == Some(20.0)
    ensures TotalEquation(RecalculateRow(o))
    ensures var r := ValidateRow(RecalculateRow(o), REQUIRED_FOR_TOTALS + {OrderTotal, TotalAmount});
      r.orderTotal == Some(10.0) && r.discount == Some(5.0) && !TotalEquation(r)
  {
  }

  // ---------------------------------------------------------------- the pipeline

  /** Stages 1-4: columns, dates, missing values and statuses. */
  function PreparedOrders(f: OrderFrame, parseAny: string -> Option<DateTime>,
                          toDatetime: string -> Option<DateTime>, draws: seq<nat>): (r: OrderFrame)
    requires |f.rows| <= |draws|
    ensures |r.rows| == |f.rows|
  {
    WithMergedStatus(WithFilledValues(WithParsedDates(WithoutDuplicateColumns(f), parseAny, toDatetime), draws))
  }

  /** Stages 5-9: quantities, totals, notes and validation; `None` where the totals raise `KeyError`. */
  function FinishedOrders(f: OrderFrame): (r: Option<OrderFrame>)
    ensures r.Some? ==> |r.value.rows| == |f.rows|
  {
    match WithRecalculatedTotals(WithMergedQuantity(WithQuantityConflict(f)))
    case None => None
    case Some(g) => Some(WithValidatedNumbers(WithLowValueColumnsHandled(g)))
  }

  /** `clean_orders_dataset`: the nine stages in order. */
  function CleanOrders(f: OrderFrame, parseAny: string -> Option<DateTime>,
                       toDatetime: string -> Option<DateTime>, draws: seq<nat>): (r: Option<OrderFrame>)
    requires |f.rows| <= |draws|
    ensures r.Some? ==> |r.value.rows| == |f.rows|
  {
    FinishedOrders(PreparedOrders(f, parseAny, toDatetime, draws))
  }

  /** The fields the stages after the status merge leave alone. */
  predicate Keeps(o: Order, r: Order) {
    r.status == o.status && r.trackingNumber == o.trackingNumber &&
    r.orderDate == o.orderDate && r.orderDatetime == o.orderDatetime
  }

  /** Every row of `r` keeps the corresponding row of `f`. */
  predicate KeepsRows(f: OrderFrame, r: OrderFrame) {
    |r.rows| == |f.rows| && forall i :: 0 <= i < |f.rows| ==> Keeps(f.rows[i], r.rows[i])
  }

  lemma ClearKeeps(o: Order, c: Column)
    requires c != Status && c != TrackingNumber && c != OrderDate && c != OrderDatetime
    ensures Keeps(o, Clear(o, c))
  {
  }

  lemma DroppedKeeps(f: OrderFrame, c: Column)
    requires c != Status && c != TrackingNumber && c != OrderDate && c != OrderDatetime
    ensures KeepsRows(f, Dropped(f, c))
  {
    forall i | 0 <= i < |f.rows| ensures Keeps(f.rows[i], Dropped(f, c).rows[i]) {
      ClearKeeps(f.rows[i], c);
    }
  }

  /** Both date columns are converted and agree on which rows have a date. */
  predicate DatesAgree(o: Order) {
    IsConverted(o.orderDate) && IsConverted(o.orderDatetime) && (o.orderDate.Some? <==> o.orderDatetime.Some?)
  }

  /** Handling the missing values fills cells only in columns the table has, and not the status. */
  lemma WithFilledValuesWellFormed(f: OrderFrame, draws: seq<nat>)
    requires WellFormed(f) && |f.rows| <= |draws|
    ensures var r := WithFilledValues(f, draws);
      WellFormed(r) && r.columns == f.columns &&
      forall i :: 0 <= i < |f.rows| ==> r.rows[i].status == f.rows[i].status
  {
    var rows := CrossFilled(f);
    forall i | 0 <= i < |f.rows|
      ensures Conforms(rows[i], f.columns) && rows[i].status == f.rows[i].status
    {
      assert Conforms(f.rows[i], f.columns);
      if OrderDate in f.columns && OrderDatetime in f.columns {
        assert rows[i] == FillOrderDatetime(FillOrderDate(f.rows[i]));
      }
    }
    if TrackingNumber in f.columns && Status in f.columns {
      var r := WithTracking(rows, draws);
      forall i | 0 <= i < |f.rows| ensures Conforms(r[i], f.columns) {
        assert Conforms(rows[i], f.columns);
      }
    }
  }

  /** With both date columns, every row then has both dates or neither. */
  lemma WithFilledValuesDatesAgree(f: OrderFrame, draws: seq<nat>)
    requires DatesConverted(f) && |f.rows| <= |draws|
    requires OrderDate in f.columns && OrderDatetime in f.columns
    ensures var r := WithFilledValues(f, draws);
      forall i :: 0 <= i < |f.rows| ==> DatesAgree(r.rows[i])
  {
    var r := WithFilledValues(f, draws);
    forall i | 0 <= i < |f.rows| ensures DatesAgree(r.rows[i]) {
      CrossFillAgrees(f.rows[i]);
    }
  }

  /**
   * A row's tracking number changes only when its status reads SHIPPED or
   * DELIVERED and it had none, and then to a code; with both columns every
   * such row ends up with one.
   */
  lemma WithFilledValuesTracking(f: OrderFrame, draws: seq<nat>)
    requires |f.rows| <= |draws|
    requires forall k :: 0 <= k < |draws| ==> 100000 <= draws[k] < 999999
    ensures var r := WithFilledValues(f, draws);
      forall i :: 0 <= i < |f.rows| ==>
        (r.rows[i].trackingNumber != f.rows[i].trackingNumber ==>
           IsShippedText(f.rows[i].status) && IsTrackingCode(r.rows[i].trackingNumber.value)) &&
        (TrackingNumber in f.columns && Status in f.columns && IsShippedText(f.rows[i].status) ==>
           r.rows[i].trackingNumber.Some?)
  {
    var rows := CrossFilled(f);
    assert forall i :: 0 <= i < |f.rows| ==>
      rows[i].status == f.rows[i].status && rows[i].trackingNumber == f.rows[i].trackingNumber;
    WithTrackingOnlyShipped(rows, draws);
  }

  /** Ranks 4 and 5 belong to SHIPPED and DELIVERED. */
  lemma HighRank(s: Option<string>)
    requires Rank(s) >= 4
    ensures s == Some("SHIPPED") || s == Some("DELIVERED")
  {
  }

  /** The status stage changes only the two status columns. */
  lemma WithMergedStatusWellFormed(f: OrderFrame)
    requires WellFormed(f)
    ensures var r := WithMergedStatus(f);
      WellFormed(r) &&
      r.columns == (if Status in f.columns && OrderStatus in f.columns then f.columns - {OrderStatus} else f.columns) &&
      forall i :: 0 <= i < |f.rows| ==>
        r.rows[i] == f.rows[i].(status := r.rows[i].status, orderStatus := r.rows[i].orderStatus)
  {
    var r := WithMergedStatus(f);
    forall i | 0 <= i < |f.rows|
      ensures Conforms(r.rows[i], r.columns)
    {
      assert Conforms(f.rows[i], f.columns);
    }
  }

  /**
   * After the status stage every row of a table with `status` holds a status
   * token, and one whose status read SHIPPED or DELIVERED still does.
   */
  lemma WithMergedStatusTokens(f: OrderFrame)
    requires WellFormed(f)
    ensures var r := WithMergedStatus(f);
      forall i :: 0 <= i < |f.rows| ==>
        (Status in f.columns ==> r.rows[i].status.Some? && IsStatus(r.rows[i].status.value)) &&
        (IsShippedText(f.rows[i].status) ==> r.rows[i].status == Some("SHIPPED") || r.rows[i].status == Some("DELIVERED"))
  {
    var r := WithMergedStatus(f);
    forall i | 0 <= i < |f.rows|
      ensures Status in f.columns ==> r.rows[i].status.Some? && IsStatus(r.rows[i].status.value)
      ensures IsShippedText(f.rows[i].status) ==> r.rows[i].status == Some("SHIPPED") || r.rows[i].status == Some("DELIVERED")
    {
      var o := f.rows[i];
      assert Conforms(o, f.columns);
      if IsShippedText(o.status) {
        CanonicalStatusOfUpper(o.status.value);
        HighRank(r.rows[i].status);
      }
    }
  }

  lemma WithQuantityConflictSound(f: OrderFrame)
    requires WellFormed(f)
    ensures var r := WithQuantityConflict(f); WellFormed(r) && KeepsRows(f, r)
  {
    var r := WithQuantityConflict(f);
    forall i | 0 <= i < |f.rows| ensures Conforms(r.rows[i], r.columns) {
      assert Conforms(f.rows[i], f.columns);
    }
  }

  lemma WithMergedQuantitySound(f: OrderFrame)
    requires WellFormed(f)
    ensures var r := WithMergedQuantity(f); WellFormed(r) && KeepsRows(f, r)
  {
    if Quantity in f.columns && Qty in f.columns {
      var g := f.(rows := MapSeq(f.rows, MergeQuantityOfRow));
      forall i | 0 <= i < |f.rows| ensures Conforms(g.rows[i], g.columns) {
        assert Conforms(f.rows[i], f.columns);
      }
      DroppedKeeps(g, Qty);
    }
  }

  /**
   * With the five input columns and `order_total`, every row with all five
   * inputs satisfies the total equation and every row is flagged one way or
   * the other.
   */
  lemma WithRecalculatedTotalsSound(f: OrderFrame)
    requires WellFormed(f)
    ensures var r := WithRecalculatedTotals(f);
      r.Some? ==>
        WellFormed(r.value) && KeepsRows(f, r.value) &&
        (REQUIRED_FOR_TOTALS <= f.columns ==>
           forall i :: 0 <= i < |f.rows| ==>
             r.value.rows[i].totalMismatch.Some? &&
             (ExpectedTotal(f.rows[i]).Some? ==> TotalEquation(r.value.rows[i])))
  {
    if REQUIRED_FOR_TOTALS <= f.columns && OrderTotal in f.columns {
      var g := OrderFrame(f.columns + {TotalMismatch, TotalAmount}, MapSeq(f.rows, RecalculateRow));
      forall i | 0 <= i < |f.rows|
        ensures Conforms(g.rows[i], g.columns) && Keeps(f.rows[i], g.rows[i])
        ensures g.rows[i].totalMismatch.Some?
        ensures ExpectedTotal(f.rows[i]).Some? ==> TotalEquation(g.rows[i])
      {
        assert Conforms(f.rows[i], f.columns);
        if ExpectedTotal(f.rows[i]).Some? {
          RecalculateRowSound(f.rows[i]);
        }
      }
      if Price in g.columns {
        DroppedKeeps(g, Price);
        forall i | 0 <= i < |f.rows| ensures Dropped(g, Price).rows[i] == g.rows[i].(price := None) {
        }
      }
    }
  }

  lemma LowValueColumnsKeeps(f: OrderFrame)
    ensures KeepsRows(f, WithLowValueColumnsHandled(f))
  {
    if Notes in f.columns && NotesAreLowValue(f.rows) {
      DroppedKeeps(f, Notes);
    }
  }

  /**
   * After the final validation every row of a well-formed table is
   * non-negative where the source takes absolute values and has its
   * discount capped by its line value.
   */
  lemma WithValidatedNumbersSound(f: OrderFrame)
    requires WellFormed(f)
    ensures var r := WithValidatedNumbers(f);
      WellFormed(r) && KeepsRows(f, r) &&
      forall i :: 0 <= i < |r.rows| ==> IsNonNegative(r.rows[i]) && DiscountCapped(r.rows[i])
  {
    var r := WithValidatedNumbers(f);
    forall i | 0 <= i < |r.rows|
      ensures Conforms(r.rows[i], r.columns) && Keeps(f.rows[i], r.rows[i])
      ensures IsNonNegative(r.rows[i]) && DiscountCapped(r.rows[i])
    {
      assert Conforms(f.rows[i], f.columns);
      ValidateRowSound(f.rows[i], f.columns);
    }
  }

  /**
   * What the first four stages promise of a row `o` whose input row was
   * `input` in a table with `columns`: agreeing dates, a status token, and a
   * generated tracking number only on a shipped or delivered order.
   */
  predicate IsPreparedOrder(o: Order, input: Order, columns: set<Column>) {
    (OrderDate in columns && OrderDatetime in columns ==> DatesAgree(o)) &&
    (Status in columns ==> o.status.Some? && IsStatus(o.status.value)) &&
    (o.trackingNumber != input.trackingNumber ==>
       o.trackingNumber.Some? && IsTrackingCode(o.trackingNumber.value) &&
       (o.status == Some("SHIPPED") || o.status == Some("DELIVERED"))) &&
    (TrackingNumber in columns && Status in columns && IsShippedText(input.status) ==> o.trackingNumber.Some?)
  }

  /** What the cleaner promises of each output row. */
  predicate IsCleanOrder(o: Order, input: Order, columns: set<Column>) {
    IsNonNegative(o) && DiscountCapped(o) && IsPreparedOrder(o, input, columns)
  }

  /** The first four stages drop the duplicate ids and keep the columns the totals need. */
  lemma PreparedOrdersColumns(f: OrderFrame, parseAny: string -> Option<DateTime>,
                              toDatetime: string -> Option<DateTime>, draws: seq<nat>)
    requires |f.rows| <= |draws|
    ensures var r := PreparedOrders(f, parseAny, toDatetime, draws);
      CustId !in r.columns && OrdId !in r.columns &&
      (REQUIRED_FOR_TOTALS <= r.columns <==> REQUIRED_FOR_TOTALS <= f.columns) &&
      (OrderTotal in r.columns <==> OrderTotal in f.columns)
  {
    var f1 := WithoutDuplicateColumns(f);
    assert f1.columns == f.columns - {CustId, OrdId};
  }

  lemma PreparedOrdersSound(f: OrderFrame, parseAny: string -> Option<DateTime>,
                            toDatetime: string -> Option<DateTime>, draws: seq<nat>)
    requires WellFormed(f) && |f.rows| <= |draws|
    requires forall k :: 0 <= k < |draws| ==> 100000 <= draws[k] < 999999
    ensures var r := PreparedOrders(f, parseAny, toDatetime, draws);
      WellFormed(r) && forall i :: 0 <= i < |f.rows| ==> IsPreparedOrder(r.rows[i], f.rows[i], f.columns)
  {
    var f1 := WithoutDuplicateColumns(f);
    var f2 := WithParsedDates(f1, parseAny, toDatetime);
    var f3 := WithFilledValues(f2, draws);
    var f4 := WithMergedStatus(f3);
    WithoutDuplicateColumnsSound(f);
    WithParsedDatesSound(f1, parseAny, toDatetime);
    WithFilledValuesWellFormed(f2, draws);
    if OrderDate in f.columns && OrderDatetime in f.columns {
      WithFilledValuesDatesAgree(f2, draws);
    }
    WithFilledValuesTracking(f2, draws);
    WithMergedStatusWellFormed(f3);
    WithMergedStatusTokens(f3);
    forall i | 0 <= i < |f.rows| ensures IsPreparedOrder(f4.rows[i], f.rows[i], f.columns) {
      assert Keeps(f.rows[i], f1.rows[i]);
    }
  }

  lemma FinishedOrdersSound(f: OrderFrame)
    requires WellFormed(f)
    ensures var r := FinishedOrders(f);
      r.Some? ==>
        WellFormed(r.value) && r.value.columns <= f.columns + {QuantityConflict, TotalMismatch, TotalAmount} &&
        forall i :: 0 <= i < |f.rows| ==>
          Keeps(f.rows[i], r.value.rows[i]) && IsNonNegative(r.value.rows[i]) && DiscountCapped(r.value.rows[i])
  {
    var f5 := WithQuantityConflict(f);
    var f6 := WithMergedQuantity(f5);
    if WithRecalculatedTotals(f6).Some? {
      var f7 := WithRecalculatedTotals(f6).value;
      var f8 := WithLowValueColumnsHandled(f7);
      var f9 := WithValidatedNumbers(f8);
      WithQuantityConflictSound(f);
      WithMergedQuantitySound(f5);
      WithRecalculatedTotalsSound(f6);
      LowValueColumnsSound(f7);
      LowValueColumnsKeeps(f7);
      WithValidatedNumbersSound(f8);
      forall i | 0 <= i < |f.rows| ensures Keeps(f.rows[i], f9.rows[i]) {
        assert Keeps(f.rows[i], f5.rows[i]) && Keeps(f5.rows[i], f6.rows[i]) && Keeps(f6.rows[i], f7.rows[i]);
        assert Keeps(f7.rows[i], f8.rows[i]) && Keeps(f8.rows[i], f9.rows[i]);
      }
    }
  }

  /** The last five stages fail exactly when the five total inputs are there and `order_total` is not. */
  lemma FinishedOrdersFails(f: OrderFrame)
    ensures FinishedOrders(f).None? <==> REQUIRED_FOR_TOTALS <= f.columns && OrderTotal !in f.columns
  {
    var f6 := WithMergedQuantity(WithQuantityConflict(f));
    assert REQUIRED_FOR_TOTALS <= f6.columns <==> REQUIRED_FOR_TOTALS <= f.columns;
  }

  /**
   * The cleaned table keeps to its columns, has lost the duplicate id
   * columns, and every row is clean.
   */
  lemma CleanOrdersSound(f: OrderFrame, parseAny: string -> Option<DateTime>,
                         toDatetime: string -> Option<DateTime>, draws: seq<nat>)
    requires WellFormed(f) && |f.rows| <= |draws|
    requires forall k :: 0 <= k < |draws| ==> 100000 <= draws[k] < 999999
    ensures var r := CleanOrders(f, parseAny, toDatetime, draws);
      r.Some? ==>
        WellFormed(r.value) && CustId !in r.value.columns && OrdId !in r.value.columns &&
        forall i :: 0 <= i < |f.rows| ==> IsCleanOrder(r.value.rows[i], f.rows[i], f.columns)
  {
    var g := PreparedOrders(f, parseAny, toDatetime, draws);
    PreparedOrdersColumns(f, parseAny, toDatetime, draws);
    PreparedOrdersSound(f, parseAny, toDatetime, draws);
    FinishedOrdersSound(g);
  }

  /** The cleaner fails exactly when the five total inputs are there and `order_total` is not. */
  lemma CleanOrdersFails(f: OrderFrame, parseAny: string -> Option<DateTime>,
                         toDatetime: string -> Option<DateTime>, draws: seq<nat>)
    requires |f.rows| <= |draws|
    ensures CleanOrders(f, parseAny, toDatetime, draws).None? <==>
      REQUIRED_FOR_TOTALS <= f.columns && OrderTotal !in f.columns
  {
    PreparedOrdersColumns(f, parseAny, toDatetime, draws);
    FinishedOrdersFails(PreparedOrders(f, parseAny, toDatetime, draws));
  }

  // ---------------------------------------------------------------- the data frame

  /**
   * A data frame of orders, changed in place stage by stage: its column set
   * and its array of rows. Every stage method is specified by the function
   * on frames above that it implements.
   */
  class OrderTable {
    var columns: set<Column>
    const rows: array<Order>

    /** The frame as a value. */
    function Frame(): OrderFrame
      reads this, rows
    {
      OrderFrame(columns, rows[..])
    }

    /** `df.copy()`. */
    constructor (f: OrderFrame)
      ensures Frame() == f && fresh(rows)
    {
      columns := f.columns;
      rows := new Order[|f.rows|](i requires 0 <= i < |f.rows| => f.rows[i]);
    }

    /** `df.drop(c, axis=1)`. */
    method DropColumn(c: Column)
      modifies this, rows
      ensures Frame() == Dropped(old(Frame()), c)
    {
      MapRows(rows, o => Clear(o, c));
      columns := columns - {c};
    }

    method RemoveDuplicateColumns()
      modifies this, rows
      ensures Frame() == WithoutDuplicateColumns(old(Frame()))
    {
      if CustId in columns {
        DropColumn(CustId);
      }
      if OrdId in columns {
        DropColumn(OrdId);
      }
    }

    method StandardizeDateFormats(parseAny: string -> Option<DateTime>, toDatetime: string -> Option<DateTime>)
      modifies rows
      ensures Frame() == WithParsedDates(old(Frame()), parseAny, toDatetime)
    {
      if OrderDate in columns {
        MapRows(rows, o => ParseDateOfRow(o, parseAny));
      }
      if OrderDatetime in columns {
        MapRows(rows, o => CoerceDatetimeOfRow(o, toDatetime));
      }
    }

    /**
     * Lines 99-100: the rows needing a tracking number take, in order, the
     * codes of the successive draws of the random source.
     */
    method GenerateTrackingNumbers(draws: seq<nat>)
      requires rows.Length <= |draws|
      modifies rows
      ensures rows[..] == WithTracking(old(rows[..]), draws)
    {
      ghost var before := rows[..];
      var k := 0;
      var i := 0;
      while i < rows.Length
        invariant 0 <= i <= rows.Length
        invariant k == NeedCount(before[..i])
        invariant forall j :: 0 <= j < i ==> rows[j] == WithTracking(before, draws)[j]
        invariant forall j :: i <= j < rows.Length ==> rows[j] == before[j]
      {
        assert before[..i + 1] == before[..i] + [before[i]];
        NeedCountOfSnoc(before[..i], before[i]);
        if NeedsTracking(rows[i]) {
          rows[i] := rows[i].(trackingNumber := Some(TrackingCode(draws[k])));
          k := k + 1;
        }
        i := i + 1;
      }
    }

    method HandleMissingValues(draws: seq<nat>)
      requires rows.Length <= |draws|
      modifies rows
      ensures Frame() == WithFilledValues(old(Frame()), draws)
    {
      if OrderDate in columns && OrderDatetime in columns {
        MapRows(rows, FillOrderDate);
        MapRows(rows, FillOrderDatetime);
      }
      if TrackingNumber in columns && Status in columns {
        GenerateTrackingNumbers(draws);
      }
    }

    method StandardizeStatusColumns()
      modifies this, rows
      ensures Frame() == WithMergedStatus(old(Frame()))
    {
      if Status in columns {
        MapRows(rows, StandardizeStatusOfRow);
      }
      if OrderStatus in columns {
        MapRows(rows, StandardizeOrderStatusOfRow);
      }
      if Status in columns && OrderStatus in columns {
        MapRows(rows, MergeStatusOfRow);
        DropColumn(OrderStatus);
      }
    }

    method FlagQuantityConflict()
      modifies this, rows
      ensures Frame() == WithQuantityConflict(old(Frame()))
    {
      if Quantity in columns && Qty in columns {
        MapRows(rows, FlagQuantityOfRow);
        columns := columns + {QuantityConflict};
      }
    }

    method FixQuantityColumns()
      modifies this, rows
      ensures Frame() == WithMergedQuantity(old(Frame()))
    {
      if Quantity in columns && Qty in columns {
        MapRows(rows, MergeQuantityOfRow);
        DropColumn(Qty);
      }
    }

    /** `ok` is false where line 149 raises `KeyError`; the frame is then unchanged. */
    method RecalculateFinancialColumns() returns (ok: bool)
      modifies this, rows
      ensures ok <==> WithRecalculatedTotals(old(Frame())).Some?
      ensures ok ==> Frame() == WithRecalculatedTotals(old(Frame())).value
      ensures !ok ==> Frame() == old(Frame())
    {
      if REQUIRED_FOR_TOTALS <= columns {
        if OrderTotal !in columns {
          return false;
        }
        MapRows(rows, RecalculateRow);
        columns := columns + {TotalMismatch, TotalAmount};
        if Price in columns {
          DropColumn(Price);
        }
      }
      return true;
    }

    /** Line 164-165: the missing notes are counted and the distinct notes collected in one pass. */
    method HandleLowValueColumns()
      modifies this, rows
      ensures Frame() == WithLowValueColumnsHandled(old(Frame()))
    {
      if Notes in columns {
        var missing := 0;
        var seen: set<string> := {};
        var i := 0;
        while i < rows.Length
          invariant 0 <= i <= rows.Length
          invariant Frame() == old(Frame())
          invariant missing == MissingNotes(rows[..i])
          invariant seen == NoteValues(rows[..i])
        {
          assert rows[..i + 1] == rows[..i] + [rows[i]];
          MissingNotesOfSnoc(rows[..i], rows[i]);
          NoteValuesOfSnoc(rows[..i], rows[i]);
          if rows[i].notes.None? {
            missing := missing + 1;
          } else {
            seen := seen + {rows[i].notes.value};
          }
          i := i + 1;
        }
        assert rows[..i] == rows[..];
        if 100 * missing > 75 * rows.Length && |seen| <= 2 {
          DropColumn(Notes);
        } else {
          MapRows(rows, FillNoteOfRow);
        }
      }
    }

    method FinalDataValidation()
      modifies rows
      ensures Frame() == WithValidatedNumbers(old(Frame()))
    {
      var cols := columns;
      MapRows(rows, o => ValidateRow(o, cols));
    }
  }

  /**
   * `clean_orders_dataset`: a copy of `df` goes through the nine stages;
   * `df` itself is unchanged. `None` where the recalculation raises.
   */
  method CleanOrdersDataset(df: OrderTable, parseAny: string -> Option<DateTime>,
                            toDatetime: string -> Option<DateTime>, draws: seq<nat>)
    returns (cleaned: Option<OrderTable>)
    requires df.rows.Length <= |draws|
    ensures cleaned.Some? <==> CleanOrders(df.Frame(), parseAny, toDatetime, draws).Some?
    ensures cleaned.Some? ==>
      fresh(cleaned.value) && fresh(cleaned.value.rows) &&
      cleaned.value.Frame() == CleanOrders(df.Frame(), parseAny, toDatetime, draws).value
  {
    var t := new OrderTable(df.Frame());
    t.RemoveDuplicateColumns();
    t.StandardizeDateFormats(parseAny, toDatetime);
    t.HandleMissingValues(draws);
    t.StandardizeStatusColumns();
    t.FlagQuantityConflict();
    t.FixQuantityColumns();
    var ok := t.RecalculateFinancialColumns();
    if !ok {
      return None;
    }
    t.HandleLowValueColumns();
    t.FinalDataValidation();
    return Some(t);
  }
}

=== FILE: products.dfy ===
/**
 * The product cleaner: one pass of column steps over a table of products.
 * Every step rewrites whole columns, but what it writes in a row depends on
 * that row alone, so each step is a function on one row and the cleaned
 * table is the table of cleaned rows.
 *
 * The text columns hold text or are missing. The price columns, `is_active`,
 * the two date columns and `rating` are converted in place: they hold raw
 * text (`Text`) until their step converts them (`Value`). The stock columns
 * hold numbers as the input reader produced them. Columns no step touches
 * (`product_id`, `item_id` and the like) pass through unchanged and are not
 * modelled; the three derived columns are missing until they are computed.
 */
module Products {
  import opened Values
  import opened Tables
  import opened Text
  import opened Dates

  datatype Product = Product(
    description: Option<string>, brand: Option<string>, manufacturer: Option<string>,
    color: Option<string>, size: Option<string>, supplierId: Option<string>,
    createdDate: Option<Cell<DateTime>>, lastUpdated: Option<Cell<DateTime>>, dimensions: Option<string>,
    price: Option<Cell<real>>, listPrice: Option<Cell<real>>, cost: Option<Cell<real>>, weight: Option<Cell<real>>,
    category: Option<string>, productCategory: Option<string>, finalCategory: Option<string>,
    isActive: Option<Cell<bool>>, isActiveFlagIssue: Option<bool>, categoryMismatch: Option<bool>,
    stockQuantity: Option<real>, stockLevel: Option<real>, reorderLevel: Option<real>,
    rating: Option<Cell<real>>)

  // ---------------------------------------------------------------- 1. empty strings

  /** `replace('', np.nan)` on one cell of a text column. */
  function BlankToMissing(v: Option<string>): (r: Option<string>)
    ensures r.None? <==> v.None? || v == Some("")
    ensures r.Some? ==> r == v
  {
    if v == Some("") then None else v
  }

  /** `replace('', np.nan)` on one cell of a column that is converted later. */
  function BlankCellToMissing<T>(v: Option<Cell<T>>): (r: Option<Cell<T>>)
    ensures r.None? <==> v.None? || v == Some(Text(""))
    ensures r.Some? ==> r == v
  {
    if v == Some(Text("")) then None else v
  }

  /** The columns of line 312. */
  datatype TextColumn =
    | Description | Brand | Manufacturer | Color | Size | SupplierId | CreatedDate | LastUpdated | Dimensions

  const STRING_COLUMNS: seq<TextColumn> :=
    [Description, Brand, Manufacturer, Color, Size, SupplierId, CreatedDate, LastUpdated, Dimensions]

  /** The row with the empty strings of the columns in `cs` made missing. */
  function BlanksIn(p: Product, cs: set<TextColumn>): (r: Product)
    ensures r == p.(description := r.description, brand := r.brand, manufacturer := r.manufacturer,
                    color := r.color, size := r.size, supplierId := r.supplierId,
                    createdDate := r.createdDate, lastUpdated := r.lastUpdated, dimensions := r.dimensions)
  {
    p.(description := if Description in cs then BlankToMissing(p.description) else p.description,
       brand := if Brand in cs then BlankToMissing(p.brand) else p.brand,
       manufacturer := if Manufacturer in cs then BlankToMissing(p.manufacturer) else p.manufacturer,
       color := if Color in cs then BlankToMissing(p.color) else p.color,
       size := if Size in cs then BlankToMissing(p.size) else p.size,
       supplierId := if SupplierId in cs then BlankToMissing(p.supplierId) else p.supplierId,
       createdDate := if CreatedDate in cs then BlankCellToMissing(p.createdDate) else p.createdDate,
       lastUpdated := if LastUpdated in cs then BlankCellToMissing(p.lastUpdated) else p.lastUpdated,
       dimensions := if Dimensions in cs then BlankToMissing(p.dimensions) else p.dimensions)
  }

  /** No column of line 312 holds the empty string. */
  predicate NoBlanks(p: Product) {
    p.description != Some("") && p.brand != Some("") && p.manufacturer != Some("") &&
    p.color != Some("") && p.size != Some("") && p.supplierId != Some("") &&
    p.createdDate != Some(Text("")) && p.lastUpdated != Some(Text("")) && p.dimensions != Some("")
  }

  /** Lines 310-316: every column of line 312 is cleared of empty strings. */
  function WithoutBlanks(p: Product): (r: Product)
    ensures NoBlanks(r)
    ensures r == p.(description := r.description, brand := r.brand, manufacturer := r.manufacturer,
                    color := r.color, size := r.size, supplierId := r.supplierId,
                    createdDate := r.createdDate, lastUpdated := r.lastUpdated, dimensions := r.dimensions)
    ensures r.brand.Some? ==> r.brand == p.brand
    ensures r.color.Some? ==> r.color == p.color
    ensures r.size.Some? ==> r.size == p.size
  {
    BlanksIn(p, set c | c in STRING_COLUMNS)
  }

  /** Clearing one more column extends the set of cleared columns (clearing twice changes nothing). */
  lemma BlanksInStep(p: Product, cs: set<TextColumn>, c: TextColumn)
    ensures BlanksIn(BlanksIn(p, cs), {c}) == BlanksIn(p, cs + {c})
  {
  }

  /** Lines 314-316: the loop over the text columns, one column at a time. */
  method ReplaceBlanks(rows: array<Product>)
    modifies rows
    ensures rows[..] == MapSeq(old(rows[..]), WithoutBlanks)
  {
    ghost var before := rows[..];
    for k := 0 to |STRING_COLUMNS|
      invariant forall i :: 0 <= i < rows.Length ==> rows[i] == BlanksIn(before[i], set j | 0 <= j < k :: STRING_COLUMNS[j])
    {
      var c := STRING_COLUMNS[k];
      ghost var done := set j | 0 <= j < k :: STRING_COLUMNS[j];
      MapRows(rows, p => BlanksIn(p, {c}));
      assert (set j | 0 <= j < k + 1 :: STRING_COLUMNS[j]) == done + {c};
      forall i | 0 <= i < rows.Length
        ensures rows[i] == BlanksIn(before[i], done + {c})
      {
        BlanksInStep(before[i], done, c);
      }
    }
    assert (set j | 0 <= j < |STRING_COLUMNS| :: STRING_COLUMNS[j]) == set c | c in STRING_COLUMNS;
  }

  // ---------------------------------------------------------------- 2. numeric prices

  /**
   * `pd.to_numeric(errors='coerce')` on one cell: `toNumeric` is the
   * library's reading of a text, a number already read is kept.
   */
  function ToNumeric(v: Option<Cell<real>>, toNumeric: string -> Option<real>): (r: Option<Cell<real>>)
    ensures IsConverted(r)
    ensures v.None? ==> r.None?
    ensures IsConverted(v) ==> r == v
    ensures v.Some? && v.value.Text? ==>
      (r.Some? <==> toNumeric(v.value.text).Some?) &&
      (r.Some? ==> r.value == Value(toNumeric(v.value.text).value))
  {
    match v
    case None => None
    case Some(Value(_)) => v
    case Some(Text(s)) =>
      match toNumeric(s)
      case Some(x) => Some(Value(x))
      case None => None
  }

  /** The columns of line 320; the range checks of line 432 use the first three. */
  datatype PriceColumn = Price | ListPrice | Cost | Weight

  const PRICE_COLUMNS: seq<PriceColumn> := [Price, ListPrice, Cost, Weight]

  /** The row with the columns in `cs` read as numbers. */
  function NumericIn(p: Product, cs: set<PriceColumn>, toNumeric: string -> Option<real>): (r: Product)
    ensures r == p.(price := r.price, listPrice := r.listPrice, cost := r.cost, weight := r.weight)
  {
    p.(price := if Price in cs then ToNumeric(p.price, toNumeric) else p.price,
       listPrice := if ListPrice in cs then ToNumeric(p.listPrice, toNumeric) else p.listPrice,
       cost := if Cost in cs then ToNumeric(p.cost, toNumeric) else p.cost,
       weight := if Weight in cs then ToNumeric(p.weight, toNumeric) else p.weight)
  }

  /** The four price columns hold numbers or are missing. */
  predicate PricesConverted(p: Product) {
    IsConverted(p.price) && IsConverted(p.listPrice) && IsConverted(p.cost) && IsConverted(p.weight)
  }

  /** Lines 318-323: every price column is read as numbers. */
  function WithNumericPrices(p: Product, toNumeric: string -> Option<real>): (r: Product)
    ensures PricesConverted(r)
    ensures r == p.(price := r.price, listPrice := r.listPrice, cost := r.cost, weight := r.weight)
  {
    NumericIn(p, (set c | c in PRICE_COLUMNS), toNumeric)
  }

  lemma NumericInStep(p: Product, cs: set<PriceColumn>, c: PriceColumn, toNumeric: string -> Option<real>)
    ensures NumericIn(NumericIn(p, cs, toNumeric), {c}, toNumeric) == NumericIn(p, cs + {c}, toNumeric)
  {
  }

  /** Lines 321-323: the loop over the price columns. */
  method ConvertPrices(rows: array<Product>, toNumeric: string -> Option<real>)
    modifies rows
    ensures rows[..] == MapSeq(old(rows[..]), p => WithNumericPrices(p, toNumeric))
  {
    ghost var before := rows[..];
    for k := 0 to |PRICE_COLUMNS|
      invariant forall i :: 0 <= i < rows.Length ==>
        rows[i] == NumericIn(before[i], set j | 0 <= j < k :: PRICE_COLUMNS[j], toNumeric)
    {
      var c := PRICE_COLUMNS[k];
      ghost var done := set j | 0 <= j < k :: PRICE_COLUMNS[j];
      MapRows(rows, p => NumericIn(p, {c}, toNumeric));
      assert (set j | 0 <= j < k + 1 :: PRICE_COLUMNS[j]) == done + {c};
      forall i | 0 <= i < rows.Length
        ensures rows[i] == NumericIn(before[i], done + {c}, toNumeric)
      {
        NumericInStep(before[i], done, c, toNumeric);
      }
    }
    assert (set j | 0 <= j < |PRICE_COLUMNS| :: PRICE_COLUMNS[j]) == set c | c in PRICE_COLUMNS;
  }

  // ---------------------------------------------------------------- lookup tables

  /** `mapping.get(key, fallback(key))`. */
  function LookupOr(table: map<string, string>, fallback: string -> string, key: string): string {
    if key in table then table[key] else fallback(key)
  }

  /**
   * A key that is its own lookup key (`s.strip().lower()` of something)
   * keeps that key through a fallback of title or upper case.
   */
  lemma FallbackKeepsKey(s: string)
    ensures var k := Lower(Strip(s));
      Lower(Strip(k)) == k && Lower(Strip(Title(k))) == k && Lower(Strip(Upper(k))) == k
  {
    KeyOfRecasedKey(s);
  }

  // ---------------------------------------------------------------- 3. category

  /** Lines 327-334; the upper-case keys are never looked up, as the key is lower-cased first. */
  const CATEGORY_NAMES: map<string, string> := map[
    "clothing" := "Clothing", "CLOTHING" := "Clothing",
    "electronics" := "Electronics", "ELECTRONICS" := "Electronics",
    "sports" := "Sports", "SPORTS" := "Sports",
    "toys" := "Toys", "TOYS" := "Toys",
    "books" := "Books", "BOOKS" := "Books",
    "home & garden" := "Home & Garden", "HOME & GARDEN" := "Home & Garden"]

  /** `standardize_category`: the stripped, lower-cased text is looked up, else title-cased; missing stays missing. */
  function StandardizeCategory(v: Option<string>): (r: Option<string>)
    ensures r.Some? <==> v.Some?
  {
    match v
    case None => None
    case Some(s) => Some(LookupOr(CATEGORY_NAMES, Title, Lower(Strip(s))))
  }

  /** The upper-case keys of the category table are not lower-case. */
  lemma CategoryKeyLower(k: string)
    requires k in CATEGORY_NAMES
    ensures Lower(k) == k ==> k in {"clothing", "electronics", "sports", "toys", "books", "home & garden"}
  {
    if k in {"CLOTHING", "ELECTRONICS", "SPORTS", "TOYS", "BOOKS", "HOME & GARDEN"} {
      assert Lower(k)[0] != k[0];
    }
  }

  lemma TitlesOfShortCategories()
    ensures Title("clothing") == "Clothing" && Title("sports") == "Sports"
    ensures Title("toys") == "Toys" && Title("books") == "Books"
  {
  }

  lemma TitleOfElectronics()
    ensures Title("electronics") == "Electronics"
  {
  }

  lemma TitleOfHomeAndGarden()
    ensures Title("home & garden") == "Home & Garden"
  {
  }

  /** The lower-case keys of the category table map to their title case. */
  lemma CategoryNamesTitled(k: string)
    requires k in {"clothing", "electronics", "sports", "toys", "books", "home & garden"}
    ensures k in CATEGORY_NAMES && CATEGORY_NAMES[k] == Title(k)
  {
    TitlesOfShortCategories();
    TitleOfElectronics();
    TitleOfHomeAndGarden();
  }

  /**
   * The category table only repeats title case: a category standardises to
   * the title case of its stripped, lower-cased text.
   */
  lemma StandardizeCategoryIsTitle(v: Option<string>)
    requires v.Some?
    ensures StandardizeCategory(v) == Some(Title(Lower(Strip(v.value))))
  {
    var k := Lower(Strip(v.value));
    LowerIdempotent(Strip(v.value));
    if k in CATEGORY_NAMES {
      CategoryKeyLower(k);
      CategoryNamesTitled(k);
    }
  }

  lemma StandardizeCategoryIdempotent(v: Option<string>)
    ensures StandardizeCategory(StandardizeCategory(v)) == StandardizeCategory(v)
  {
    if v.Some? {
      StandardizeCategoryIsTitle(v);
      var k := Lower(Strip(v.value));
      FallbackKeepsKey(v.value);
      StandardizeCategoryIsTitle(Some(Title(k)));
      TitleOfLower(k);
      TitleIdempotent(k);
    }
  }

  /** Two categories that differ only in case and surrounding whitespace standardise alike. */
  lemma StandardizeCategoryOfRecased(s: string, t: string)
    requires Lower(Strip(s)) == Lower(Strip(t))
    ensures StandardizeCategory(Some(s)) == StandardizeCategory(Some(t))
  {
  }

  function StandardizeCategoryOfRow(p: Product): (r: Product)
    ensures r == p.(category := r.category)
  {
    p.(category := StandardizeCategory(p.category))
  }

  function StandardizeProductCategoryOfRow(p: Product): (r: Product)
    ensures r == p.(productCategory := r.productCategory)
  {
    p.(productCategory := StandardizeCategory(p.productCategory))
  }

  /** Lines 344-347: `category` when present, else `product_category`. */
  function FinalCategory(category: Option<string>, productCategory: Option<string>): (r: Option<string>)
    ensures r.Some? <==> category.Some? || productCategory.Some?
    ensures category.Some? ==> r == category
    ensures category.None? ==> r == productCategory
  {
    if category.Some? then category else productCategory
  }

  function FinalCategoryOfRow(p: Product): (r: Product)
    ensures r == p.(finalCategory := r.finalCategory)
  {
    p.(finalCategory := FinalCategory(p.category, p.productCategory))
  }

  // ---------------------------------------------------------------- 4. brand and manufacturer

  /** `re.sub(r'[_-]', ' ', s)`. */
  function Dehyphen(s: string): (r: string)
    ensures |r| == |s|
    ensures forall i :: 0 <= i < |s| ==> r[i] == if s[i] == '_' || s[i] == '-' then ' ' else s[i]
  {
    seq(|s|, i requires 0 <= i < |s| => if s[i] == '_' || s[i] == '-' then ' ' else s[i])
  }

  /** Each word capitalised. */
  function CapitalizeAll(ws: seq<string>): (r: seq<string>)
    ensures |r| == |ws| && forall j :: 0 <= j < |ws| ==> r[j] == Capitalize(ws[j])
  {
    seq(|ws|, j requires 0 <= j < |ws| => Capitalize(ws[j]))
  }

  /**
   * `standardize_brand_name`: missing or empty gives missing; otherwise the
   * stripped text with '_' and '-' read as spaces, split into words, each
   * word capitalised, joined by single spaces.
   */
  function StandardizeBrand(v: Option<string>): (r: Option<string>)
    ensures r.None? <==> v.None? || v == Some("")
  {
    if v.None? || v == Some("") then None
    else Some(JoinSpace(CapitalizeAll(Words(Dehyphen(Strip(v.value))))))
  }

  /** Not a separator that the brand standardiser turns into a space. */
  predicate NotHyphen(c: char) {
    c != '_' && c != '-'
  }

  lemma CapitalizeIdempotent(w: string)
    ensures Capitalize(Capitalize(w)) == Capitalize(w)
  {
    forall i | 0 <= i < |w| ensures Capitalize(Capitalize(w))[i] == Capitalize(w)[i] {
      CaseOfCase(w[i]);
    }
  }

  /** The words of a standardised brand: capitalised words without '_' or '-'. */
  lemma BrandWords(s: string)
    ensures var ws := CapitalizeAll(Words(Dehyphen(Strip(s))));
      (forall j :: 0 <= j < |ws| ==> IsWord(ws[j])) &&
      (forall j :: 0 <= j < |ws| ==> forall i :: 0 <= i < |ws[j]| ==> NotHyphen(ws[j][i])) &&
      CapitalizeAll(ws) == ws
  {
    var t := Dehyphen(Strip(s));
    var words := Words(t);
    var ws := CapitalizeAll(words);
    WordsChars(t, NotHyphen);
    forall j | 0 <= j < |ws|
      ensures IsWord(ws[j])
      ensures forall i :: 0 <= i < |ws[j]| ==> NotHyphen(ws[j][i])
      ensures Capitalize(ws[j]) == ws[j]
    {
      assert IsWord(words[j]);
      CapitalizeIdempotent(words[j]);
      forall i | 0 <= i < |ws[j]| ensures NotHyphen(ws[j][i]) {
        assert NotHyphen(words[j][i]);
      }
    }
  }

  /**
   * A standardised brand standardises to itself, unless it came out empty
   * (a brand of only separators and whitespace).
   */
  lemma StandardizeBrandIdempotent(v: Option<string>)
    requires StandardizeBrand(v) != Some("")
    ensures StandardizeBrand(StandardizeBrand(v)) == StandardizeBrand(v)
  {
    if v.Some? && v != Some("") {
      var ws := CapitalizeAll(Words(Dehyphen(Strip(v.value))));
      var r := JoinSpace(ws);
      BrandWords(v.value);
      JoinOfWordsShape(ws);
      StripUnchanged(r);
      JoinChars(ws, NotHyphen);
      assert Dehyphen(r) == r;
      WordsOfJoin(ws);
    }
  }

  /** The exception: "_" standardises to "", which standardises to missing. */
  lemma StandardizeBrandNotIdempotent()
    ensures StandardizeBrand(Some("_")) == Some("")
    ensures StandardizeBrand(StandardizeBrand(Some("_"))) == None
  {
    StripUnchanged("_");
    assert Dehyphen("_") == " ";
    assert Words(" ") == [];
  }

  function StandardizeBrandOfRow(p: Product): (r: Product)
    ensures r == p.(brand := r.brand)
  {
    p.(brand := StandardizeBrand(p.brand))
  }

  function StandardizeManufacturerOfRow(p: Product): (r: Product)
    ensures r == p.(manufacturer := r.manufacturer)
  {
    p.(manufacturer := StandardizeBrand(p.manufacturer))
  }

  /** Lines 351-358: brand and manufacturer. */
  function WithBrands(p: Product): (r: Product)
    ensures r == p.(brand := r.brand, manufacturer := r.manufacturer)
    ensures r.brand == StandardizeBrand(p.brand) && r.manufacturer == StandardizeBrand(p.manufacturer)
  {
    StandardizeManufacturerOfRow(StandardizeBrandOfRow(p))
  }

  /** Lines 340-341 and 344-347: both category columns, then the final category. */
  function WithCategories(p: Product): (r: Product)
    ensures r == p.(category := r.category, productCategory := r.productCategory, finalCategory := r.finalCategory)
    ensures r.category == StandardizeCategory(p.category)
    ensures r.productCategory == StandardizeCategory(p.productCategory)
    ensures r.finalCategory == FinalCategory(r.category, r.productCategory)
  {
    FinalCategoryOfRow(StandardizeProductCategoryOfRow(StandardizeCategoryOfRow(p)))
  }

  // ---------------------------------------------------------------- 5. is_active

  const TRUE_WORDS: set<string> := {"true", "yes", "1", "active"}
  const FALSE_WORDS: set<string> := {"false", "no", "0", "inactive"}

  /**
   * `standardize_boolean`: a text is lower-cased and stripped and read as
   * one of the true or false words, anything else becomes missing.
   */
  function StandardizeBoolean(v: Option<Cell<bool>>): (r: Option<Cell<bool>>)
    ensures IsConverted(r)
    ensures IsConverted(v) ==> r == v
  {
    match v
    case None => None
    case Some(Value(_)) => v
    case Some(Text(s)) =>
      var t := Strip(Lower(s));
      if t in TRUE_WORDS then Some(Value(true))
      else if t in FALSE_WORDS then Some(Value(false))
      else None
  }

  /** No word reads as both true and false. */
  lemma BooleanWordsDisjoint(w: string)
    ensures !(w in TRUE_WORDS && w in FALSE_WORDS)
  {
  }

  /** A text reads as true (false) exactly when its lookup key is a true (false) word. */
  lemma StandardizeBooleanOfText(s: string)
    ensures StandardizeBoolean(Some(Text(s))) == Some(Value(true)) <==> Lower(Strip(s)) in TRUE_WORDS
    ensures StandardizeBoolean(Some(Text(s))) == Some(Value(false)) <==> Lower(Strip(s)) in FALSE_WORDS
    ensures StandardizeBoolean(Some(Text(s))).None? <==> Lower(Strip(s)) !in TRUE_WORDS + FALSE_WORDS
  {
    StripOfLower(s);
    BooleanWordsDisjoint(Lower(Strip(s)));
  }

  lemma LowerOfRendered()
    ensures Lower("True") == "true" && Lower("False") == "false"
  {
  }

  /** `str(True)` and `str(False)` read back as the flag they render. */
  lemma StandardizeBooleanOfRendered(b: bool)
    ensures StandardizeBoolean(Some(Text(if b then "True" else "False"))) == Some(Value(b))
  {
    var s := if b then "True" else "False";
    StandardizeBooleanOfText(s);
    StripUnchanged(s);
    LowerOfRendered();
  }

  /**
   * Lines 372-375: an active product with a missing price or stock quantity.
   * The price here is the one read at step 2, before the range check of step 11.
   */
  function ActiveFlagIssue(isActive: Option<Cell<bool>>, price: Option<Cell<real>>, stockQuantity: Option<real>): (r: bool)
    ensures r ==> isActive == Some(Value(true))
    ensures isActive == Some(Value(true)) && price.None? ==> r
    ensures r && price.Some? ==> stockQuantity.None?
    ensures isActive == Some(Value(true)) && stockQuantity.None? ==> r
  {
    isActive == Some(Value(true)) && (price.None? || stockQuantity.None?)
  }

  /** Lines 369-375: `is_active` standardised, then the issue flag computed from it. */
  function WithActiveFlag(p: Product): (r: Product)
    ensures r == p.(isActive := r.isActive, isActiveFlagIssue := r.isActiveFlagIssue)
    ensures r.isActive == StandardizeBoolean(p.isActive)
    ensures r.isActiveFlagIssue == Some(ActiveFlagIssue(r.isActive, p.price, p.stockQuantity))
  {
    var active := StandardizeBoolean(p.isActive);
    p.(isActive := active, isActiveFlagIssue := Some(ActiveFlagIssue(active, p.price, p.stockQuantity)))
  }

  // ---------------------------------------------------------------- 6. color

  /** Lines 379-384. */
  const COLOR_NAMES: map<string, string> := map[
    "black" := "Black", "white" := "White", "red" := "Red",
    "blue" := "Blue", "green" := "Green", "yellow" := "Yellow",
    "purple" := "Purple", "orange" := "Orange", "pink" := "Pink",
    "brown" := "Brown", "gray" := "Gray", "grey" := "Gray"]

  /** Lines 385-387: the stripped, lower-cased color looked up, else title-cased. */
  function StandardizeColor(v: Option<string>): (r: Option<string>)
    ensures r.Some? <==> v.Some?
  {
    match v
    case None => None
    case Some(s) => Some(LookupOr(COLOR_NAMES, Title, Lower(Strip(s))))
  }

  lemma TitlesOfColorsA()
    ensures Title("black") == "Black" && Title("white") == "White" && Title("red") == "Red"
    ensures Title("blue") == "Blue"
  {
  }

  lemma TitlesOfColorsB()
    ensures Title("green") == "Green" && Title("yellow") == "Yellow" && Title("pink") == "Pink"
  {
  }

  lemma TitlesOfColorsC()
    ensures Title("purple") == "Purple" && Title("orange") == "Orange"
  {
  }

  lemma TitlesOfColorsD()
    ensures Title("brown") == "Brown" && Title("gray") == "Gray"
  {
  }

  /** The color table only repeats title case, except that "grey" is spelled "Gray". */
  lemma StandardizeColorIsTitle(s: string)
    ensures var k := Lower(Strip(s));
      StandardizeColor(Some(s)) == Some(if k == "grey" then "Gray" else Title(k))
  {
    TitlesOfColorsA();
    TitlesOfColorsB();
    TitlesOfColorsC();
    TitlesOfColorsD();
  }

  lemma StandardizeColorIdempotent(v: Option<string>)
    ensures StandardizeColor(StandardizeColor(v)) == StandardizeColor(v)
  {
    if v.Some? {
      var k := Lower(Strip(v.value));
      StandardizeColorIsTitle(v.value);
      if k == "grey" {
        StandardizeColorIsTitle("Gray");
        StripUnchanged("Gray");
        assert Lower("Gray") == "gray";
        TitlesOfColorsD();
      } else {
        FallbackKeepsKey(v.value);
        StandardizeColorIsTitle(Title(k));
        TitleOfLower(k);
        TitleIdempotent(k);
      }
    }
  }

  function StandardizeColorOfRow(p: Product): (r: Product)
    ensures r == p.(color := r.color)
    ensures r.color == StandardizeColor(p.color)
  {
    p.(color := StandardizeColor(p.color))
  }

  // ---------------------------------------------------------------- 7. size

  /** Lines 391-394. */
  const SIZE_NAMES: map<string, string> := map[
    "xs" := "XS", "s" := "S", "m" := "M", "l" := "L", "xl" := "XL", "xxl" := "XXL",
    "one size" := "One Size", "onesize" := "One Size"]

  /** Lines 395-397: the stripped, lower-cased size looked up, else upper-cased. */
  function StandardizeSize(v: Option<string>): (r: Option<string>)
    ensures r.Some? <==> v.Some?
  {
    match v
    case None => None
    case Some(s) => Some(LookupOr(SIZE_NAMES, Upper, Lower(Strip(s))))
  }

  /** The size table only repeats upper case, except for the two spellings of "One Size". */
  lemma StandardizeSizeIsUpper(s: string)
    ensures var k := Lower(Strip(s));
      StandardizeSize(Some(s)) == Some(if k == "one size" || k == "onesize" then "One Size" else Upper(k))
  {
    assert Upper("xs") == "XS" && Upper("s") == "S" && Upper("m") == "M";
    assert Upper("l") == "L" && Upper("xl") == "XL" && Upper("xxl") == "XXL";
  }

  lemma KeyOfOneSize()
    ensures Lower(Strip("One Size")) == "one size"
  {
    StripUnchanged("One Size");
  }

  lemma StandardizeSizeIdempotent(v: Option<string>)
    ensures StandardizeSize(StandardizeSize(v)) == StandardizeSize(v)
  {
    if v.Some? {
      StandardizeSizeIsUpper(v.value);
      var k := Lower(Strip(v.value));
      if k == "one size" || k == "onesize" {
        KeyOfOneSize();
        StandardizeSizeIsUpper("One Size");
      } else {
        StandardizeSizeOfUpperKey(v.value);
      }
    }
  }

  lemma StandardizeSizeOfUpperKey(s: string)
    requires Lower(Strip(s)) != "one size" && Lower(Strip(s)) != "onesize"
    ensures var k := Lower(Strip(s)); StandardizeSize(Some(Upper(k))) == Some(Upper(k))
  {
    var k := Lower(Strip(s));
    FallbackKeepsKey(s);
    StandardizeSizeIsUpper(Upper(k));
    UpperIdempotent(k);
    LowerOfUpper(k);
  }

  function StandardizeSizeOfRow(p: Product): (r: Product)
    ensures r == p.(size := r.size)
    ensures r.size == StandardizeSize(p.size)
  {
    p.(size := StandardizeSize(p.size))
  }

  // ---------------------------------------------------------------- 8. dates

  /**
   * `parse_date`: a text with a 'T' is read by `parseIso` (the library's
   * `%Y-%m-%dT%H:%M:%S.%fZ` reader), any other by `%Y-%m-%d` at midnight;
   * a text neither accepts becomes missing, as does the empty text.
   */
  function ParseProductDate(v: Option<Cell<DateTime>>, parseIso: string -> Option<DateTime>): (r: Option<Cell<DateTime>>)
    ensures IsConverted(r)
    ensures IsConverted(v) ==> r == v
    ensures v.Some? && v.value.Text? && 'T' in v.value.text ==>
      (r.Some? <==> parseIso(v.value.text).Some?) &&
      (r.Some? ==> r.value == Value(parseIso(v.value.text).value))
    ensures v.Some? && v.value.Text? && 'T' !in v.value.text ==>
      (r.Some? <==> Strptime(v.value.text, YMD_DASH).Some?) &&
      (r.Some? ==> r.value == Value(AtMidnight(Strptime(v.value.text, YMD_DASH).value)))
  {
    match v
    case None => None
    case Some(Value(_)) => v
    case Some(Text(s)) =>
      if s == "" then None
      else if 'T' in s then
        match parseIso(s)
        case Some(t) => Some(Value(t))
        case None => None
      else
        match Strptime(s, YMD_DASH)
        case Some(d) => Some(Value(AtMidnight(d)))
        case None => None
  }

  /** A date rendered as `%Y-%m-%d` is read back as that day at midnight, whatever `parseIso` does. */
  lemma ParseProductDateRoundTrip(d: Date, parseIso: string -> Option<DateTime>)
    requires IsValidDate(d)
    ensures ParseProductDate(Some(Text(FormatIsoDate(d))), parseIso) == Some(Value(AtMidnight(d)))
  {
    var s := FormatIsoDate(d);
    assert 'T' !in s by {
      forall i | 0 <= i < |s| ensures s[i] != 'T' {
        assert i == 4 || i == 7 || IsDigit(s[i]);
      }
    }
    IsoDateRoundTrip(d);
  }

  /** A text without a 'T' that `%Y-%m-%d` rejects becomes missing. */
  lemma ParseProductDateRejects(s: string, parseIso: string -> Option<DateTime>)
    requires 'T' !in s && Strptime(s, YMD_DASH).None?
    ensures ParseProductDate(Some(Text(s)), parseIso).None?
  {
  }

  /** Lines 411-412. */
  function WithParsedDates(p: Product, parseIso: string -> Option<DateTime>): (r: Product)
    ensures r == p.(createdDate := r.createdDate, lastUpdated := r.lastUpdated)
    ensures r.createdDate == ParseProductDate(p.createdDate, parseIso)
    ensures r.lastUpdated == ParseProductDate(p.lastUpdated, parseIso)
  {
    p.(createdDate := ParseProductDate(p.createdDate, parseIso),
       lastUpdated := ParseProductDate(p.lastUpdated, parseIso))
  }

  // ---------------------------------------------------------------- 9. dimensions

  /** Length of the run of ASCII digits that starts `s`. */
  function DigitRun(s: string): (k: nat)
    ensures k <= |s|
    ensures forall i :: 0 <= i < k ==> IsDigit(s[i])
    ensures k < |s| ==> !IsDigit(s[k])
  {
    if |s| == 0 || !IsDigit(s[0]) then 0 else 1 + DigitRun(s[1..])
  }

  /** One or more digits: `\d+`. */
  predicate IsDigits(s: string) {
    |s| > 0 && forall i :: 0 <= i < |s| ==> IsDigit(s[i])
  }

  /** `\d+x\d+x\d+` matching the whole of `t`; digits and 'x' are disjoint, so the runs are maximal. */
  predicate ThreeRuns(t: string) {
    var i := DigitRun(t);
    0 < i < |t| && t[i] == 'x' &&
    var u := t[i + 1..];
    var j := DigitRun(u);
    0 < j < |u| && u[j] == 'x' &&
    var w := u[j + 1..];
    0 < |w| && DigitRun(w) == |w|
  }

  /** The three numbers of a matching text. */
  function SplitDimensions(t: string): (r: (string, string, string))
    requires ThreeRuns(t)
    ensures IsDigits(r.0) && IsDigits(r.1) && IsDigits(r.2)
    ensures t == r.0 + "x" + r.1 + "x" + r.2
  {
    var i := DigitRun(t);
    var u := t[i + 1..];
    var j := DigitRun(u);
    assert t == t[..i] + "x" + u[..j] + "x" + u[j + 1..];
    (t[..i], u[..j], u[j + 1..])
  }

  /** A run of `n` digits not followed by a digit is the leading run. */
  lemma {:induction false} DigitRunIs(s: string, n: nat)
    requires n <= |s| && (forall i :: 0 <= i < n ==> IsDigit(s[i])) && (n < |s| ==> !IsDigit(s[n]))
    ensures DigitRun(s) == n
    decreases n
  {
    if n > 0 {
      var t := s[1..];
      forall i | 0 <= i < n - 1 ensures IsDigit(t[i]) {
        assert t[i] == s[i + 1];
      }
      if n - 1 < |t| {
        assert t[n - 1] == s[n];
      }
      DigitRunIs(t, n - 1);
    }
  }

  lemma DigitRunOfDigits(a: string, rest: string)
    requires IsDigits(a) && (|rest| > 0 ==> !IsDigit(rest[0]))
    ensures DigitRun(a + rest) == |a|
  {
    var s := a + rest;
    forall i | 0 <= i < |a| ensures IsDigit(s[i]) {
      assert s[i] == a[i];
    }
    if |a| < |s| {
      assert s[|a|] == rest[0];
    }
    DigitRunIs(s, |a|);
  }

  /** Every three numbers joined by 'x' match, and split back into themselves. */
  lemma ThreeRunsComplete(a: string, b: string, c: string)
    requires IsDigits(a) && IsDigits(b) && IsDigits(c)
    ensures ThreeRuns(a + "x" + b + "x" + c)
    ensures SplitDimensions(a + "x" + b + "x" + c) == (a, b, c)
  {
    var t := a + "x" + b + "x" + c;
    DigitRunOfDigits(a, "x" + b + "x" + c);
    assert t == a + ("x" + b + "x" + c);
    var u := t[|a| + 1..];
    assert u == b + ("x" + c);
    DigitRunOfDigits(b, "x" + c);
    assert u[|b| + 1..] == c;
    DigitRunOfDigits(c, "");
    assert c + "" == c;
  }

  /** `re.match(r'^\d+x\d+x\d+$', s)`: `$` also matches before one final newline. */
  predicate MatchesDimensions(s: string) {
    ThreeRuns(s) || (|s| > 0 && s[|s| - 1] == '\n' && ThreeRuns(s[..|s| - 1]))
  }

  /** `validate_dimensions`: a matching text is kept, anything else becomes missing. */
  function ValidateDimensions(v: Option<string>): (r: Option<string>)
    ensures r.Some? ==> r == v && MatchesDimensions(r.value)
    ensures v.Some? && MatchesDimensions(v.value) ==> r == v
  {
    match v
    case None => None
    case Some(s) => if s == "" || !MatchesDimensions(s) then None else v
  }

  lemma ValidateDimensionsExamples()
    ensures ValidateDimensions(Some("10x20x30")) == Some("10x20x30")
    ensures ValidateDimensions(Some("10x20x30\n")) == Some("10x20x30\n")
    ensures ValidateDimensions(Some("10x20")) == None
  {
    ThreeRunsComplete("10", "20", "30");
    assert "10x20x30" == "10" + "x" + "20" + "x" + "30";
    assert "10x20x30\n"[..8] == "10x20x30";
    assert DigitRun("10x20") == 2 by {
      DigitRunOfDigits("10", "x20");
      assert "10x20" == "10" + "x20";
    }
    assert DigitRun("20") == 2 by {
      DigitRunOfDigits("20", "");
      assert "20" == "20" + "";
    }
    assert "10x20"[3..] == "20";
  }

  function ValidateDimensionsOfRow(p: Product): (r: Product)
    ensures r == p.(dimensions := r.dimensions)
    ensures r.dimensions == ValidateDimensions(p.dimensions)
  {
    p.(dimensions := ValidateDimensions(p.dimensions))
  }

  // ---------------------------------------------------------------- 10. category mismatch

  /** Lines 426-428: both categories present and different. */
  function CategoryMismatch(category: Option<string>, productCategory: Option<string>): (r: bool)
    ensures r ==> category.Some? && productCategory.Some?
    ensures category.Some? && productCategory.Some? ==> (r <==> category.value != productCategory.value)
  {
    category.Some? && productCategory.Some? && category != productCategory
  }

  /**
   * After standardisation two categories mismatch exactly when their lookup
   * keys differ: case and surrounding whitespace never cause a mismatch.
   */
  lemma CategoryMismatchOfKeys(c: string, pc: string)
    ensures CategoryMismatch(StandardizeCategory(Some(c)), StandardizeCategory(Some(pc)))
        <==> Lower(Strip(c)) != Lower(Strip(pc))
  {
    StandardizeCategoryIsTitle(Some(c));
    StandardizeCategoryIsTitle(Some(pc));
    var k, kp := Lower(Strip(c)), Lower(Strip(pc));
    LowerIdempotent(Strip(c));
    LowerIdempotent(Strip(pc));
    LowerOfTitle(k);
    LowerOfTitle(kp);
    if Title(k) == Title(kp) {
      assert k == Lower(Title(k));
    }
  }

  function CategoryMismatchOfRow(p: Product): (r: Product)
    ensures r == p.(categoryMismatch := r.categoryMismatch)
    ensures r.categoryMismatch == Some(CategoryMismatch(p.category, p.productCategory))
  {
    p.(categoryMismatch := Some(CategoryMismatch(p.category, p.productCategory)))
  }

  // ---------------------------------------------------------------- 11. numeric ranges

  /** Line 433: a negative price becomes missing. */
  function NonNegativeOrMissing(v: Option<Cell<real>>): (r: Option<Cell<real>>)
    ensures r.Some? ==> r == v
    ensures ValueOf(r).Some? ==> ValueOf(r).value >= 0.0
    ensures v.Some? && !(v.value.Value? && v.value.value < 0.0) ==> r == v
  {
    match v
    case Some(Value(x)) => if x < 0.0 then None else v
    case _ => v
  }

  /** The row with the negative values of the price columns in `cs` made missing. */
  function PricesClampedIn(p: Product, cs: set<PriceColumn>): (r: Product)
    ensures r == p.(price := r.price, listPrice := r.listPrice, cost := r.cost)
  {
    p.(price := if Price in cs then NonNegativeOrMissing(p.price) else p.price,
       listPrice := if ListPrice in cs then NonNegativeOrMissing(p.listPrice) else p.listPrice,
       cost := if Cost in cs then NonNegativeOrMissing(p.cost) else p.cost)
  }

  const CHECKED_PRICE_COLUMNS: seq<PriceColumn> := [Price, ListPrice, Cost]

  lemma PricesClampedInStep(p: Product, cs: set<PriceColumn>, c: PriceColumn)
    ensures PricesClampedIn(PricesClampedIn(p, cs), {c}) == PricesClampedIn(p, cs + {c})
  {
  }

  /** Line 436: a negative stock figure becomes zero. */
  function NonNegativeOrZero(v: Option<real>): (r: Option<real>)
    ensures r.Some? <==> v.Some?
    ensures r.Some? ==> r.value >= 0.0
    ensures v.Some? && v.value >= 0.0 ==> r == v
    ensures v.Some? && v.value < 0.0 ==> r == Some(0.0)
  {
    match v
    case Some(x) => if x < 0.0 then Some(0.0) else v
    case None => None
  }

  /** The columns of line 435. */
  datatype StockColumn = StockQuantity | StockLevel | ReorderLevel

  const STOCK_COLUMNS: seq<StockColumn> := [StockQuantity, StockLevel, ReorderLevel]

  function StockClampedIn(p: Product, cs: set<StockColumn>): (r: Product)
    ensures r == p.(stockQuantity := r.stockQuantity, stockLevel := r.stockLevel, reorderLevel := r.reorderLevel)
  {
    p.(stockQuantity := if StockQuantity in cs then NonNegativeOrZero(p.stockQuantity) else p.stockQuantity,
       stockLevel := if StockLevel in cs then NonNegativeOrZero(p.stockLevel) else p.stockLevel,
       reorderLevel := if ReorderLevel in cs then NonNegativeOrZero(p.reorderLevel) else p.reorderLevel)
  }

  lemma StockClampedInStep(p: Product, cs: set<StockColumn>, c: StockColumn)
    ensures StockClampedIn(StockClampedIn(p, cs), {c}) == StockClampedIn(p, cs + {c})
  {
  }

  /** Lines 438-440: the rating read as a number, and missing outside [0, 5]. */
  function CheckRating(v: Option<Cell<real>>, toNumeric: string -> Option<real>): (r: Option<Cell<real>>)
    ensures IsConverted(r)
    ensures ValueOf(r).Some? ==> 0.0 <= ValueOf(r).value <= 5.0
    ensures r.Some? ==> r == ToNumeric(v, toNumeric)
    ensures ValueOf(ToNumeric(v, toNumeric)).Some? && 0.0 <= ValueOf(ToNumeric(v, toNumeric)).value <= 5.0 ==>
      r == ToNumeric(v, toNumeric)
  {
    var n := ToNumeric(v, toNumeric);
    match n
    case Some(Value(x)) => if x < 0.0 || x > 5.0 then None else n
    case _ => n
  }

  /** Lines 432-440. */
  function WithValidRanges(p: Product, toNumeric: string -> Option<real>): (r: Product)
    ensures r == p.(price := r.price, listPrice := r.listPrice, cost := r.cost,
                    stockQuantity := r.stockQuantity, stockLevel := r.stockLevel, reorderLevel := r.reorderLevel,
                    rating := r.rating)
  {
    StockClampedIn(PricesClampedIn(p, set c | c in CHECKED_PRICE_COLUMNS), set c | c in STOCK_COLUMNS)
      .(rating := CheckRating(p.rating, toNumeric))
  }

  /** Non-negative or missing prices, non-negative stock figures and a rating within [0, 5]. */
  predicate InRange(p: Product) {
    (ValueOf(p.price).Some? ==> ValueOf(p.price).value >= 0.0) &&
    (ValueOf(p.listPrice).Some? ==> ValueOf(p.listPrice).value >= 0.0) &&
    (ValueOf(p.cost).Some? ==> ValueOf(p.cost).value >= 0.0) &&
    (p.stockQuantity.Some? ==> p.stockQuantity.value >= 0.0) &&
    (p.stockLevel.Some? ==> p.stockLevel.value >= 0.0) &&
    (p.reorderLevel.Some? ==> p.reorderLevel.value >= 0.0) &&
    IsConverted(p.rating) && (ValueOf(p.rating).Some? ==> 0.0 <= ValueOf(p.rating).value <= 5.0)
  }

  /**
   * The range step puts every row in range, keeps every value already in
   * range, and keeps the presence of every stock figure.
   */
  lemma WithValidRangesSound(p: Product, toNumeric: string -> Option<real>)
    ensures InRange(WithValidRanges(p, toNumeric))
    ensures var r := WithValidRanges(p, toNumeric);
      r.stockQuantity.Some? == p.stockQuantity.Some? && r.stockLevel.Some? == p.stockLevel.Some? &&
      r.reorderLevel.Some? == p.reorderLevel.Some?
    ensures InRange(p) && IsConverted(p.rating) ==> WithValidRanges(p, toNumeric) == p
  {
    assert (set c | c in CHECKED_PRICE_COLUMNS) == {Price, ListPrice, Cost};
    assert (set c | c in STOCK_COLUMNS) == {StockQuantity, StockLevel, ReorderLevel};
  }

  /** Lines 432-433: the loop over the checked price columns. */
  method ClampPrices(rows: array<Product>)
    modifies rows
    ensures rows[..] == MapSeq(old(rows[..]), p => PricesClampedIn(p, set c | c in CHECKED_PRICE_COLUMNS))
  {
    ghost var before := rows[..];
    for k := 0 to |CHECKED_PRICE_COLUMNS|
      invariant forall i :: 0 <= i < rows.Length ==>
        rows[i] == PricesClampedIn(before[i], set j | 0 <= j < k :: CHECKED_PRICE_COLUMNS[j])
    {
      var c := CHECKED_PRICE_COLUMNS[k];
      ghost var done := set j | 0 <= j < k :: CHECKED_PRICE_COLUMNS[j];
      MapRows(rows, p => PricesClampedIn(p, {c}));
      assert (set j | 0 <= j < k + 1 :: CHECKED_PRICE_COLUMNS[j]) == done + {c};
      forall i | 0 <= i < rows.Length
        ensures rows[i] == PricesClampedIn(before[i], done + {c})
      {
        PricesClampedInStep(before[i], done, c);
      }
    }
    assert (set j | 0 <= j < |CHECKED_PRICE_COLUMNS| :: CHECKED_PRICE_COLUMNS[j]) == set c | c in CHECKED_PRICE_COLUMNS;
  }

  /** Lines 435-436: the loop over the stock columns. */
  method ClampStock(rows: array<Product>)
    modifies rows
    ensures rows[..] == MapSeq(old(rows[..]), p => StockClampedIn(p, set c | c in STOCK_COLUMNS))
  {
    ghost var before := rows[..];
    for k := 0 to |STOCK_COLUMNS|
      invariant forall i :: 0 <= i < rows.Length ==>
        rows[i] == StockClampedIn(before[i], set j | 0 <= j < k :: STOCK_COLUMNS[j])
    {
      var c := STOCK_COLUMNS[k];
      ghost var done := set j | 0 <= j < k :: STOCK_COLUMNS[j];
      MapRows(rows, p => StockClampedIn(p, {c}));
      assert (set j | 0 <= j < k + 1 :: STOCK_COLUMNS[j]) == done + {c};
      forall i | 0 <= i < rows.Length
        ensures rows[i] == StockClampedIn(before[i], done + {c})
      {
        StockClampedInStep(before[i], done, c);
      }
    }
    assert (set j | 0 <= j < |STOCK_COLUMNS| :: STOCK_COLUMNS[j]) == set c | c in STOCK_COLUMNS;
  }

  /** Lines 431-440: prices, stock figures, then the rating. */
  method ValidateNumericRanges(rows: array<Product>, toNumeric: string -> Option<real>)
    modifies rows
    ensures rows[..] == MapSeq(old(rows[..]), p => WithValidRanges(p, toNumeric))
  {
    ghost var s0 := rows[..];
    ClampPrices(rows);
    ghost var s1 := rows[..];
    ClampStock(rows);
    ghost var s2 := rows[..];
    MapRows(rows, (p: Product) => p.(rating := CheckRating(p.rating, toNumeric)));
    forall i | 0 <= i < rows.Length
      ensures rows[i] == WithValidRanges(s0[i], toNumeric)
    {
      assert s1[i] == PricesClampedIn(s0[i], set c | c in CHECKED_PRICE_COLUMNS);
      assert s2[i] == StockClampedIn(s1[i], set c | c in STOCK_COLUMNS);
    }
  }

  // ---------------------------------------------------------------- the whole pass

  /** Steps 1-4: blanks, prices, categories, brands. */
  function StandardizedProduct(p: Product, toNumeric: string -> Option<real>): Product {
    WithBrands(WithCategories(WithNumericPrices(WithoutBlanks(p), toNumeric)))
  }

  /** Steps 5-10: is_active and its flag, color, size, dates, dimensions, category mismatch. */
  function CheckedProduct(p: Product, parseIso: string -> Option<DateTime>): Product {
    CategoryMismatchOfRow(ValidateDimensionsOfRow(WithParsedDates(
      StandardizeSizeOfRow(StandardizeColorOfRow(WithActiveFlag(p))), parseIso)))
  }

  /** Steps 1-11 of `clean_product_dataset` on one row. */
  function CleanProduct(p: Product, toNumeric: string -> Option<real>, parseIso: string -> Option<DateTime>): Product {
    WithValidRanges(CheckedProduct(StandardizedProduct(p, toNumeric), parseIso), toNumeric)
  }

  /** A standardised brand: empty, or its own standard form (which covers missing). */
  predicate BrandClean(b: Option<string>) {
    b == Some("") || StandardizeBrand(b) == b
  }

  /** A category that standardises to itself (which covers missing). */
  predicate CategoryClean(c: Option<string>) {
    StandardizeCategory(c) == c
  }

  /** The columns as steps 1-4 leave them. */
  predicate TextColumnsClean(p: Product) {
    p.description != Some("") && p.supplierId != Some("") &&
    p.createdDate != Some(Text("")) && p.lastUpdated != Some(Text("")) &&
    PricesConverted(p) && CategoryClean(p.category) && CategoryClean(p.productCategory) &&
    p.finalCategory == FinalCategory(p.category, p.productCategory) &&
    BrandClean(p.brand) && BrandClean(p.manufacturer)
  }

  /** The columns as steps 5-10 leave them. */
  predicate CheckedColumnsClean(p: Product) {
    IsConverted(p.isActive) && p.isActiveFlagIssue.Some? &&
    (p.isActiveFlagIssue == Some(true) ==> p.isActive == Some(Value(true))) &&
    StandardizeColor(p.color) == p.color && StandardizeSize(p.size) == p.size &&
    IsConverted(p.createdDate) && IsConverted(p.lastUpdated) &&
    (p.dimensions.Some? ==> MatchesDimensions(p.dimensions.value)) &&
    p.categoryMismatch == Some(CategoryMismatch(p.category, p.productCategory))
  }

  /**
   * What the pass promises of a row: every column in its standard form, the
   * derived columns computed from the standardised ones, numbers in range.
   */
  predicate IsCleanProduct(p: Product) {
    TextColumnsClean(p) && CheckedColumnsClean(p) && InRange(p)
  }

  /** Steps 1-4 put the text, price, category and brand columns in standard form. */
  lemma StandardizedProductSound(p: Product, toNumeric: string -> Option<real>)
    ensures TextColumnsClean(StandardizedProduct(p, toNumeric))
  {
    var p2 := WithNumericPrices(WithoutBlanks(p), toNumeric);
    var p3 := WithCategories(p2);
    StandardizeCategoryIdempotent(p2.category);
    StandardizeCategoryIdempotent(p2.productCategory);
    if StandardizeBrand(p3.brand) != Some("") {
      StandardizeBrandIdempotent(p3.brand);
    }
    if StandardizeBrand(p3.manufacturer) != Some("") {
      StandardizeBrandIdempotent(p3.manufacturer);
    }
  }

  /** Steps 5-10 keep what steps 1-4 established and standardise the rest. */
  lemma CheckedProductSound(p: Product, parseIso: string -> Option<DateTime>)
    requires TextColumnsClean(p)
    ensures TextColumnsClean(CheckedProduct(p, parseIso)) && CheckedColumnsClean(CheckedProduct(p, parseIso))
  {
    StandardizeColorIdempotent(WithActiveFlag(p).color);
    StandardizeSizeIdempotent(WithActiveFlag(p).size);
  }

  /** Every row the pass produces is clean. */
  lemma CleanProductSound(p: Product, toNumeric: string -> Option<real>, parseIso: string -> Option<DateTime>)
    ensures IsCleanProduct(CleanProduct(p, toNumeric, parseIso))
  {
    var q := CheckedProduct(StandardizedProduct(p, toNumeric), parseIso);
    StandardizedProductSound(p, toNumeric);
    CheckedProductSound(StandardizedProduct(p, toNumeric), parseIso);
    WithValidRangesSound(q, toNumeric);
  }

  /** A row with the columns a second pass would blank out. */
  predicate HasEmptyText(p: Product) {
    p.brand == Some("") || p.manufacturer == Some("") || p.color == Some("") || p.size == Some("")
  }

  lemma NoMatchOfEmpty()
    ensures !MatchesDimensions("")
  {
  }

  lemma StandardizedProductOfClean(q: Product, toNumeric: string -> Option<real>)
    requires IsCleanProduct(q) && !HasEmptyText(q)
    ensures StandardizedProduct(q, toNumeric) == q
  {
    NoMatchOfEmpty();
    assert WithoutBlanks(q) == q;
    assert WithNumericPrices(q, toNumeric) == q;
  }

  lemma CheckedProductOfClean(q: Product, parseIso: string -> Option<DateTime>)
    requires IsCleanProduct(q)
    ensures CheckedProduct(q, parseIso) == q.(isActiveFlagIssue := Some(ActiveFlagIssue(q.isActive, q.price, q.stockQuantity)))
  {
  }

  /**
   * A second pass over a cleaned row changes nothing but the issue flag,
   * unless the first pass left an empty brand, manufacturer, color or size
   * (which the second pass blanks out). The flag can change because the
   * first pass computed it before the range check of step 11.
   */
  lemma CleanProductStable(p: Product, toNumeric: string -> Option<real>, parseIso: string -> Option<DateTime>)
    requires !HasEmptyText(CleanProduct(p, toNumeric, parseIso))
    ensures var r := CleanProduct(p, toNumeric, parseIso);
      CleanProduct(r, toNumeric, parseIso) == r.(isActiveFlagIssue := Some(ActiveFlagIssue(r.isActive, r.price, r.stockQuantity)))
  {
    var r := CleanProduct(p, toNumeric, parseIso);
    CleanProductSound(p, toNumeric, parseIso);
    StandardizedProductOfClean(r, toNumeric);
    CheckedProductOfClean(r, parseIso);
    var q := r.(isActiveFlagIssue := Some(ActiveFlagIssue(r.isActive, r.price, r.stockQuantity)));
    WithValidRangesSound(q, toNumeric);
  }

  /** The row of missing values that the examples start from. */
  const MISSING_PRODUCT: Product := Product(
    None, None, None, None, None, None, None, None, None,
    None, None, None, None, None, None, None, None, None, None,
    None, None, None, None)

  /**
   * An active product with a negative price: step 11 makes the price
   * missing, but the flag of step 5 saw a price and stays false.
   */
  lemma ActiveFlagBeforeRangeCheck(toNumeric: string -> Option<real>, parseIso: string -> Option<DateTime>)
    ensures var p := MISSING_PRODUCT.(isActive := Some(Value(true)), price := Some(Value(-5.0)), stockQuantity := Some(3.0));
      var r := CleanProduct(p, toNumeric, parseIso);
      r.isActive == Some(Value(true)) && r.price.None? && r.isActiveFlagIssue == Some(false)
  {
  }

  lemma KeyOfYes()
    ensures Lower(Strip("YES")) == "yes"
  {
    StripUnchanged("YES");
  }

  /** An active product ("YES") with no price is flagged. */
  lemma ActiveWithoutPriceFlagged(toNumeric: string -> Option<real>, parseIso: string -> Option<DateTime>)
    ensures var p := MISSING_PRODUCT.(isActive := Some(Text("YES")), stockQuantity := Some(3.0));
      var r := CleanProduct(p, toNumeric, parseIso);
      r.isActive == Some(Value(true)) && r.isActiveFlagIssue == Some(true)
  {
    KeyOfYes();
    StandardizeBooleanOfText("YES");
  }

  /**
   * In a cleaned row the flag is raised exactly when the product is active and
   * its price after step 2, or its stock quantity, is missing.
   */
  lemma ActiveFlagOfClean(p: Product, toNumeric: string -> Option<real>, parseIso: string -> Option<DateTime>)
    ensures var r := CleanProduct(p, toNumeric, parseIso);
      var q := StandardizedProduct(p, toNumeric);
      r.isActiveFlagIssue == Some(r.isActive == Some(Value(true)) && (q.price.None? || r.stockQuantity.None?))
  {
    var q := StandardizedProduct(p, toNumeric);
    WithValidRangesSound(CheckedProduct(q, parseIso), toNumeric);
  }

  /** The cleaned table: every row cleaned. */
  function CleanProducts(rows: seq<Product>, toNumeric: string -> Option<real>, parseIso: string -> Option<DateTime>): seq<Product> {
    MapSeq(rows, p => CleanProduct(p, toNumeric, parseIso))
  }

  lemma CleanProductsSound(rows: seq<Product>, toNumeric: string -> Option<real>, parseIso: string -> Option<DateTime>)
    ensures |CleanProducts(rows, toNumeric, parseIso)| == |rows|
    ensures forall i :: 0 <= i < |rows| ==> IsCleanProduct(CleanProducts(rows, toNumeric, parseIso)[i])
  {
    forall i | 0 <= i < |rows| ensures IsCleanProduct(CleanProducts(rows, toNumeric, parseIso)[i]) {
      CleanProductSound(rows[i], toNumeric, parseIso);
    }
  }

  // ---------------------------------------------------------------- the table

  /** Lines 340-347: both category columns, then the final category. */
  method StandardizeCategories(rows: array<Product>)
    modifies rows
    ensures rows[..] == MapSeq(old(rows[..]), WithCategories)
  {
    ghost var s0 := rows[..];
    MapRows(rows, StandardizeCategoryOfRow);
    ghost var s1 := rows[..];
    MapRows(rows, StandardizeProductCategoryOfRow);
    ghost var s2 := rows[..];
    MapRows(rows, FinalCategoryOfRow);
    forall i | 0 <= i < rows.Length ensures rows[i] == WithCategories(s0[i]) {
      assert s1[i] == StandardizeCategoryOfRow(s0[i]);
      assert s2[i] == StandardizeProductCategoryOfRow(s1[i]);
    }
  }

  /** Lines 357-358. */
  method StandardizeBrands(rows: array<Product>)
    modifies rows
    ensures rows[..] == MapSeq(old(rows[..]), WithBrands)
  {
    ghost var s0 := rows[..];
    MapRows(rows, StandardizeBrandOfRow);
    ghost var s1 := rows[..];
    MapRows(rows, StandardizeManufacturerOfRow);
    forall i | 0 <= i < rows.Length ensures rows[i] == WithBrands(s0[i]) {
      assert s1[i] == StandardizeBrandOfRow(s0[i]);
    }
  }

  /** Lines 369-375. */
  method StandardizeActive(rows: array<Product>)
    modifies rows
    ensures rows[..] == MapSeq(old(rows[..]), WithActiveFlag)
  {
    ghost var s0 := rows[..];
    MapRows(rows, (p: Product) => p.(isActive := StandardizeBoolean(p.isActive)));
    ghost var s1 := rows[..];
    MapRows(rows, (p: Product) => p.(isActiveFlagIssue := Some(ActiveFlagIssue(p.isActive, p.price, p.stockQuantity))));
    forall i | 0 <= i < rows.Length ensures rows[i] == WithActiveFlag(s0[i]) {
      assert s1[i] == s0[i].(isActive := StandardizeBoolean(s0[i].isActive));
    }
  }

  /** Steps 5-10 on the table. */
  method CheckColumns(rows: array<Product>, parseIso: string -> Option<DateTime>)
    modifies rows
    ensures rows[..] == MapSeq(old(rows[..]), p => CheckedProduct(p, parseIso))
  {
    ghost var s0 := rows[..];
    StandardizeActive(rows);
    ghost var s1 := rows[..];
    MapRows(rows, StandardizeColorOfRow);
    ghost var s2 := rows[..];
    MapRows(rows, StandardizeSizeOfRow);
    ghost var s3 := rows[..];
    MapRows(rows, p => WithParsedDates(p, parseIso));
    ghost var s4 := rows[..];
    MapRows(rows, ValidateDimensionsOfRow);
    ghost var s5 := rows[..];
    MapRows(rows, CategoryMismatchOfRow);
    forall i | 0 <= i < rows.Length ensures rows[i] == CheckedProduct(s0[i], parseIso) {
      assert s1[i] == WithActiveFlag(s0[i]);
      assert s2[i] == StandardizeColorOfRow(s1[i]);
      assert s3[i] == StandardizeSizeOfRow(s2[i]);
      assert s4[i] == WithParsedDates(s3[i], parseIso);
      assert s5[i] == ValidateDimensionsOfRow(s4[i]);
    }
  }

  /**
   * `clean_product_dataset`: the input table is copied and the copy cleaned
   * step by step; every row of the result is clean.
   */
  method CleanProductDataset(df: array<Product>, toNumeric: string -> Option<real>, parseIso: string -> Option<DateTime>)
    returns (cleaned: array<Product>)
    ensures fresh(cleaned)
    ensures cleaned[..] == CleanProducts(df[..], toNumeric, parseIso)
    ensures forall i :: 0 <= i < cleaned.Length ==> IsCleanProduct(cleaned[i])
  {
    cleaned := new Product[df.Length](i requires 0 <= i < df.Length reads df => df[i]);
    ghost var s0 := cleaned[..];
    ReplaceBlanks(cleaned);
    ghost var s1 := cleaned[..];
    ConvertPrices(cleaned, toNumeric);
    ghost var s2 := cleaned[..];
    StandardizeCategories(cleaned);
    ghost var s3 := cleaned[..];
    StandardizeBrands(cleaned);
    ghost var s4 := cleaned[..];
    CheckColumns(cleaned, parseIso);
    ghost var s5 := cleaned[..];
    ValidateNumericRanges(cleaned, toNumeric);
    forall i | 0 <= i < cleaned.Length ensures cleaned[i] == CleanProduct(df[i], toNumeric, parseIso) {
      assert s1[i] == WithoutBlanks(df[i]);
      assert s2[i] == WithNumericPrices(s1[i], toNumeric);
      assert s3[i] == WithCategories(s2[i]);
      assert s4[i] == WithBrands(s3[i]);
      assert s5[i] == CheckedProduct(s4[i], parseIso);
    }
    CleanProductsSound(df[..], toNumeric, parseIso);
  }
}

=== FILE: text.dfy ===
/**
 * The string operations the cleaners rely on, with Python's meaning: character
 * classes, `lower`, `upper`, `title`, `capitalize`, `strip`, `split()` and
 * `' '.join`, and decimal rendering of integers.
 *
 * Letters, digits and case mapping are the ASCII ones; whitespace is the full
 * set of characters for which Python's `str.isspace()` holds.
 */
module Text {

  /** Python's `str.isspace()` (also the `\s` class of `re` on `str` patterns). */
  predicate IsSpace(c: char) {
    c == ' ' || ('\t' <= c <= '\r') || ('\U{1C}' <= c <= '\U{1F}') ||
    c == '\U{85}' || c == '\U{A0}' || c == '\U{1680}' ||
    ('\U{2000}' <= c <= '\U{200A}') || c == '\U{2028}' || c == '\U{2029}' ||
    c == '\U{202F}' || c == '\U{205F}' || c == '\U{3000}'
  }

  predicate IsDigit(c: char) { '0' <= c <= '9' }
  predicate IsUpperLetter(c: char) { 'A' <= c <= 'Z' }
  predicate IsLowerLetter(c: char) { 'a' <= c <= 'z' }
  /** A cased character, in Python's sense, restricted to ASCII. */
  predicate IsLetter(c: char) { IsUpperLetter(c) || IsLowerLetter(c) }

  function LowerChar(c: char): (r: char)
    ensures IsSpace(r) == IsSpace(c) && IsLetter(r) == IsLetter(c) && IsDigit(r) == IsDigit(c)
    ensures !IsUpperLetter(r)
  {
    if IsUpperLetter(c) then (c as int + 32) as char else c
  }

  function UpperChar(c: char): (r: char)
    ensures IsSpace(r) == IsSpace(c) && IsLetter(r) == IsLetter(c) && IsDigit(r) == IsDigit(c)
    ensures !IsLowerLetter(r)
  {
    if IsLowerLetter(c) then (c as int - 32) as char else c
  }

  lemma CaseOfCase(c: char)
    ensures LowerChar(LowerChar(c)) == LowerChar(c) && LowerChar(UpperChar(c)) == LowerChar(c)
    ensures UpperChar(UpperChar(c)) == UpperChar(c) && UpperChar(LowerChar(c)) == UpperChar(c)
  {
  }

  /** `str.lower()`. */
  function Lower(s: string): (r: string)
    ensures |r| == |s| && forall i :: 0 <= i < |s| ==> r[i] == LowerChar(s[i])
  {
    seq(|s|, i requires 0 <= i < |s| => LowerChar(s[i]))
  }

  /** `str.upper()`. */
  function Upper(s: string): (r: string)
    ensures |r| == |s| && forall i :: 0 <= i < |s| ==> r[i] == UpperChar(s[i])
  {
    seq(|s|, i requires 0 <= i < |s| => UpperChar(s[i]))
  }

  /**
   * `str.title()`: a character that starts the string or follows an uncased
   * character is upper-cased, every other character is lower-cased.
   */
  function Title(s: string): (r: string)
    ensures |r| == |s|
  {
    seq(|s|, i requires 0 <= i < |s| =>
      if i > 0 && IsLetter(s[i - 1]) then LowerChar(s[i]) else UpperChar(s[i]))
  }

  /** `str.capitalize()`: the first character upper-cased, the rest lower-cased. */
  function Capitalize(w: string): (r: string)
    ensures |r| == |w|
    ensures forall i :: 0 <= i < |w| ==> IsSpace(r[i]) == IsSpace(w[i])
    ensures forall i :: 0 <= i < |w| ==> r[i] == if i == 0 then UpperChar(w[0]) else LowerChar(w[i])
  {
    if |w| == 0 then w else [UpperChar(w[0])] + Lower(w[1..])
  }

  /** Two strings of equal length whose characters agree on being whitespace. */
  ghost predicate SameSpacing(x: string, y: string) {
    |x| == |y| && forall i :: 0 <= i < |x| ==> IsSpace(x[i]) == IsSpace(y[i])
  }

  // ---------------------------------------------------------------- strip

  /** Number of leading whitespace characters. */
  function LeadingSpaces(s: string): (k: nat)
    ensures k <= |s|
    ensures forall i :: 0 <= i < k ==> IsSpace(s[i])
    ensures k < |s| ==> !IsSpace(s[k])
  {
    if |s| == 0 || !IsSpace(s[0]) then 0 else 1 + LeadingSpaces(s[1..])
  }

  /** Length of `s` without its trailing whitespace. */
  function TrailingStart(s: string): (k: nat)
    ensures k <= |s|
    ensures forall i :: k <= i < |s| ==> IsSpace(s[i])
    ensures k > 0 ==> !IsSpace(s[k - 1])
  {
    if |s| == 0 || !IsSpace(s[|s| - 1]) then |s| else TrailingStart(s[..|s| - 1])
  }

  /** `str.strip()`: leading and trailing whitespace removed. */
  function Strip(s: string): (r: string)
    ensures |r| <= |s|
    ensures |r| > 0 ==> !IsSpace(r[0]) && !IsSpace(r[|r| - 1])
    ensures r == s[LeadingSpaces(s)..][..TrailingStart(s[LeadingSpaces(s)..])]
  {
    var t := s[LeadingSpaces(s)..];
    t[..TrailingStart(t)]
  }

  /** True when `str.strip()` gives the empty string. */
  predicate IsBlank(s: string) {
    Strip(s) == ""
  }

  lemma {:induction false} LeadingSpacesOfSameSpacing(x: string, y: string)
    requires SameSpacing(x, y)
    ensures LeadingSpaces(x) == LeadingSpaces(y)
  {
    if |x| > 0 && IsSpace(x[0]) {
      LeadingSpacesOfSameSpacing(x[1..], y[1..]);
    }
  }

  lemma {:induction false} TrailingStartOfSameSpacing(x: string, y: string)
    requires SameSpacing(x, y)
    ensures TrailingStart(x) == TrailingStart(y)
  {
    if |x| > 0 && IsSpace(x[|x| - 1]) {
      TrailingStartOfSameSpacing(x[..|x| - 1], y[..|y| - 1]);
    }
  }

  /** Strings with the same whitespace pattern are stripped at the same positions. */
  lemma StripOfSameSpacing(x: string, y: string)
    requires SameSpacing(x, y)
    ensures LeadingSpaces(x) == LeadingSpaces(y)
    ensures TrailingStart(x[LeadingSpaces(x)..]) == TrailingStart(y[LeadingSpaces(y)..])
  {
    LeadingSpacesOfSameSpacing(x, y);
    var a := LeadingSpaces(x);
    TrailingStartOfSameSpacing(x[a..], y[a..]);
  }

  /** A string without whitespace at either end is its own strip. */
  lemma StripUnchanged(s: string)
    requires |s| > 0 ==> !IsSpace(s[0]) && !IsSpace(s[|s| - 1])
    ensures Strip(s) == s
  {
  }

  lemma StripIdempotent(s: string)
    ensures Strip(Strip(s)) == Strip(s)
  {
    StripUnchanged(Strip(s));
  }

  // ---------------------------------------------------------------- case lemmas

  lemma LowerIdempotent(s: string)
    ensures Lower(Lower(s)) == Lower(s)
  {
  }

  lemma LowerOfTitle(s: string)
    ensures Lower(Title(s)) == Lower(s)
  {
  }

  lemma LowerOfUpper(s: string)
    ensures Lower(Upper(s)) == Lower(s)
  {
  }

  lemma UpperIdempotent(s: string)
    ensures Upper(Upper(s)) == Upper(s)
  {
  }

  lemma TitleOfLower(s: string)
    ensures Title(Lower(s)) == Title(s)
  {
  }

  lemma TitleIdempotent(s: string)
    ensures Title(Title(s)) == Title(s)
  {
  }

  /** Position `i` of `s` is cased as `str.title()` would case it. */
  predicate TitleCasedAt(s: string, i: nat)
    requires i < |s|
  {
    if i > 0 && IsLetter(s[i - 1]) then !IsUpperLetter(s[i]) else !IsLowerLetter(s[i])
  }

  /** Already in `str.title()` form. */
  predicate TitleCased(s: string) {
    forall i :: 0 <= i < |s| ==> TitleCasedAt(s, i)
  }

  lemma TitleOfTitleCased(s: string)
    requires TitleCased(s)
    ensures Title(s) == s
  {
    forall i | 0 <= i < |s| ensures Title(s)[i] == s[i] {
      assert TitleCasedAt(s, i);
    }
  }

  lemma SameSpacingOfRecased(x: string, y: string)
    requires Lower(x) == Lower(y)
    ensures SameSpacing(x, y)
  {
    forall i | 0 <= i < |x| ensures IsSpace(x[i]) == IsSpace(y[i]) {
      assert LowerChar(x[i]) == LowerChar(y[i]) by {
        assert Lower(x)[i] == Lower(y)[i];
      }
    }
  }

  lemma StripAsSlice(s: string)
    ensures var a := LeadingSpaces(s); Strip(s) == s[a..a + TrailingStart(s[a..])]
  {
  }

  lemma LowerOfSlice(x: string, y: string, lo: nat, hi: nat)
    requires Lower(x) == Lower(y) && lo <= hi <= |x|
    ensures Lower(x[lo..hi]) == Lower(y[lo..hi])
  {
    assert Lower(x[lo..hi]) == Lower(x)[lo..hi];
    assert Lower(y[lo..hi]) == Lower(y)[lo..hi];
  }

  /** Re-casing keeps the whitespace pattern, so it commutes with `strip`. */
  lemma LowerStripOfRecased(x: string, y: string)
    requires Lower(x) == Lower(y)
    ensures Lower(Strip(x)) == Lower(Strip(y))
  {
    SameSpacingOfRecased(x, y);
    StripOfSameSpacing(x, y);
    var a := LeadingSpaces(x);
    var b := TrailingStart(x[a..]);
    StripAsSlice(x);
    StripAsSlice(y);
    LowerOfSlice(x, y, a, a + b);
  }

  /** `s.lower().strip()` and `s.strip().lower()` agree. */
  lemma StripOfLower(s: string)
    ensures Strip(Lower(s)) == Lower(Strip(s))
  {
    LowerIdempotent(s);
    SameSpacingOfRecased(s, Lower(s));
    StripOfSameSpacing(s, Lower(s));
    var a := LeadingSpaces(s);
    var b := TrailingStart(s[a..]);
    StripAsSlice(s);
    StripAsSlice(Lower(s));
    assert Lower(s)[a..a + b] == Lower(s[a..a + b]);
  }

  /**
   * The lookup key `s.strip().lower()` of a title-cased or upper-cased key is
   * the key itself: re-standardising a standardised value finds the same key.
   */
  lemma KeyOfRecasedKey(s: string)
    ensures var k := Lower(Strip(s));
      Lower(Strip(Title(k))) == k && Lower(Strip(Upper(k))) == k && Lower(Strip(k)) == k
  {
    var k := Lower(Strip(s));
    LowerOfTitle(k);
    LowerOfUpper(k);
    LowerIdempotent(Strip(s));
    LowerStripOfRecased(Title(k), k);
    LowerStripOfRecased(Upper(k), k);
    StripUnchanged(k);
  }

  // ---------------------------------------------------------------- split / join

  /** A word of `str.split()`: non-empty and free of whitespace. */
  predicate IsWord(w: string) {
    |w| > 0 && forall i :: 0 <= i < |w| ==> !IsSpace(w[i])
  }

  /** Length of the leading run of non-whitespace characters. */
  function WordLength(s: string): (k: nat)
    ensures k <= |s|
    ensures forall i :: 0 <= i < k ==> !IsSpace(s[i])
    ensures k < |s| ==> IsSpace(s[k])
    ensures |s| > 0 && !IsSpace(s[0]) ==> k > 0
  {
    if |s| == 0 || IsSpace(s[0]) then 0 else 1 + WordLength(s[1..])
  }

  /** `str.split()` without arguments: the maximal runs of non-whitespace characters. */
  function Words(s: string): (r: seq<string>)
    ensures forall j :: 0 <= j < |r| ==> IsWord(r[j])
    decreases |s|
  {
    if |s| == 0 then []
    else if IsSpace(s[0]) then Words(s[1..])
    else [s[..WordLength(s)]] + Words(s[WordLength(s)..])
  }

  /** `' '.join(ws)`. */
  function JoinSpace(ws: seq<string>): (r: string)
  {
    if |ws| == 0 then ""
    else if |ws| == 1 then ws[0]
    else ws[0] + " " + JoinSpace(ws[1..])
  }

  lemma {:induction false} WordLengthOfWord(w: string, rest: string)
    requires IsWord(w)
    requires |rest| > 0 ==> IsSpace(rest[0])
    ensures WordLength(w + rest) == |w|
  {
    if |w| > 1 {
      assert (w + rest)[1..] == w[1..] + rest;
      WordLengthOfWord(w[1..], rest);
    }
  }

  /** Splitting a space-joined list of words gives back the words. */
  lemma {:induction false} WordsOfJoin(ws: seq<string>)
    requires forall j :: 0 <= j < |ws| ==> IsWord(ws[j])
    ensures Words(JoinSpace(ws)) == ws
  {
    if |ws| == 0 {
    } else if |ws| == 1 {
      WordLengthOfWord(ws[0], "");
      assert ws[0][..|ws[0]|] == ws[0];
      assert ws[0][|ws[0]|..] == "";
    } else {
      var w, tail := ws[0], JoinSpace(ws[1..]);
      var s := w + " " + tail;
      assert s == w + (" " + tail);
      WordLengthOfWord(w, " " + tail);
      assert s[..|w|] == w;
      assert s[|w|..] == " " + tail;
      assert (" " + tail)[1..] == tail;
      WordsOfJoin(ws[1..]);
    }
  }

  /** A join of words is empty only when there are no words, and never has whitespace at its ends. */
  lemma {:induction false} JoinOfWordsShape(ws: seq<string>)
    requires forall j :: 0 <= j < |ws| ==> IsWord(ws[j])
    ensures var s := JoinSpace(ws);
      (|s| == 0 <==> |ws| == 0) && (|s| > 0 ==> !IsSpace(s[0]) && !IsSpace(s[|s| - 1]))
  {
    if |ws| > 1 {
      JoinOfWordsShape(ws[1..]);
    }
  }

  /** Every character of a join of words comes from a word or is the separating space. */
  lemma {:induction false} JoinChars(ws: seq<string>, P: char -> bool)
    requires P(' ')
    requires forall j :: 0 <= j < |ws| ==> forall i :: 0 <= i < |ws[j]| ==> P(ws[j][i])
    ensures forall i :: 0 <= i < |JoinSpace(ws)| ==> P(JoinSpace(ws)[i])
  {
    if |ws| > 1 {
      JoinChars(ws[1..], P);
    }
  }

  /** Every character of a word of `s` is a character of `s`. */
  lemma {:induction false} WordsChars(s: string, P: char -> bool)
    requires forall i :: 0 <= i < |s| ==> P(s[i])
    ensures forall j :: 0 <= j < |Words(s)| ==> forall i :: 0 <= i < |Words(s)[j]| ==> P(Words(s)[j][i])
    decreases |s|
  {
    if |s| > 0 {
      if IsSpace(s[0]) {
        WordsChars(s[1..], P);
      } else {
        WordsChars(s[WordLength(s)..], P);
      }
    }
  }

  // ---------------------------------------------------------------- digits

  /** `re.sub(r'\D', '', s)`: the digits of `s`, in order. */
  function DigitsOnly(s: string): (r: string)
    ensures |r| <= |s|
    ensures forall i :: 0 <= i < |r| ==> IsDigit(r[i])
  {
    if |s| == 0 then ""
    else (if IsDigit(s[0]) then [s[0]] else []) + DigitsOnly(s[1..])
  }

  lemma {:induction false} DigitsOnlyAppend(a: string, b: string)
    ensures DigitsOnly(a + b) == DigitsOnly(a) + DigitsOnly(b)
  {
    if |a| > 0 {
      assert (a + b)[1..] == a[1..] + b;
      DigitsOnlyAppend(a[1..], b);
    } else {
      assert a + b == b;
    }
  }

  lemma {:induction false} DigitsOnlyOfDigits(s: string)
    requires forall i :: 0 <= i < |s| ==> IsDigit(s[i])
    ensures DigitsOnly(s) == s
  {
    if |s| > 0 {
      DigitsOnlyOfDigits(s[1..]);
    }
  }

  lemma {:induction false} DigitsOnlyOfNonDigits(s: string)
    requires forall i :: 0 <= i < |s| ==> !IsDigit(s[i])
    ensures DigitsOnly(s) == ""
  {
    if |s| > 0 {
      DigitsOnlyOfNonDigits(s[1..]);
    }
  }

  function DigitChar(d: nat): (c: char)
    requires d < 10
    ensures IsDigit(c)
  {
    ('0' as int + d) as char
  }

  function DigitValue(c: char): (d: nat)
    requires IsDigit(c)
    ensures d < 10 && DigitChar(d) == c
  {
    c as int - '0' as int
  }

  /** The value of a string of decimal digits. */
  function DigitsValue(s: string): nat
    requires forall i :: 0 <= i < |s| ==> IsDigit(s[i])
  {
    if |s| == 0 then 0 else 10 * DigitsValue(s[..|s| - 1]) + DigitValue(s[|s| - 1])
  }

  function Pow10(n: nat): (p: nat)
    ensures p >= 1
  {
    if n == 0 then 1 else 10 * Pow10(n - 1)
  }

  /** The last `width` decimal digits of `n`, zero-padded (`%0<width>d` of `n % 10^width`). */
  function Padded(n: nat, width: nat): (s: string)
    ensures |s| == width
    ensures forall i :: 0 <= i < |s| ==> IsDigit(s[i])
  {
    if width == 0 then "" else Padded(n / 10, width - 1) + [DigitChar(n % 10)]
  }

  /** Reading back a zero-padded rendering gives the number, when it fits. */
  lemma {:induction false} PaddedValue(n: nat, width: nat)
    requires n < Pow10(width)
    ensures DigitsValue(Padded(n, width)) == n
  {
    if width > 0 {
      var s := Padded(n, width);
      assert s[..|s| - 1] == Padded(n / 10, width - 1);
      PaddedValue(n / 10, width - 1);
    }
  }

  /** `str(n)` for a natural number. */
  function NatToString(n: nat): (s: string)
    ensures |s| > 0
    ensures forall i :: 0 <= i < |s| ==> IsDigit(s[i])
  {
    if n < 10 then [DigitChar(n)] else NatToString(n / 10) + [DigitChar(n % 10)]
  }

  /** `int(str(n)) == n`. */
  lemma {:induction false} NatToStringValue(n: nat)
    ensures DigitsValue(NatToString(n)) == n
  {
    if n >= 10 {
      var s := NatToString(n);
      assert s[..|s| - 1] == NatToString(n / 10);
      NatToStringValue(n / 10);
    }
  }

  /** A number with `k` digits renders as `k` characters. */
  lemma {:induction false} NatToStringLength(n: nat, k: nat)
    requires k >= 1 && n < Pow10(k) && (k > 1 ==> Pow10(k - 1) <= n)
    ensures |NatToString(n)| == k
  {
    if n >= 10 {
      assert k >= 2;
      NatToStringLength(n / 10, k - 1);
    }
  }
}

=== FILE: values.dfy ===
/** Cell values shared by the three cleaners. */
module Values {

  /** A table cell that may be missing: `None` stands for NaN, None or NaT. */
  datatype Option<+T> = None | Some(value: T) {
    function GetOr(default: T): T {
      match this
      case Some(v) => v
      case None => default
    }
  }

  /**
   * A cell of a column whose dtype a cleaner converts in place: before the
   * conversion a present cell holds the raw text of the value, afterwards the
   * converted value.
   */
  datatype Cell<+T> = Text(text: string) | Value(value: T)

  /**
   * Multiplication of money amounts. Kept behind a function symbol: the
   * solver then compares products by their factors.
   */
  function Times(x: real, y: real): (r: real)
    ensures x >= 0.0 && y >= 0.0 ==> r >= 0.0
  {
    x * y
  }

  function Abs(x: real): (r: real)
    ensures r >= 0.0 && (r == x || r == -x)
  {
    if x < 0.0 then -x else x
  }

  /** A cell that is missing or converted. */
  predicate IsConverted<T>(v: Option<Cell<T>>) {
    v.None? || v.value.Value?
  }

  /** The converted value of a cell, if it holds one. */
  function ValueOf<T>(c: Option<Cell<T>>): Option<T> {
    match c
    case Some(Value(v)) => Some(v)
    case _ => None
  }
}

/** Column-wise application of a per-value function over every row of a table. */
module Tables {

  /** The rows of `s`, each replaced by `f` of itself. */
  function MapSeq<T, U>(s: seq<T>, f: T -> U): (r: seq<U>)
    ensures |r| == |s|
    ensures forall i :: 0 <= i < |s| ==> r[i] == f(s[i])
  {
    seq(|s|, i requires 0 <= i < |s| => f(s[i]))
  }

  /** The analogue of `df[col] = df[col].apply(f)`: every row is rewritten in place. */
  method MapRows<T>(a: array<T>, f: T -> T)
    modifies a
    ensures a[..] == MapSeq(old(a[..]), f)
  {
    var i := 0;
    while i < a.Length
      invariant 0 <= i <= a.Length
      invariant forall k :: 0 <= k < i ==> a[k] == f(old(a[k]))
      invariant forall k :: i <= k < a.Length ==> a[k] == old(a[k])
    {
      a[i] := f(a[i]);
      i := i + 1;
    }
  }

  /** A fresh array holding `f` of every row of `a`, for a step that changes the row type. */
  method MapInto<T, U>(a: array<T>, f: T -> U) returns (b: array<U>)
    ensures fresh(b)
    ensures b[..] == MapSeq(a[..], f)
  {
    b := new U[a.Length](i requires 0 <= i < a.Length reads a => f(a[i]));
  }
}
